=== FILE: README.md ===
# meet-booking in Dafny

A model of the meeting-room booking service: an Express/Prisma server and a few
client decisions of its React front end. The server's database is replaced by an
immutable in-memory store with one map per table: users, organizations, rooms,
bookings and invites. Booking participants are kept on the booking.

Each controller is a pure function from the store, the request and the current
instant `now` to `Result<(Store, output), Fault>` (updateBooking, whose writes
can precede its refusal, returns the store beside its reply). Instants are integer
milliseconds. `Fault` is `Validation | NotFound | Conflict`, the three error
classes the controllers throw. A reason tag stands in for the message text.

The route middleware chains become `requires` clauses:
- `Authenticated`: a stored, active caller.
- `InOrganization`: also a truthy `organizationId`.
- `IsAdminCaller`: also role admin.

`AuthGate.GatesEstablishCallerPredicates` proves that the three middlewares
establish exactly these predicates.

Outside code becomes parameters:
- Google Calendar is a finite script of replies. Every event request and every
  token refresh consumes one reply. The script's length is what bounds the
  service's self-recursive 401 retry.
- bcrypt, jwt, uuid, random bytes, and the row Prisma's `findFirst` picks are
  oracles passed in by the caller.

Modules, one per source component:

| module | file | models |
|---|---|---|
| Wrappers, Strings, Listing | wrappers.dfy, strings.dfy, listing.dfy | Option/Result, JavaScript string operations, filter and stable sort by key |
| Store | store.dfy | the tables, the unique columns, the middleware predicates, the no-double-booking invariant |
| Overlap | overlap.dfy | the interval queries of the booking table |
| Bookings | bookings.dfy | server/src/controllers/bookings.controller.ts |
| Slug, Organizations | slug.dfy, organizations.dfy | server/src/controllers/organizations.controller.ts |
| CalendarService | calendar_service.dfy | server/src/services/googleCalendar.service.ts |
| CalendarSync | calendar_sync.dfy | server/src/controllers/calendar.controller.ts |
| Rooms | rooms.dfy | server/src/controllers/rooms.controller.ts |
| Errors | errors.dfy | server/src/middleware/errorHandler.ts |
| Accounts | accounts.dfy | server/src/controllers/auth.controller.ts |
| AuthGate | auth_gate.dfy | server/src/middleware/auth.ts |
| GoogleLogin | google_login.dfy | server/src/config/passport.ts |
| Upload | upload.dfy | server/src/services/upload.service.ts |
| Amenities | amenities.dfy | server/src/constants/amenities.ts |
| AmenityIcons | amenity_icons.dfy | client/src/lib/amenities.ts |
| AuthGuard | auth_guard.dfy | client/src/components/layouts/auth-guard.tsx |
| BookingForm | booking_form.dfy | client/src/components/widgets/booking-dialog.tsx |
| BookingDetails | booking_details.dfy | client/src/components/widgets/booking-details-dialog.tsx |
| RoomRequest | room_query.dfy | client/src/services/rooms.ts |

Assumptions where the schema is not shown:
- A new booking is `confirmed`, because the status default of the booking table
  is not visible.
- A new user is an active `member`.
- A new room is active.

Details of the code the model keeps as written:
- The calendar service retries after every 401 with no bound
  (server/src/services/googleCalendar.service.ts:136-140).
- updateBooking writes the row, deletes the old participant links and inserts
  the new ones as three separate statements
  (server/src/controllers/bookings.controller.ts:346-372). A participant id that
  names no user fails the insertion with a 400 after the first two writes, so
  `Bookings.UpdateBooking` returns the store after the writes together with the
  reply. Its successful reply is the row read before the links changed.
- `isBookingEvent` is `!!bookingId`, so an event whose private `bookingId` is the
  empty string is not a booking event.

## Model

| member | source | states |
|---|---|---|
| Overlap.ThreeClauseIsIntersection | server/src/controllers/bookings.controller.ts:210-219 | For proper intervals the three-clause conflict query holds iff [S,E) and [s,e) intersect (S < e and s < E) |
| Overlap.IntersectionIsCaught | server/src/controllers/bookings.controller.ts:324-334 | For a proper candidate, every intersecting row satisfies the query, so the query never lets an overlap through |
| Overlap.BackToBack | server/src/controllers/bookings.controller.ts:210-219 | Back-to-back bookings (one ends where the other starts) never conflict, in either order |
| Overlap.MeetsWindowIsClosedIntersection | server/src/controllers/rooms.controller.ts:258-271 | The closed-window query equals start ≤ windowEnd and end ≥ windowStart |
| Bookings.CreateBooking | server/src/controllers/bookings.controller.ts:170-242 | The checks run in the source's order, each stated for every input that reaches it: missing field, start ≥ end, start < now, longer than 8 h (exactly 8 h allowed), room outside the caller's organization (NotFound), inactive room (Validation), overlap with a non-cancelled booking (Conflict), then a participant id naming no user (the foreign-key refusal, a 400, with nothing written since the links go in the same nested create). Success adds exactly one confirmed, unsynced row owned by the caller, with the creator removed from the participants, every participant a stored user, and the new row intersects no active booking of its room |
| Bookings.WithoutCounts | server/src/controllers/bookings.controller.ts:236-242 | Filtering the creator out drops every occurrence of that id and keeps every other id with its multiplicity |
| Bookings.WithoutDistributes | server/src/controllers/bookings.controller.ts:238-240 | The filter keeps the kept ids in their original order |
| Bookings.CreateKeepsNoDoubleBooking | server/src/controllers/bookings.controller.ts:206-228 | If no room had overlapping non-cancelled bookings before a successful create, none has after it |
| Bookings.UpdateBooking | server/src/controllers/bookings.controller.ts:285-378 | NotFound for an unknown id (looked up by id only); Validation for a caller who is neither owner nor admin, and for a stored end before now; a missing bound is taken from the stored booking; then Validation when start ≥ end and Conflict when another active booking of the room overlaps; these refusals write nothing, and past-start and 8-hour rules are not applied. Once they pass, the row is written whatever follows: title only for a truthy value, description whenever supplied (JSON null clears it), nothing else of the row. Sent participants replace the links without the requester; if one names no user the reply is the foreign-key refusal and the booking is left with no links. A success replies with the row as it was before the links changed |
| Bookings.UpdateKeepsNoDoubleBooking | server/src/controllers/bookings.controller.ts:310-343 | If no room had overlapping bookings before an update, none has after it, whether it succeeded or was refused after writing the row: the conflict test excludes only the booking itself |
| Bookings.CancelBooking | server/src/controllers/bookings.controller.ts:401-421 | NotFound for an unknown id, Validation for a caller who is neither owner nor admin, Validation for an already-cancelled booking; otherwise only the status changes, to cancelled, whatever the end time |
| Bookings.DeleteBooking | server/src/controllers/bookings.controller.ts:443-456 | The admin's delete succeeds iff the booking's room is in the caller's organization, removes exactly that row, else NotFound |
| Bookings.MyBookings | server/src/controllers/bookings.controller.ts:16-38 | The caller's bookings sorted by start, each row as often as the scan holds it; a non-empty status filters by that status, upcoming=true selects confirmed bookings that have not ended and overrides the status; a non-empty status that names no status and is not overridden is an error (the database's validation error, which the handler answers with 500) |
| Bookings.ParseStatus | server/src/controllers/bookings.controller.ts:19 | Exactly the three enum names "pending", "confirmed" and "cancelled" name a status, and a status read from a string has that string as its name |
| Bookings.StatusNameParses | server/src/controllers/bookings.controller.ts:19 | Each status is read back from its own name |
| Bookings.OrganizationBookings | server/src/controllers/bookings.controller.ts:58-103 | Over a scan of the booking table: Validation without both dates; otherwise the non-cancelled bookings of the organization's rooms (optionally one room) that meet the closed window, sorted by start, each exactly as often as the scan holds it, so none twice |
| Store.WithdrawKeepsNoDoubleBooking | server/src/controllers/organizations.controller.ts:433-440 | Dropping rows, cancelling rows or editing fields other than room and times never creates a double booking |
| Slug.MakeSlug | server/src/controllers/organizations.controller.ts:13-20 | A slug has at most 50 characters, no whitespace, no two adjacent dashes, and only characters of [a-zа-яё0-9-] |
| Slug.SlugIdempotent | server/src/controllers/organizations.controller.ts:13-20 | Applying generateSlug twice equals applying it once |
| Slug.Collapse | server/src/controllers/organizations.controller.ts:17-18 | Each run of matching characters becomes one dash, so no two dashes are adjacent, and every other character comes from the input |
| Slug.CandidateInjective | server/src/controllers/organizations.controller.ts:47 | Different probe numbers give different slugs |
| Slug.FreeSlug | server/src/controllers/organizations.controller.ts:42-55 | The probe returns the base if unused, else base-k for the smallest k ≥ 1 not in use, and it stops within as many probes as there are slugs in use |
| Organizations.CreateOrganization | server/src/controllers/organizations.controller.ts:32-83 | Validation when the trimmed name is shorter than 2, Conflict when the caller is already in an organization; on success the organization is stored under the trimmed name with the first free slug of the untrimmed name, and the caller becomes its admin |
| Organizations.FoundingKeepsAdmin | server/src/controllers/organizations.controller.ts:58-83 | Founding keeps every organization's active admin, and the new organization has one |
| Organizations.InviteCode | server/src/controllers/organizations.controller.ts:8-10 | Six random bytes become 12 upper-case hexadecimal characters |
| Organizations.DecodeInviteCode | server/src/controllers/organizations.controller.ts:8-10 | The code determines the bytes drawn, so different draws give different codes |
| Organizations.CodeCaseInsensitive | server/src/controllers/organizations.controller.ts:335 | A code typed in lower case is found by the upper-cased lookup |
| Organizations.ParseRole | server/src/controllers/organizations.controller.ts:183-185 | Exactly "member" and "admin" are accepted roles |
| Organizations.CreateInvite | server/src/controllers/organizations.controller.ts:176-220 | Role defaults to member and lifetime to 7 days; Validation without an organization or for a role other than member/admin, or an admin invite from a non-admin; then Conflict when the invited email belongs to a user of the organization, and Conflict when the fresh code collides with a stored one (the unique column); otherwise one unused invite with a 12-character code is added |
| Organizations.AdminRouteMayInviteAdmins | server/src/controllers/organizations.controller.ts:188-190 | Behind requireAdmin the admin-invite refusal never fires |
| Organizations.RevokeInvite | server/src/controllers/organizations.controller.ts:284-302 | Validation without an organization; NotFound for an invite outside the caller's organization; Validation for a used one; otherwise exactly that invite is deleted |
| Organizations.RevokeUndoesCreate | server/src/controllers/organizations.controller.ts:176-302 | An admin who creates an invite and revokes it at once is back at the original store |
| Organizations.RevokedCodeIsUnknown | server/src/controllers/organizations.controller.ts:284-302 | After a revoke the public code check reports the revoked code (in any letter case) as not found, and codes stay unique |
| Organizations.CheckInviteCode | server/src/controllers/organizations.controller.ts:570-596 | NotFound for an unknown upper-cased code, Validation for a used or expired invite (expiresAt < now), else the invite |
| Organizations.JoinOrganization | server/src/controllers/organizations.controller.ts:324-389 | Checks in order: empty code, caller already in an organization (Conflict), unknown code (NotFound), used, expired, email mismatch compared case-insensitively; success marks the invite used by the caller at now and copies its organization and role onto the caller |
| Organizations.JoinIsSingleUse | server/src/controllers/organizations.controller.ts:345-347 | After a successful join, a second redemption of the same code fails as used |
| Organizations.JoinKeepsAdmin | server/src/controllers/organizations.controller.ts:359-389 | Joining never removes an organization's last active admin |
| Organizations.Depart | server/src/controllers/organizations.controller.ts:433-449 | The leaver's confirmed bookings with start > now become cancelled, every other booking is untouched, and the user loses organization and admin role |
| Organizations.LeaveOrganization | server/src/controllers/organizations.controller.ts:411-449 | Validation without an organization, Validation for an admin whose organization has at most one active admin; otherwise the cascade of Depart |
| Organizations.LeaveKeepsAdmin | server/src/controllers/organizations.controller.ts:416-430 | Leaving never takes an organization's last active admin |
| Organizations.RemoveMember | server/src/controllers/organizations.controller.ts:471-504 | Validation for a self-target, NotFound for a target outside the caller's organization, otherwise the cascade of Depart on the member; no admin count is taken |
| Organizations.RemoveKeepsAdmin | server/src/controllers/organizations.controller.ts:475-477 | Since the acting admin cannot remove themself, every organization keeps an active admin |
| Organizations.ChangeMemberRole | server/src/controllers/organizations.controller.ts:527-550 | Validation for an unknown role and for a self-target, NotFound outside the organization; otherwise only the member's role changes |
| Organizations.ChangeRoleKeepsAdmin | server/src/controllers/organizations.controller.ts:535-537 | A role change never demotes the acting admin, so every organization keeps an active admin |
| CalendarService.ClassificationsDisjoint | server/src/services/googleCalendar.service.ts:291-304 | An error is token-expired iff its code is 401 and not-found iff 404; no error is both, and an error without a code is neither |
| CalendarService.Refresh | server/src/services/googleCalendar.service.ts:43-60 | A refresh failure becomes the re-login error; otherwise the new token, which is stored only when non-empty |
| CalendarService.CreateEvent | server/src/services/googleCalendar.service.ts:63-145 | No token fails before any request; a first reply with a non-empty id succeeds after one request and links that id; a 401 refreshes the token, ending in the re-login error when the refresh fails and otherwise retrying (the retry's run, with the refreshed token stored and the old token presented first); success links the returned non-empty id and any failure writes no booking; only the replies read are consumed |
| CalendarService.CreateFailsAtOnce | server/src/services/googleCalendar.service.ts:112-143 | A reply without an id, or an error other than 401, fails createEvent after one request, with no write |
| CalendarService.RetryPresentsOldToken | server/src/services/googleCalendar.service.ts:136-140 | After a 401 and a successful refresh the retry presents the old token again, because the same user value is reused |
| CalendarService.UpdateEvent | server/src/services/googleCalendar.service.ts:148-201 | Without an event id it is exactly createEvent; a reply gives the returned id (or the old one) and writes nothing to the booking; a 401 refreshes and either ends in the re-login error or retries the update; other errors except 404 fail with no write |
| CalendarService.UpdateFallsBackToCreate | server/src/services/googleCalendar.service.ts:193-196 | A 404 from the update hands over to createEvent on the remaining replies |
| CalendarService.RemoveEvent | server/src/services/googleCalendar.service.ts:204-259 | deleteEvent and cancelEvent do nothing for an empty event id, fail without a token, treat a reply or a 404 as success, fail on any other error except 401; a 401 refreshes and either ends in the re-login error or retries the removal |
| CalendarService.ListEvents | server/src/services/googleCalendar.service.ts:262-288 | The items of the first successful reply; a 404 or other error fails; a 401 refreshes and either ends in the re-login error or retries the listing |
| CalendarService.GatewayCallsWalkAlike | server/src/services/googleCalendar.service.ts:74-288 | For every script of replies, createEvent, deleteEvent/cancelEvent and listEvents make the same requests with the same token, read the same replies, store the same refreshed token and stop on the same failed refresh |
| CalendarService.StoreToken | server/src/services/googleCalendar.service.ts:48-53 | A refresh writes only the user's access token, and only a non-empty one |
| CalendarService.Persist | server/src/services/googleCalendar.service.ts:121-128 | A linked event id is written with googleCalendarSynced = true; without one the bookings are unchanged |
| CalendarService.PersistedCreateLinksOnSuccess | server/src/services/googleCalendar.service.ts:117-128 | After persisting a createEvent run the booking carries the returned event id and is marked synced exactly when the create succeeded; a failed create changes no booking |
| CalendarSync.SyncBooking | server/src/controllers/calendar.controller.ts:62-98 | Refusals in order, all Validation: no access token, a booking not owned by the caller, a cancelled booking; then update when the booking has an event id, else create |
| CalendarSync.SyncIsUpdate | server/src/controllers/calendar.controller.ts:93-98 | Because updateEvent without an event id is createEvent, a manual sync always behaves as updateEvent |
| CalendarSync.Unsynced | server/src/controllers/calendar.controller.ts:124-130 | The batch processes exactly the caller's confirmed, unsynced bookings with end ≥ now |
| CalendarSync.SyncEach | server/src/controllers/calendar.controller.ts:143-159 | synced + failed = total, each error names a booking of the batch, a failure does not stop the rest, bookings outside the batch do not change, and every request presents the token the batch started with |
| CalendarSync.SyncEachOutcomes | server/src/controllers/calendar.controller.ts:143-159 | For a batch of distinct unsynced bookings, a booking is named among the errors exactly when it is still unsynced afterwards, and a synced one carries a non-empty Google event id |
| CalendarSync.SyncAll | server/src/controllers/calendar.controller.ts:117-165 | Over a scan of the booking table: Validation without an access token, otherwise the summary of SyncEach over the selected bookings, whose counts add up and whose errors name selected bookings |
| CalendarSync.SyncAllOutcomes | server/src/controllers/calendar.controller.ts:117-165 | Every booking the batch picks up ends either linked to a Google event and synced or named in the errors, never both; every other booking is left as it was |
| CalendarSync.Unlink | server/src/controllers/calendar.controller.ts:181-207 | Validation for a booking not owned by the caller; with an event id and a token the run is deleteEvent on that event id, otherwise no request is made; its failure is swallowed, and the event id is cleared and synced set to false regardless |
| CalendarSync.UnlinkUndoesSync | server/src/controllers/calendar.controller.ts:188-203 | Unlinking a booking that a manual sync linked deletes the event the sync created and restores the booking table as it was before the sync |
| CalendarSync.View | server/src/controllers/calendar.controller.ts:33-44 | An event is a booking event iff its private bookingId is truthy |
| CalendarSync.GetCalendarEvents | server/src/controllers/calendar.controller.ts:17-45 | The token is checked before the dates, both Validation; then the listed events, mapped |
| Rooms.CapacityBound | server/src/controllers/rooms.controller.ts:24-25 | With both bounds given the later spread wins, so only capacity ≤ maxCapacity applies |
| Rooms.GetRooms | server/src/controllers/rooms.controller.ts:21-33 | Over a scan of the room table: the caller's organization's rooms, filtered by the capacity bound, the exact floor, every comma-split amenity code, and isActive equal to (the parameter is the literal "true"); each matching room exactly as often as the scan holds it, so none twice |
| Rooms.MaxCapacityOverridesMin | server/src/controllers/rooms.controller.ts:24-25 | With maxCapacity given, minCapacity makes no difference to the list |
| Rooms.GetRoomById | server/src/controllers/rooms.controller.ts:56-80 | NotFound outside the caller's organization; otherwise, over a scan of the booking table, min(10, n) of the n confirmed bookings of the room with end ≥ now, in ascending start order, and every such booking left out starts no earlier than the tenth one shown |
| Rooms.CreateRoom | server/src/controllers/rooms.controller.ts:106-124 | The "required" Validation for a missing name or a falsy capacity (0 included), the "> 0" Validation for a negative capacity; otherwise one room with amenities defaulting to [] |
| Rooms.UpdateRoom | server/src/controllers/rooms.controller.ts:145-162 | NotFound outside the organization; Validation for a supplied capacity ≤ 0; the foreign-key refusal when the body moves the room to an organization that does not exist; otherwise every supplied field overwrites, organizationId included, since the body is passed to the database unfiltered |
| Rooms.UpdateCanMoveRoom | server/src/controllers/rooms.controller.ts:145-163 | An admin can hand a room of their organization to another stored organization, after which it is no longer theirs |
| Rooms.RoomWritesKeepCapacitiesPositive | server/src/controllers/rooms.controller.ts:106-163 | Create and update keep every capacity positive |
| Rooms.DeleteRoom | server/src/controllers/rooms.controller.ts:186-211 | NotFound outside the organization; refused iff some booking of the room is confirmed with end ≥ now (cancelled or finished bookings do not block); otherwise exactly the room is removed |
| Rooms.DeleteUndoesCreate | server/src/controllers/rooms.controller.ts:106-211 | When every booking names a stored room, deleting a room just created restores the store |
| Rooms.Availability | server/src/controllers/rooms.controller.ts:233-283 | Over a scan of the booking table: the date is required before the room lookup; the result is the room's non-cancelled bookings meeting the closed day window, sorted by start, each exactly as often as the scan holds it, so none twice |
| Rooms.AvailabilityShowsConflicts | server/src/controllers/rooms.controller.ts:254-272 | Every active stored booking of the room that intersects a slot inside the day is listed |
| Errors.NotFoundError | server/src/middleware/errorHandler.ts:20-24 | Status 404; the message is the resource name, "Ресурс" by default, followed by " не найден" |
| Errors.NotFoundNamesResource | server/src/middleware/errorHandler.ts:20-24 | Different resources give different errors, so the message identifies the resource |
| Errors.AppError | server/src/middleware/errorHandler.ts:6-17 | The status defaults to 500 |
| Errors.HandleError | server/src/middleware/errorHandler.ts:41-113 | Known Prisma codes first (P2002→409, P2025→404, P2003→400, other→500), then a "Booking conflict" message→409, then AppError with its own status, else 500 with the text hidden in production; success is always false |
| Errors.RefusalKeepsStatus | server/src/middleware/errorHandler.ts:97-104 | A controller refusal keeps its class's status (400/404/409) and its message, in production too |
| Errors.ConflictTextOverridesClass | server/src/middleware/errorHandler.ts:88-95 | A message containing "Booking conflict" is a 409 even when thrown with another status |
| Errors.PrismaCodeDecides | server/src/middleware/errorHandler.ts:56-86 | For a Prisma error only the code matters, not the message |
| Errors.UnknownErrorsHiddenInProduction | server/src/middleware/errorHandler.ts:106-112 | An unknown error's message is passed through outside production and replaced in production |
| Errors.RouteNotFound | server/src/middleware/errorHandler.ts:116-121 | Status 404; the message is "Маршрут ", the method, a space, the path, and " не найден" |
| Errors.RouteNotFoundNamesRoute | server/src/middleware/errorHandler.ts:116-121 | For methods without spaces the message determines the method and the path |
| Accounts.EmailRegexIsShape | server/src/controllers/auth.controller.ts:70-73 | The email regex accepts exactly the strings with no whitespace, exactly one '@' with a non-empty local part, and a '.' in the domain with a character on each side |
| Accounts.Register | server/src/controllers/auth.controller.ts:61-117 | Validation, in order and with no write: missing field, password shorter than 6, bad email, existing email, unknown organization; otherwise one active member with the hashed password |
| Accounts.RegisterKeepsEmailsUnique | server/src/controllers/auth.controller.ts:75-82 | Registration keeps emails unique |
| Accounts.Login | server/src/controllers/auth.controller.ts:148-182 | Missing fields, unknown user, inactive account, passwordless account, then the password check; accepted iff bcrypt matches or both the submitted and stored passwords are literally "test" |
| Accounts.UnknownEmailLooksLikeWrongPassword | server/src/controllers/auth.controller.ts:161-181 | An unknown email and a wrong password give the same refusal |
| Accounts.TestPasswordBypassesBcrypt | server/src/controllers/auth.controller.ts:177-180 | A stored password that is literally "test" logs in with "test" whatever bcrypt says |
| Accounts.RegisteredUserCanLogIn | server/src/controllers/auth.controller.ts:95-182 | Whoever registers can log in with the same email and password |
| Accounts.CurrentUser | server/src/controllers/auth.controller.ts:18-44 | needsOrganization = no organization, hasGoogleCalendar = googleId present |
| Accounts.NeedsOrganizationIsTheGate | server/src/controllers/auth.controller.ts:42-43 | needsOrganization is exactly the negation of the requireOrganization gate |
| Accounts.GoogleStatus | server/src/controllers/auth.controller.ts:283-299 | The three flags are the truthiness of googleId and the two tokens |
| Accounts.OrganizationUsers | server/src/controllers/auth.controller.ts:398-417 | Over a scan of the user table: Validation without an organization; otherwise exactly the active users of the caller's organization, each as often as the scan holds it, so none twice |
| Accounts.UpdateProfile | server/src/controllers/auth.controller.ts:315-333 | A truthy name replaces the name, a supplied avatarUrl replaces the avatar, and nothing else changes |
| Accounts.UpdateProfileIdempotent | server/src/controllers/auth.controller.ts:315-333 | An empty body changes nothing, and repeating an update changes nothing more |
| Accounts.ChangePassword | server/src/controllers/auth.controller.ts:355-380 | A new password shorter than 6 is refused; with a stored password the current one must be given and match; a passwordless user sets one freely |
| Accounts.FirstPasswordNeedsNoCurrent | server/src/controllers/auth.controller.ts:364-373 | A Google-only account sets its first password without a current one |
| Accounts.ChangedPasswordLogsIn | server/src/controllers/auth.controller.ts:375-380 | After a password change the new password logs in |
| Accounts.DisconnectGoogle | server/src/controllers/auth.controller.ts:252-265 | Refused without a password; otherwise googleId and both tokens are cleared |
| Accounts.DisconnectLeavesPasswordLogin | server/src/controllers/auth.controller.ts:252-256 | A disconnected account still has a password to log in with |
| Accounts.GoogleCallbackRedirect | server/src/controllers/auth.controller.ts:216-231 | Without a user the callback URL carries error=auth_failed; with one it carries, after "?token=", the token generateToken signs for that user's claims |
| Accounts.FailedCallbackCarriesNoToken | server/src/controllers/auth.controller.ts:216-231 | A failed sign-in redirect never carries a token parameter |
| Accounts.CallbackTokenSignsIn | server/src/controllers/auth.controller.ts:221-230 | The token in the redirect, sent back as a bearer token, passes authenticate as the user Passport returned |
| AuthGate.BearerToken | server/src/middleware/auth.ts:16-24 | A token exists iff the header starts with the case-sensitive "Bearer "; it is the text after "Bearer " up to the next space or the end |
| AuthGate.BearerRoundTrip | server/src/middleware/auth.ts:16-24 | "Bearer " + token gives the token back |
| AuthGate.LowerCaseSchemeRefused | server/src/middleware/auth.ts:16 | A lower-case "bearer" scheme is refused, although section 11.1 of RFC 9110 makes auth schemes case-insensitive |
| AuthGate.Authenticate | server/src/middleware/auth.ts:8-73 | 401 without a bearer token, for an expired or malformed token, and "Пользователь не найден" for a valid token of an unknown user; 403 for an inactive user; other verify errors are forwarded; otherwise the user passes |
| AuthGate.IssuedTokenAuthenticates | server/src/middleware/auth.ts:126-130 | A token generateToken issued for a stored, active user passes authenticate as that user |
| AuthGate.RequireAdmin | server/src/middleware/auth.ts:76-98 | No user → 401, role ≠ admin → 403, otherwise pass |
| AuthGate.RequireOrganization | server/src/middleware/auth.ts:101-123 | No user → 401, no organization → 403, otherwise pass |
| AuthGate.GatesEstablishCallerPredicates | server/src/middleware/auth.ts:35-53 | A caller the gates let through satisfies the controllers' preconditions |
| GoogleLogin.Merge | server/src/config/passport.ts:74-83 | On an existing user, googleId and the access token are overwritten, the name is kept unless empty, the avatar is replaced only by a supplied one, and the refresh token only by a non-empty one |
| GoogleLogin.MergeIdempotent | server/src/config/passport.ts:74-83 | A repeated sign-in with the same profile changes nothing more |
| GoogleLogin.Created | server/src/config/passport.ts:87-96 | A new user gets the Google fields, no organization and no password |
| GoogleLogin.SignIn | server/src/config/passport.ts:53-99 | A profile without an email is an error with no write; otherwise the user matched by googleId or email is merged, or a new one is created |
| GoogleLogin.SignInKeepsEmailsUnique | server/src/config/passport.ts:63-96 | Signing in never breaks email uniqueness, because a matching email is merged rather than duplicated |
| GoogleLogin.SignInConnectsCalendar | server/src/config/passport.ts:74-96 | The signed-in user is the stored row and holds the new access token |
| GoogleLogin.Deserialize | server/src/config/passport.ts:20-27 | The stored user under the id, if any |
| GoogleLogin.SessionRoundTrip | server/src/config/passport.ts:16-23 | Serialization keeps only the id, and deserialization gives the stored user back |
| Upload.MatchAtIsRegex | server/src/services/upload.service.ts:86 | The operational match at a position succeeds iff the regex /uploads/\w+/(.+)$ matches there, with the same group |
| Upload.ExtractNullIffNoMatch | server/src/services/upload.service.ts:85-88 | extractFilename is null iff no position of the URL starts a match running to the end |
| Upload.ExtractTakesLeftmostMatch | server/src/services/upload.service.ts:85-88 | The result is the group of the leftmost match, which need not start at index 0 |
| Upload.ExtractInvertsFileUrl | server/src/services/upload.service.ts:80-88 | extractFilename(getFileUrl(f)) = f for every non-empty f without line terminators |
| Upload.FilterAcceptsExactlyFive | server/src/services/upload.service.ts:19-49 | fileFilter accepts exactly the five listed MIME types, and refuses the rest with the fixed message |
| Upload.Accept | server/src/services/upload.service.ts:43-58 | A file is accepted iff its type passes the filter and it is at most 5 MiB |
| Upload.Extname | server/src/services/upload.service.ts:36 | path.extname: a suffix of the last segment that starts at its last '.'; empty exactly when no '.' follows the segment's first character or the segment is ".." |
| Upload.StoredKeepsExtension | server/src/services/upload.service.ts:35-39 | The stored name is the uuid followed by the lower-cased extension, and its own extension is that lower-cased extension |
| Amenities.Info | server/src/constants/amenities.ts:13-165 | Every entry's code equals its key |
| Amenities.CatalogueWellFormed | server/src/constants/amenities.ts:13-165 | There are exactly 20 distinct codes, and none of them is an inherited object key |
| Amenities.GetAmenityInfo | server/src/constants/amenities.ts:168-170 | The entry for a known code and null otherwise |
| Amenities.GetAmenityInfoAsWritten | server/src/constants/amenities.ts:168-170 | As written: off the inherited names it agrees with the own-key lookup; on them it returns the inherited member where the own-key lookup gives null |
| Amenities.LookupLeaksInheritedMember | server/src/constants/amenities.ts:168-170 | "toString" is not a code, yet the as-written lookup returns an inherited member for it instead of null |
| Amenities.AllAmenities | server/src/constants/amenities.ts:173-175 | The 20 entries in declaration order |
| Amenities.InfoOfConcat | server/src/constants/amenities.ts:178-182 | getAmenitiesInfo distributes over concatenation, which keeps the input order |
| Amenities.InfoOfOne | server/src/constants/amenities.ts:178-182 | A single code gives its entry when known and nothing otherwise, so duplicates are kept |
| Amenities.InfoDropsOnlyUnknown | server/src/constants/amenities.ts:178-182 | The output is no longer than the input and has one entry per known input code |
| Amenities.GroupsPartitionCodes | server/src/constants/amenities.ts:185-216 | Every group item is an amenity key, and each of the 20 codes appears in exactly one group |
| Amenities.PrototypeKeyLeaks | server/src/constants/amenities.ts:178-182 | As written, the code list holding only "constructor" gives an inherited value where the corrected getAmenitiesInfo gives nothing |
| Amenities.AsWrittenAgreesOffPrototype | server/src/constants/amenities.ts:178-182 | Off the inherited keys the as-written lookup agrees with the corrected one |
| AmenityIcons.GetAmenityIcon | client/src/lib/amenities.ts:60-62 | The mapped icon, or HelpCircle exactly for an unmapped code |
| AmenityIcons.GetAmenityLabel | client/src/lib/amenities.ts:64-66 | The non-empty label when the code has one, otherwise the code itself |
| AmenityIcons.LabelsFollowServerNames | client/src/lib/amenities.ts:48-58 | For a catalogue code the label equals the server's Russian name exactly for the labelled codes other than "tv" and "video_conferencing" |
| AmenityIcons.AvailableAmenities | client/src/lib/amenities.ts:69-73 | One entry per icon key, with label = the label or the key, and an icon that is never the fallback |
| AmenityIcons.ChoicesFollowServerOrder | client/src/lib/amenities.ts:25-46 | The option values are the server's 20 codes in the server's order |
| AmenityIcons.IconKeysAreServerCodes | client/src/lib/amenities.ts:25-46 | The client has an icon for exactly the codes of the server catalogue |
| AmenityIcons.LabelledCodesHaveIcons | client/src/lib/amenities.ts:48-58 | The label keys are a subset of the icon keys |
| AuthGuard.Redirects | client/src/components/layouts/auth-guard.tsx:29-47 | No navigation while loading; with no user, replace to /login; needsOrganization off the /organization pages → replace to /organization/setup, and a user who needs an organization is sent nowhere else; otherwise on an /organization page other than /organization/join → push "/", and nowhere else; at most one navigation, and never to the current path |
| AuthGuard.Render | client/src/components/layouts/auth-guard.tsx:49-59 | A spinner while loading, nothing without a user, the page otherwise |
| AuthGuard.RedirectsSettle | client/src/components/layouts/auth-guard.tsx:36-45 | At the page the guard sends a signed-in user to, it sends them nowhere else |
| AuthGuard.GuardFollowsServerGate | client/src/components/layouts/auth-guard.tsx:38-40 | A member of an organization is never sent to setup, and a user without one is kept on the organization pages |
| AuthGuard.SyncedUser | client/src/components/layouts/auth-guard.tsx:19-26 | The store takes the query's user, clears on error, and otherwise keeps what it held |
| AuthGuard.SyncedUserIdempotent | client/src/components/layouts/auth-guard.tsx:19-26 | Re-running the effect on the same query state changes the store no further |
| AuthGuard.StoreAgreesWithGuard | client/src/components/layouts/auth-guard.tsx:19-59 | When the page is shown the store holds the query's user; after an error with no user the store is empty |
| BookingForm.Issues | client/src/components/widgets/booking-dialog.tsx:19-36 | Title and roomId must be non-empty and endTime > startTime as strings; each failure gives its own message, and all three checks run |
| BookingForm.ClockOrderIsChronological | client/src/components/widgets/booking-dialog.tsx:28-31 | For zero-padded "HH:mm" times the string comparison is chronological order |
| BookingForm.UnpaddedTimesMisorder | client/src/components/widgets/booking-dialog.tsx:28-31 | Without padding the order breaks: "9:30" is not before "10:00" |
| BookingForm.DefaultRoomId | client/src/components/widgets/booking-dialog.tsx:66 | The slot's resourceId, else the first room's id, else "" |
| BookingForm.PreselectionFillsRoom | client/src/components/widgets/booking-dialog.tsx:66 | When the slot or the room list offers a room, the form has no missing-room issue |
| BookingForm.Submitted | client/src/components/widgets/booking-dialog.tsx:74-77 | Both ends are built from the one date field; the submit produces instants exactly when the date is a yyyy-MM-dd date and both times are HH:mm clock times, and their minutes are those of the two times |
| BookingForm.SubmittedWithinOneDay | client/src/components/widgets/booking-dialog.tsx:74-77 | A valid form submits start and end on the same date with start < end, so the booking never spans midnight |
| BookingForm.EmptyDatePassesSchema | client/src/components/widgets/booking-dialog.tsx:19-36 | The schema does not check the date: a form with an empty date passes it, and its submit has no instant to send |
| BookingDetails.Render | client/src/components/widgets/booking-details-dialog.tsx:28-85 | Nothing without a booking; the cancel button is shown iff canCancel holds |
| BookingDetails.ButtonMatchesServerGate | client/src/components/widgets/booking-details-dialog.tsx:30-32 | For the signed-in caller and the stored booking, canCancel holds iff the server's cancel succeeds |
| RoomRequest.Params | client/src/services/rooms.ts:7-11 | Only minCapacity and amenities are ever sent, minCapacity never empty |
| RoomRequest.ServerReceivesFilters | client/src/services/rooms.ts:9-12 | minCapacity arrives iff truthy and with its own value; amenities arrive iff the list is non-empty, and a comma-free list splits back into itself; maxCapacity, floor and isActive never arrive |
| RoomRequest.ClientFilterMeaning | client/src/services/rooms.ts:7-12 | The rooms returned for the client's filters are the organization's rooms with the minimum capacity and every listed amenity; an isActive filter is dropped |
| RoomRequest.DecimalValueOfString | client/src/services/rooms.ts:9 | Number(String(n)) = n for integers |
| RoomRequest.Receive | client/src/services/rooms.ts:12-14 | A success reply gives the data, a failure reply below 500 raises the server's error string, and a 5xx reply is rejected by the HTTP client |
| RoomRequest.RefusalRaisesItsMessage | client/src/services/rooms.ts:13 | A controller refusal reaches the caller as an Error with its own message; an unknown server error (500) never reaches the body check |

## Left out

- Prisma and PostgreSQL I/O, and the database trigger behind "Booking conflict". The store is an in-memory set of maps.
- Concurrency. Check-then-write sequences are separate queries in the source. The model is sequential and claims no freedom from races.
- Participant link uniqueness: whether the link table refuses the same user twice on one booking is a schema rule, which is not part of this model; duplicate participant ids are stored as sent.
- Bookings.MyBookings: the `status` parameter is one string; a repeated `status=` that Express turns into an array is not modelled.
- The Google API, OAuth2 and the network. They are a scripted gateway; event payloads (location text, reminders, time zone, ISO strings) are not modelled.
- bcrypt, jsonwebtoken, uuid and crypto.randomBytes. They are oracle parameters.
- The row `findFirst` picks when several match (passport's googleId-or-email lookup). It is a parameter constrained to be some matching row.
- Date parsing, `setHours` day bounds, `toISOString`, time zones and date-fns formatting. Instants are integer milliseconds; an availability day is given by its two bounds.
- The 8-hour check's float division. It is `end − start > 28 800 000` on integers.
- `Number()` on non-numeric strings (NaN). A number parameter carries its raw string and its integer value.
- Unicode details. `toLowerCase` covers Latin and basic Cyrillic only, and string lengths count code points, not UTF-16 units.
- Ordering of rooms and users by name (database collation). The booking listings do model the sort by start.
- Pass-through fields that no rule reads: room name, description and image, booking participants' profiles, and the response selections.
- Uniqueness of googleId. Only emails and invite codes are unique columns in the model.
- The organization operations getMyOrganization, updateOrganization, getInvites, getBookingById and the room image route. None of them is part of the modelled core.
- File handling: multer's disk storage, deleteFile and getFilePath. They touch the file system only.
- Express wiring, the axios instance's interceptors (token header, 401 redirect), react-query and toasts.
- Slug.MakeSlug: states the shape and idempotence of generateSlug, not its exact output character by character beyond the collapse of runs.
- CalendarService.UpdateEvent: the 404-to-create clause is stated in the lemma CalendarService.UpdateFallsBackToCreate rather than in the function's own contract.
- Rooms.UpdateRoom: of the columns the unfiltered body can set, only organizationId is modelled besides the room fields; a body that sets id, createdAt or updatedAt, or gives a field of the wrong type (a null capacity, which `null <= 0` refuses, or a capacity sent as a string, which the database rejects), is not modelled; nor is a JSON null that clears description, floor or imageUrl.
- Rooms.DeleteRoom: the database rule for the bookings of a deleted room (cascade or refusal) belongs to the schema, which is not part of this model; the model keeps the room's finished and cancelled bookings as they are.
- Token lifetime: expiry is not a function of a clock here; a token generateToken issued is taken to verify while it lives (`AuthGate.SignerMatches`), and an expired one is the verifier's Expired outcome.
- Listing rows: the operations that read a whole table take its rows as a parameter, constrained by `Store.RowsOf` to list each stored row exactly once in some order the database chooses.
- AmenityIcons.GetAmenityIcon: models the icon table by its own keys; the client's `AMENITY_ICONS[code]` shares the inherited-key lookup of the server's finding below and is not modelled for those keys.
- AmenityIcons.GetAmenityLabel: same as above for `AMENITY_LABELS[code]`.
- BookingForm.Submitted: the date is checked for its yyyy-MM-dd shape with month 01-12 and day 01-31; a day past the end of its month (rolled over by the Date parser) is not modelled. A time that is not a zero-padded 24-hour clock time is treated as unparseable, and the Date parser's acceptance of "24:00" as the next midnight is not modelled.
- RoomRequest.Received: URL encoding and decoding of the query string are taken as the identity.

## Findings

| source | as written | input that shows it | evidently intended | confidence | as-written member | corrected member |
|---|---|---|---|---|---|---|
| server/src/constants/amenities.ts:168-170 | `AMENITIES[code] \|\| null` indexes a plain object literal, so an inherited Object.prototype member counts as an entry | the code "toString" (also "constructor", "hasOwnProperty", …) gives an inherited function instead of null | only the 20 own keys are amenities and every other code gives null | medium, not executed | Amenities.GetAmenityInfoAsWritten | Amenities.GetAmenityInfo |
| server/src/constants/amenities.ts:178-182 | `codes.map((code) => AMENITIES[code]).filter((amenity) => amenity !== undefined)` keeps whatever the index returns that is not undefined, inherited members included | the code list holding only "constructor" gives a one-element list holding the Object constructor | unknown codes are dropped, so only catalogue entries are returned | medium, not executed | Amenities.GetAmenitiesInfoAsWritten | Amenities.GetAmenitiesInfo |

=== FILE: accounts.dfy ===
/** auth.controller.ts: registration, password login, the profile and Google
    status views, profile and password changes, and disconnecting Google. The
    bcrypt hash and compare functions are parameters. */
module Accounts {
  import opened Wrappers
  import opened Store
  import opened Strings
  import Listing
  import AuthGate

  const MinPasswordLength := 6

  // ---------------------------------------------------------------- the email check

  /** One `[^\s@]+` run: no whitespace and no '@'. */
  predicate Atom(t: string) {
    forall k :: 0 <= k < |t| ==> !IsSpace(t[k]) && t[k] != '@'
  }

  /** `/^[^\s@]+@[^\s@]+\.[^\s@]+$/.test(s)`: some '@' at i and some '.' at j
      split `s` into three non-empty atoms. */
  predicate EmailRegex(s: string) {
    exists i, j | 0 < i < |s| && i + 1 < j < |s| - 1 ::
      s[i] == '@' && s[j] == '.' && Atom(s[..i]) && Atom(s[i + 1..j]) && Atom(s[j + 1..])
  }

  /** The same check in words: no whitespace, exactly one '@', something before
      it, and after it a '.' with at least one character on each side. */
  predicate EmailShape(s: string) {
    && HasNoSpace(s)
    && exists i | 0 < i < |s| ::
         && s[i] == '@'
         && (forall k :: 0 <= k < |s| && s[k] == '@' ==> k == i)
         && (exists j :: i + 1 < j < |s| - 1 && s[j] == '.')
  }

  lemma EmailRegexIsShape(s: string)
    ensures EmailRegex(s) <==> EmailShape(s)
  {
    if EmailRegex(s) {
      RegexGivesShape(s);
    }
    if EmailShape(s) {
      ShapeGivesRegex(s);
    }
  }

  lemma RegexGivesShape(s: string)
    requires EmailRegex(s)
    ensures EmailShape(s)
  {
    var i, j :| 0 < i < |s| && i + 1 < j < |s| - 1 && s[i] == '@' && s[j] == '.'
      && Atom(s[..i]) && Atom(s[i + 1..j]) && Atom(s[j + 1..]);
    AtomChars(s, 0, i);
    AtomChars(s, i + 1, j);
    AtomChars(s, j + 1, |s|);
    assert !IsSpace('@') && !IsSpace('.');
    forall k | 0 <= k < |s| ensures !IsSpace(s[k]) && (s[k] == '@' ==> k == i) {
      if k < i {
      } else if k == i {
      } else if k < j {
      } else if k == j {
      } else {
      }
    }
    assert s[i] == '@' && (forall k :: 0 <= k < |s| && s[k] == '@' ==> k == i);
    assert i + 1 < j < |s| - 1 && s[j] == '.';
  }

  lemma ShapeGivesRegex(s: string)
    requires EmailShape(s)
    ensures EmailRegex(s)
  {
    var i :| 0 < i < |s| && s[i] == '@' && (forall k :: 0 <= k < |s| && s[k] == '@' ==> k == i)
      && (exists j :: i + 1 < j < |s| - 1 && s[j] == '.');
    var j :| i + 1 < j < |s| - 1 && s[j] == '.';
    AtomSlice(s, 0, i, i);
    AtomSlice(s, i + 1, j, i);
    AtomSlice(s, j + 1, |s|, i);
  }

  /** The characters of an atom stretch of `s`. */
  lemma AtomChars(s: string, a: int, b: int)
    requires 0 <= a <= b <= |s| && Atom(s[a..b])
    ensures forall k :: a <= k < b ==> !IsSpace(s[k]) && s[k] != '@'
  {
    forall k | a <= k < b ensures !IsSpace(s[k]) && s[k] != '@' {
      assert s[k] == s[a..b][k - a];
    }
  }

  /** A stretch of `s` away from its only '@' and free of whitespace is an atom. */
  lemma AtomSlice(s: string, a: int, b: int, at: int)
    requires 0 <= a <= b <= |s| && !(a <= at < b)
    requires HasNoSpace(s)
    requires forall k :: 0 <= k < |s| && s[k] == '@' ==> k == at
    ensures Atom(s[a..b])
  {
    forall k | 0 <= k < b - a ensures !IsSpace(s[a..b][k]) && s[a..b][k] != '@' {
      assert s[a..b][k] == s[a + k];
    }
  }

  // ---------------------------------------------------------------- register

  datatype Registration = Registration(
    email: Option<string>,
    password: Option<string>,
    name: Option<string>,
    organizationId: Option<string>)

  /** The checks of register before the organization lookup all pass. */
  predicate AccountChecksPass(st: Store, reg: Registration) {
    && Truthy(reg.email) && Truthy(reg.password) && Truthy(reg.name)
    && |reg.password.value| >= MinPasswordLength
    && EmailShape(reg.email.value)
    && (forall k :: k in st.users ==> st.users[k].email != reg.email.value)
  }

  /** The user row register creates; role, active flag and the Google columns
      take their defaults. */
  function NewUser(id: Id, email: string, hash: string, name: string, org: Option<Id>): User {
    User(id, email, Some(hash), name, None, Member, true, org, None, None, None)
  }

  /** register; `newId` is the id the database assigns and `hash` is
      `bcrypt.hash(password)`. An empty organizationId skips the lookup and then
      fails the foreign key on insert. */
  function Register(st: Store, reg: Registration, newId: Id, hash: string): (r: Result<(Store, User), Fault>)
    requires newId !in st.users
    ensures !Truthy(reg.email) || !Truthy(reg.password) || !Truthy(reg.name) ==> r == Err(Validation(AccountFieldsRequired))
    ensures Truthy(reg.email) && Truthy(reg.password) && Truthy(reg.name) ==>
      && (|reg.password.value| < MinPasswordLength ==> r == Err(Validation(PasswordTooShort)))
      && (|reg.password.value| >= MinPasswordLength && !EmailShape(reg.email.value) ==> r == Err(Validation(BadEmail)))
      && ((|reg.password.value| >= MinPasswordLength && EmailShape(reg.email.value)
           && (exists k :: k in st.users && st.users[k].email == reg.email.value))
          ==> r == Err(Validation(EmailTaken)))
    ensures r.Ok? <==> AccountChecksPass(st, reg) && (reg.organizationId.Some? ==> reg.organizationId.value in st.orgs)
    ensures AccountChecksPass(st, reg) && reg.organizationId.Some? && reg.organizationId.value !in st.orgs ==>
      r == Err(Validation(if reg.organizationId.value != "" then OrganizationNotFound else LinkedRecordMissing))
    ensures r.Ok? ==>
      var u := NewUser(newId, reg.email.value, hash, reg.name.value, reg.organizationId);
      r.value == (st.(users := st.users[newId := u]), u)
  {
    if !Truthy(reg.email) || !Truthy(reg.password) || !Truthy(reg.name) then Err(Validation(AccountFieldsRequired))
    else
      EmailRegexIsShape(reg.email.value);
      if |reg.password.value| < MinPasswordLength then Err(Validation(PasswordTooShort))
      else if !EmailRegex(reg.email.value) then Err(Validation(BadEmail))
      else if exists k :: k in st.users && st.users[k].email == reg.email.value then Err(Validation(EmailTaken))
      else if Truthy(reg.organizationId) && reg.organizationId.value !in st.orgs then Err(Validation(OrganizationNotFound))
      else if reg.organizationId.Some? && reg.organizationId.value !in st.orgs then Err(Validation(LinkedRecordMissing))
      else
        var u := NewUser(newId, reg.email.value, hash, reg.name.value, reg.organizationId);
        Ok((st.(users := st.users[newId := u]), u))
  }

  /** Registration keeps emails unique: the unique column is checked first. */
  lemma RegisterKeepsEmailsUnique(st: Store, reg: Registration, newId: Id, hash: string)
    requires newId !in st.users
    requires EmailsUnique(st.users)
    requires Register(st, reg, newId, hash).Ok?
    ensures EmailsUnique(Register(st, reg, newId, hash).value.0.users)
  {
  }

  // ---------------------------------------------------------------- login

  /** login; `matches(plain, hash)` stands for `bcrypt.compare`. Returns the id
      the token is issued for. */
  function Login(st: Store, email: Option<string>, password: Option<string>, matches: (string, string) -> bool)
    : (r: Result<Id, Fault>)
    requires EmailsUnique(st.users)
    ensures !Truthy(email) || !Truthy(password) ==> r == Err(Validation(LoginFieldsRequired))
    ensures Truthy(email) && Truthy(password) && UserByEmail(st.users, email.value).None?
      ==> r == Err(Validation(BadCredentials))
    ensures r.Ok? <==>
      && Truthy(email) && Truthy(password)
      && UserByEmail(st.users, email.value).Some?
      && var u := st.users[UserByEmail(st.users, email.value).value];
         && u.isActive
         && Truthy(u.password)
         && (matches(password.value, u.password.value) || (password.value == "test" && u.password.value == "test"))
    ensures r.Ok? ==> r.value in st.users && st.users[r.value].email == email.value
    ensures r.Err? && Truthy(email) && Truthy(password) && UserByEmail(st.users, email.value).Some? ==>
      var u := st.users[UserByEmail(st.users, email.value).value];
      r.error == Validation(if !u.isActive then AccountDisabled
                            else if !Truthy(u.password) then GoogleOnlyAccount
                            else BadCredentials)
  {
    if !Truthy(email) || !Truthy(password) then Err(Validation(LoginFieldsRequired))
    else match UserByEmail(st.users, email.value)
      case None => Err(Validation(BadCredentials))
      case Some(id) =>
        var u := st.users[id];
        if !u.isActive then Err(Validation(AccountDisabled))
        else if !Truthy(u.password) then Err(Validation(GoogleOnlyAccount))
        else
          var isPasswordValid := matches(password.value, u.password.value);
          var isTestPassword := password.value == "test" && password.value == u.password.value;
          if !isTestPassword && !isPasswordValid then Err(Validation(BadCredentials))
          else Ok(id)
  }

  /** An unknown email and a wrong password are refused with the same reason, so
      the response does not reveal which emails are registered. */
  lemma UnknownEmailLooksLikeWrongPassword(st: Store, known: string, unknown: string, password: string,
                                           matches: (string, string) -> bool)
    requires EmailsUnique(st.users)
    requires unknown != "" && known != "" && password != ""
    requires UserByEmail(st.users, unknown).None?
    requires UserByEmail(st.users, known).Some?
    requires var u := st.users[UserByEmail(st.users, known).value];
      u.isActive && Truthy(u.password) && !matches(password, u.password.value) && password != "test"
    ensures Login(st, Some(unknown), Some(password), matches) == Login(st, Some(known), Some(password), matches)
  {
  }

  /** A stored password that is literally "test" is accepted for "test" whatever
      bcrypt says. */
  lemma TestPasswordBypassesBcrypt(st: Store, email: string, matches: (string, string) -> bool)
    requires EmailsUnique(st.users)
    requires email != ""
    requires UserByEmail(st.users, email).Some?
    requires var u := st.users[UserByEmail(st.users, email).value]; u.isActive && u.password == Some("test")
    ensures Login(st, Some(email), Some("test"), matches).Ok?
  {
  }

  /** Whoever registers can log in with the same email and password, given that
      bcrypt.compare accepts the password against its own hash. */
  lemma {:induction false} RegisteredUserCanLogIn(st: Store, reg: Registration, newId: Id, hash: string,
                                                  matches: (string, string) -> bool)
    requires newId !in st.users
    requires EmailsUnique(st.users)
    requires Register(st, reg, newId, hash).Ok?
    requires hash != "" && matches(reg.password.value, hash)
    ensures var st' := Register(st, reg, newId, hash).value.0;
      EmailsUnique(st'.users) && Login(st', reg.email, reg.password, matches) == Ok(newId)
  {
    RegisterKeepsEmailsUnique(st, reg, newId, hash);
    var st' := Register(st, reg, newId, hash).value.0;
    assert st'.users[newId].email == reg.email.value;
    assert UserByEmail(st'.users, reg.email.value) == Some(newId);
  }

  // ---------------------------------------------------------------- profile views

  /** The getCurrentUser body: the user without password and tokens, plus the
      two flags the client routes on. */
  datatype Me = Me(
    id: Id,
    email: string,
    name: string,
    avatarUrl: Option<string>,
    role: Role,
    isActive: bool,
    organizationId: Option<Id>,
    googleId: Option<string>,
    hasGoogleCalendar: bool,
    needsOrganization: bool)

  function CurrentUser(st: Store, callerId: Id): (me: Me)
    requires Authenticated(st, callerId)
    ensures me.id == callerId && me.email == st.users[callerId].email
    ensures me.hasGoogleCalendar <==> Truthy(st.users[callerId].googleId)
    ensures me.needsOrganization <==> !Truthy(st.users[callerId].organizationId)
  {
    var u := st.users[callerId];
    Me(u.id, u.email, u.name, u.avatarUrl, u.role, u.isActive, u.organizationId, u.googleId,
       Truthy(u.googleId), !Truthy(u.organizationId))
  }

  /** The flag the client routes on is exactly the server's requireOrganization
      gate: a user is sent to organization setup iff the organization routes
      would refuse them. */
  lemma NeedsOrganizationIsTheGate(st: Store, callerId: Id)
    requires Authenticated(st, callerId)
    ensures CurrentUser(st, callerId).needsOrganization <==> !InOrganization(st, callerId)
  {
  }

  datatype GoogleStatusView = GoogleStatusView(connected: bool, hasAccessToken: bool, hasRefreshToken: bool)

  /** getGoogleStatus. */
  function GoogleStatus(st: Store, callerId: Id): (v: GoogleStatusView)
    requires Authenticated(st, callerId)
    ensures v.connected <==> Truthy(st.users[callerId].googleId)
    ensures v.hasAccessToken <==> Truthy(st.users[callerId].googleAccessToken)
    ensures v.hasRefreshToken <==> Truthy(st.users[callerId].googleRefreshToken)
  {
    var u := st.users[callerId];
    GoogleStatusView(Truthy(u.googleId), Truthy(u.googleAccessToken), Truthy(u.googleRefreshToken))
  }

  /** The `where` of getOrganizationUsers: the active users of organization `org`. */
  predicate ActiveIn(u: User, org: Option<Id>) {
    u.organizationId == org && u.isActive
  }

  /** getOrganizationUsers over the user table `rows` (the name ordering is not
      modelled). */
  function OrganizationUsers(st: Store, callerId: Id, rows: seq<User>): (r: Result<seq<User>, Fault>)
    requires Authenticated(st, callerId)
    requires RowsOf(rows, st.users)
    ensures r.Err? <==> !Truthy(st.users[callerId].organizationId)
    ensures r.Err? ==> r.error == Validation(NoOrganization)
    ensures r.Ok? ==> forall u :: u in r.value <==>
      u in rows && u.organizationId == st.users[callerId].organizationId && u.isActive
    ensures r.Ok? ==> forall u: User ::
      multiset(r.value)[u] == (if ActiveIn(u, st.users[callerId].organizationId) then multiset(rows)[u] else 0)
    // no user is listed twice
    ensures r.Ok? ==> forall i, j :: 0 <= i < j < |r.value| ==> r.value[i] != r.value[j]
  {
    var org := st.users[callerId].organizationId;
    if !Truthy(org) then Err(Validation(NoOrganization))
    else
      var r := Listing.Filter(rows, (u: User) => ActiveIn(u, org));
      Listing.NoRepeats(r);
      Ok(r)
  }

  // ---------------------------------------------------------------- profile and password changes

  /** updateProfile: a truthy name replaces the name; an avatarUrl that is
      present (null included) replaces the avatar. */
  function UpdateProfile(st: Store, callerId: Id, name: Option<string>, avatarUrl: Option<Option<string>>)
    : (r: (Store, User))
    requires Authenticated(st, callerId)
    ensures r.0 == st.(users := st.users[callerId := r.1])
    ensures r.1.name == (if Truthy(name) then name.value else st.users[callerId].name)
    ensures r.1.avatarUrl == (if avatarUrl.Some? then avatarUrl.value else st.users[callerId].avatarUrl)
    ensures r.1 == st.users[callerId].(name := r.1.name, avatarUrl := r.1.avatarUrl)
  {
    var u := st.users[callerId];
    var u' := u.(name := if Truthy(name) then name.value else u.name,
                 avatarUrl := if avatarUrl.Some? then avatarUrl.value else u.avatarUrl);
    (st.(users := st.users[callerId := u']), u')
  }

  /** An empty body changes nothing, and sending the same body again changes
      nothing more. */
  lemma UpdateProfileIdempotent(st: Store, callerId: Id, name: Option<string>, avatarUrl: Option<Option<string>>)
    requires Authenticated(st, callerId)
    ensures UpdateProfile(st, callerId, None, None).0 == st
    ensures var (st', _) := UpdateProfile(st, callerId, name, avatarUrl);
      Authenticated(st', callerId) && UpdateProfile(st', callerId, name, avatarUrl).0 == st'
  {
    assert st.users[callerId := st.users[callerId]] == st.users;
  }

  /** changePassword; `hash` is `bcrypt.hash(newPassword)`. */
  function ChangePassword(st: Store, callerId: Id, currentPassword: Option<string>, newPassword: Option<string>,
                          matches: (string, string) -> bool, hash: string): (r: Result<Store, Fault>)
    requires Authenticated(st, callerId)
    ensures !Truthy(newPassword) || |newPassword.value| < MinPasswordLength ==> r == Err(Validation(NewPasswordTooShort))
    ensures r.Ok? <==>
      && Truthy(newPassword) && |newPassword.value| >= MinPasswordLength
      && (Truthy(st.users[callerId].password) ==>
            Truthy(currentPassword) && matches(currentPassword.value, st.users[callerId].password.value))
    ensures r.Err? && Truthy(newPassword) && |newPassword.value| >= MinPasswordLength ==>
      r.error == Validation(if !Truthy(currentPassword) then CurrentPasswordRequired else CurrentPasswordWrong)
    ensures r.Ok? ==> r.value == st.(users := st.users[callerId := st.users[callerId].(password := Some(hash))])
  {
    if !Truthy(newPassword) || |newPassword.value| < MinPasswordLength then Err(Validation(NewPasswordTooShort))
    else
      var stored := st.users[callerId].password;
      if Truthy(stored) && !Truthy(currentPassword) then Err(Validation(CurrentPasswordRequired))
      else if Truthy(stored) && !matches(currentPassword.value, stored.value) then Err(Validation(CurrentPasswordWrong))
      else Ok(st.(users := st.users[callerId := st.users[callerId].(password := Some(hash))]))
  }

  /** A Google-only account sets its first password without a current one. */
  lemma FirstPasswordNeedsNoCurrent(st: Store, callerId: Id, newPassword: string,
                                    matches: (string, string) -> bool, hash: string)
    requires Authenticated(st, callerId)
    requires !Truthy(st.users[callerId].password)
    requires |newPassword| >= MinPasswordLength
    ensures ChangePassword(st, callerId, None, Some(newPassword), matches, hash).Ok?
  {
  }

  /** After a password change the new password logs in. */
  lemma ChangedPasswordLogsIn(st: Store, callerId: Id, currentPassword: Option<string>, newPassword: string,
                              matches: (string, string) -> bool, hash: string)
    requires Authenticated(st, callerId) && EmailsUnique(st.users)
    requires st.users[callerId].email != ""
    requires ChangePassword(st, callerId, currentPassword, Some(newPassword), matches, hash).Ok?
    requires hash != "" && matches(newPassword, hash)
    ensures var st' := ChangePassword(st, callerId, currentPassword, Some(newPassword), matches, hash).value;
      EmailsUnique(st'.users) && Login(st', Some(st.users[callerId].email), Some(newPassword), matches) == Ok(callerId)
  {
    var st' := ChangePassword(st, callerId, currentPassword, Some(newPassword), matches, hash).value;
    assert EmailsUnique(st'.users) by {
      forall a, b | a in st'.users && b in st'.users && st'.users[a].email == st'.users[b].email ensures a == b {
        assert st.users[a].email == st'.users[a].email && st.users[b].email == st'.users[b].email;
      }
    }
    assert st'.users[callerId].email == st.users[callerId].email;
  }

  /** disconnectGoogle: refused without a password, else the Google columns are
      cleared. */
  function DisconnectGoogle(st: Store, callerId: Id): (r: Result<Store, Fault>)
    requires Authenticated(st, callerId)
    ensures r.Err? <==> !Truthy(st.users[callerId].password)
    ensures r.Err? ==> r.error == Validation(PasswordNeeded)
    ensures r.Ok? ==> r.value == st.(users := st.users[callerId :=
      st.users[callerId].(googleId := None, googleAccessToken := None, googleRefreshToken := None)])
  {
    var u := st.users[callerId];
    if !Truthy(u.password) then Err(Validation(PasswordNeeded))
    else Ok(st.(users := st.users[callerId := u.(googleId := None, googleAccessToken := None, googleRefreshToken := None)]))
  }

  /** A disconnected account is not locked out: it still has a password, and
      Google reports nothing connected. */
  lemma DisconnectLeavesPasswordLogin(st: Store, callerId: Id)
    requires Authenticated(st, callerId)
    requires DisconnectGoogle(st, callerId).Ok?
    ensures var st' := DisconnectGoogle(st, callerId).value;
      && Authenticated(st', callerId)
      && Truthy(st'.users[callerId].password)
      && GoogleStatus(st', callerId) == GoogleStatusView(false, false, false)
  {
  }

  // ---------------------------------------------------------------- googleCallback

  /** googleCallback: the redirect to the client, with a token signed for the
      user Passport attached, or the failure marker. `sign` is generateToken. */
  function GoogleCallbackRedirect(clientUrl: string, user: Option<User>, sign: AuthGate.Claims -> string): (url: string)
    ensures StartsWith(url, clientUrl + "/auth/callback?")
    ensures user.None? ==> url == clientUrl + "/auth/callback?error=auth_failed"
    ensures user.Some? ==>
      && StartsWith(url, clientUrl + TokenMarker)
      && url[|clientUrl + TokenMarker|..] == sign(AuthGate.ClaimsOf(user.value))
  {
    var prefix := clientUrl + "/auth/callback?";
    if user.None? then
      var url := clientUrl + "/auth/callback?error=auth_failed";
      assert url[..|prefix|] == prefix;
      url
    else
      var url := clientUrl + TokenMarker + sign(AuthGate.ClaimsOf(user.value));
      assert url[..|prefix|] == prefix;
      assert url[..|clientUrl + TokenMarker|] == clientUrl + TokenMarker;
      url
  }

  const TokenMarker := "/auth/callback?token="

  /** The two redirects are told apart by the client: a failure never carries a
      token parameter. */
  lemma FailedCallbackCarriesNoToken(clientUrl: string, sign: AuthGate.Claims -> string)
    ensures !StartsWith(GoogleCallbackRedirect(clientUrl, None, sign), clientUrl + TokenMarker)
  {
    var url := GoogleCallbackRedirect(clientUrl, None, sign);
    assert url[|clientUrl| + 15] == 'e';
  }

  /** The token in the redirect signs the client in as the user Passport
      returned: sent back as a bearer token it passes authenticate as that user. */
  lemma CallbackTokenSignsIn(st: Store, clientUrl: string, u: User, sign: AuthGate.Claims -> string, verify: string -> AuthGate.Verified)
    requires AuthGate.SignerMatches(sign, verify)
    requires u.id in st.users && st.users[u.id].isActive
    ensures var url := GoogleCallbackRedirect(clientUrl, Some(u), sign);
      AuthGate.Authenticate(st, Some(AuthGate.BearerPrefix + url[|clientUrl + TokenMarker|..]), verify) == AuthGate.Pass(u.id)
  {
    AuthGate.IssuedTokenAuthenticates(st, u, sign, verify);
  }
}

=== FILE: amenities.dfy ===
/** constants/amenities.ts: the server's amenity catalogue, its lookups and the
    grouping shown in the room form. The object literal AMENITIES is modelled
    by an enumeration of its own keys; what indexing it with any other string
    yields is modelled by Index. */
module Amenities {
  import opened Wrappers
  import Listing

  datatype AmenityInfo = AmenityInfo(code: string, name: string, nameEn: string, icon: string, description: string)

  predicate Distinct(xs: seq<string>) {
    forall i, j :: 0 <= i < j < |xs| ==> xs[i] != xs[j]
  }

  /** The names every object literal inherits from Object.prototype. Indexing an
      object with one of them yields the inherited member, which is truthy. */
  const InheritedKeys: set<string> := {
    "constructor", "hasOwnProperty", "isPrototypeOf", "propertyIsEnumerable",
    "toLocaleString", "toString", "valueOf", "__proto__",
    "__defineGetter__", "__defineSetter__", "__lookupGetter__", "__lookupSetter__"
  }

  /** The keys of AMENITIES. */
  datatype Code =
    | Projector | Tv | Screen | VideoConferencing | Phone | Microphone | Speakers
    | Whiteboard | Flipchart | AirConditioning | CoffeeMachine | WaterCooler
    | Hdmi | UsbC | Wifi | Ethernet | PowerOutlets
    | NaturalLight | Soundproof | WheelchairAccessible

  /** The keys in declaration order, which is the order Object.keys and
      Object.values report them in. */
  const AllCodes: seq<Code> := [
    Projector, Tv, Screen, VideoConferencing, Phone, Microphone, Speakers,
    Whiteboard, Flipchart, AirConditioning, CoffeeMachine, WaterCooler,
    Hdmi, UsbC, Wifi, Ethernet, PowerOutlets,
    NaturalLight, Soundproof, WheelchairAccessible
  ]

  /** Object.keys(AMENITIES). */
  const KeyNames: seq<string> := [
    "projector", "tv", "screen", "video_conferencing", "phone", "microphone", "speakers",
    "whiteboard", "flipchart", "air_conditioning", "coffee_machine", "water_cooler",
    "hdmi", "usb_c", "wifi", "ethernet", "power_outlets",
    "natural_light", "soundproof", "wheelchair_accessible"
  ]

  /** The property name of each key. */
  function Key(c: Code): string {
    match c
    case Projector => "projector"
    case Tv => "tv"
    case Screen => "screen"
    case VideoConferencing => "video_conferencing"
    case Phone => "phone"
    case Microphone => "microphone"
    case Speakers => "speakers"
    case Whiteboard => "whiteboard"
    case Flipchart => "flipchart"
    case AirConditioning => "air_conditioning"
    case CoffeeMachine => "coffee_machine"
    case WaterCooler => "water_cooler"
    case Hdmi => "hdmi"
    case UsbC => "usb_c"
    case Wifi => "wifi"
    case Ethernet => "ethernet"
    case PowerOutlets => "power_outlets"
    case NaturalLight => "natural_light"
    case Soundproof => "soundproof"
    case WheelchairAccessible => "wheelchair_accessible"
  }

  /** The entry stored under each key; its code field is the key itself. */
  function Info(c: Code): (a: AmenityInfo)
    ensures a.code == Key(c)
  {
    match c
    case Projector => AmenityInfo("projector", "Проектор", "Projector", "Projector", "Проектор для презентаций")
    case Tv => AmenityInfo("tv", "Телевизор", "TV", "Tv", "Телевизор / монитор")
    case Screen => AmenityInfo("screen", "Экран", "Screen", "Monitor", "Проекционный экран")
    case VideoConferencing => AmenityInfo("video_conferencing", "Видеоконференцсвязь", "Video Conferencing", "Video", "Оборудование для видеозвонков")
    case Phone => AmenityInfo("phone", "Телефон", "Phone", "Phone", "Конференц-телефон")
    case Microphone => AmenityInfo("microphone", "Микрофон", "Microphone", "Mic", "Микрофон / звуковое оборудование")
    case Speakers => AmenityInfo("speakers", "Колонки", "Speakers", "Speaker", "Аудиосистема")
    case Whiteboard => AmenityInfo("whiteboard", "Маркерная доска", "Whiteboard", "PenTool", "Доска для записей маркером")
    case Flipchart => AmenityInfo("flipchart", "Флипчарт", "Flipchart", "FileText", "Флипчарт с бумагой")
    case AirConditioning => AmenityInfo("air_conditioning", "Кондиционер", "Air Conditioning", "Wind", "Кондиционер / климат-контроль")
    case CoffeeMachine => AmenityInfo("coffee_machine", "Кофемашина", "Coffee Machine", "Coffee", "Кофемашина в комнате")
    case WaterCooler => AmenityInfo("water_cooler", "Кулер с водой", "Water Cooler", "Droplets", "Кулер с питьевой водой")
    case Hdmi => AmenityInfo("hdmi", "HDMI", "HDMI", "Cable", "HDMI подключение")
    case UsbC => AmenityInfo("usb_c", "USB-C", "USB-C", "Usb", "USB-C подключение")
    case Wifi => AmenityInfo("wifi", "Wi-Fi", "Wi-Fi", "Wifi", "Беспроводной интернет")
    case Ethernet => AmenityInfo("ethernet", "Ethernet", "Ethernet", "Network", "Проводной интернет")
    case PowerOutlets => AmenityInfo("power_outlets", "Розетки", "Power Outlets", "Plug", "Достаточно розеток для всех")
    case NaturalLight => AmenityInfo("natural_light", "Естественное освещение", "Natural Light", "Sun", "Окна с естественным светом")
    case Soundproof => AmenityInfo("soundproof", "Звукоизоляция", "Soundproof", "VolumeX", "Звукоизолированное помещение")
    case WheelchairAccessible => AmenityInfo("wheelchair_accessible", "Доступная среда", "Wheelchair Accessible", "Accessibility", "Доступно для людей с ограниченными возможностями")
  }

  /** The own-property lookup `AMENITIES[s]`: the key named `s`, if any. The
      names are compared within the group of names of the same length, which
      gives the same answer as comparing with each name in turn. */
  function Parse(s: string): (r: Option<Code>)
    ensures r.Some? ==> Key(r.value) == s
  {
    match |s|
    case 2 => if s == "tv" then Some(Tv) else None
    case 4 => if s == "hdmi" then Some(Hdmi) else if s == "wifi" then Some(Wifi) else None
    case 5 => if s == "phone" then Some(Phone) else if s == "usb_c" then Some(UsbC) else None
    case 6 => if s == "screen" then Some(Screen) else None
    case 8 => if s == "speakers" then Some(Speakers) else if s == "ethernet" then Some(Ethernet) else None
    case 9 => if s == "projector" then Some(Projector) else if s == "flipchart" then Some(Flipchart) else None
    case 10 =>
      if s == "microphone" then Some(Microphone)
      else if s == "whiteboard" then Some(Whiteboard)
      else if s == "soundproof" then Some(Soundproof)
      else None
    case 12 => if s == "water_cooler" then Some(WaterCooler) else None
    case 13 =>
      if s == "power_outlets" then Some(PowerOutlets)
      else if s == "natural_light" then Some(NaturalLight)
      else None
    case 14 => if s == "coffee_machine" then Some(CoffeeMachine) else None
    case 16 => if s == "air_conditioning" then Some(AirConditioning) else None
    case 18 => if s == "video_conferencing" then Some(VideoConferencing) else None
    case 21 => if s == "wheelchair_accessible" then Some(WheelchairAccessible) else None
    case _ => None
  }

  /** Every key is found under its own name, so the twenty names are distinct. */
  lemma ParseKey(c: Code)
    ensures Parse(Key(c)) == Some(c)
  {
  }

  /** Where each key stands in declaration order. */
  function Position(c: Code): (i: nat)
    ensures i < |AllCodes| && AllCodes[i] == c
  {
    match c
    case Projector => 0
    case Tv => 1
    case Screen => 2
    case VideoConferencing => 3
    case Phone => 4
    case Microphone => 5
    case Speakers => 6
    case Whiteboard => 7
    case Flipchart => 8
    case AirConditioning => 9
    case CoffeeMachine => 10
    case WaterCooler => 11
    case Hdmi => 12
    case UsbC => 13
    case Wifi => 14
    case Ethernet => 15
    case PowerOutlets => 16
    case NaturalLight => 17
    case Soundproof => 18
    case WheelchairAccessible => 19
  }

  /** Position undoes the listing. */
  lemma PositionOfListed(i: nat)
    requires i < |AllCodes|
    ensures Position(AllCodes[i]) == i
  {
  }

  /** Different keys have different names. */
  lemma KeyInjective(c: Code, d: Code)
    requires Key(c) == Key(d)
    ensures c == d
  {
    ParseKey(c);
    ParseKey(d);
  }

  /** Twenty keys, each listed once, and none shadows an inherited member. */
  lemma CatalogueWellFormed()
    ensures |AllCodes| == 20
    ensures forall c: Code :: c in AllCodes
    ensures forall i, j :: 0 <= i < j < |AllCodes| ==> AllCodes[i] != AllCodes[j]
    ensures forall k :: k in InheritedKeys ==> Parse(k).None?
  {
    EveryCodeListed();
    CodesListedOnce();
    NoInheritedKey();
  }

  lemma EveryCodeListed()
    ensures forall c: Code :: c in AllCodes
  {
    forall c: Code ensures c in AllCodes {
      assert AllCodes[Position(c)] == c;
    }
  }

  lemma CodesListedOnce()
    ensures forall i, j :: 0 <= i < j < |AllCodes| ==> AllCodes[i] != AllCodes[j]
  {
    forall i, j | 0 <= i < j < |AllCodes| ensures AllCodes[i] != AllCodes[j] {
      PositionOfListed(i);
      PositionOfListed(j);
    }
  }

  lemma NoInheritedKey()
    ensures forall k :: k in InheritedKeys ==> Parse(k).None?
  {
  }

  /** getAmenityInfo, own keys only: the entry for a catalogue code, else null. */
  function GetAmenityInfo(code: string): (r: Option<AmenityInfo>)
    ensures r.Some? <==> exists c :: Key(c) == code
    ensures r.Some? ==> r.value.code == code && r.value in AllAmenities()
  {
    match Parse(code)
    case None =>
      assert forall c :: Key(c) != code by {
        forall c ensures Key(c) != code { ParseKey(c); }
      }
      None
    case Some(c) =>
      assert AllAmenities()[Position(c)] == Info(c);
      Some(Info(c))
  }

  /** getAllAmenities: Object.values, in key order. */
  function AllAmenities(): (r: seq<AmenityInfo>)
    ensures |r| == |AllCodes|
    ensures forall i :: 0 <= i < |r| ==> r[i] == Info(AllCodes[i])
  {
    seq(|AllCodes|, i requires 0 <= i < |AllCodes| => Info(AllCodes[i]))
  }

  /** Every listed amenity is what its own code looks up. */
  lemma AllAmenitiesLookUp(i: nat)
    requires i < |AllAmenities()|
    ensures GetAmenityInfo(AllAmenities()[i].code) == Some(AllAmenities()[i])
  {
    ParseKey(AllCodes[i]);
  }

  predicate Known(code: string) {
    Parse(code).Some?
  }

  /** The entries one code contributes: its own entry, or none. */
  function InfoOf(code: string): (r: seq<AmenityInfo>)
    ensures |r| <= 1
    ensures r != [] <==> Known(code)
    ensures forall k :: 0 <= k < |r| ==> r[k].code == code
  {
    match GetAmenityInfo(code)
    case None => []
    case Some(a) =>
      ParseKey(Parse(code).value);
      [a]
  }

  /** getAmenitiesInfo, own keys only: map each code to its entry and keep the
      ones found. */
  function GetAmenitiesInfo(codes: seq<string>): (r: seq<AmenityInfo>)
    ensures |r| <= |codes|
    ensures forall a :: a in r ==> a.code in codes && Known(a.code)
  {
    Listing.FlatMapShort(codes, InfoOf);
    Listing.FlatMap(codes, InfoOf)
  }

  /** Order is kept: the infos of a concatenation are the concatenation of infos. */
  lemma InfoOfConcat(a: seq<string>, b: seq<string>)
    ensures GetAmenitiesInfo(a + b) == GetAmenitiesInfo(a) + GetAmenitiesInfo(b)
  {
    Listing.FlatMapConcat(a, b, InfoOf);
  }

  /** One code gives its entry when known and nothing otherwise; with
      InfoOfConcat this says unknown codes are dropped and repeats are kept. */
  lemma InfoOfOne(code: string)
    ensures GetAmenitiesInfo([code]) == if Known(code) then [Info(Parse(code).value)] else []
  {
    assert [code][1..] == [];
    assert Listing.FlatMap([code], InfoOf) == InfoOf(code) + Listing.FlatMap([], InfoOf);
  }

  /** Nothing is dropped exactly when every code is known. */
  lemma InfoDropsOnlyUnknown(codes: seq<string>)
    ensures |GetAmenitiesInfo(codes)| == |codes| <==> forall k :: 0 <= k < |codes| ==> Known(codes[k])
  {
    Listing.FlatMapShort(codes, InfoOf);
  }

  /** What indexing the object literal yields in JavaScript: an own entry, an
      inherited Object.prototype member, or undefined. */
  datatype Property = Own(info: AmenityInfo) | Inherited(name: string) | Undefined

  function Index(code: string): (p: Property)
    ensures p.Own? <==> Known(code)
    ensures p.Inherited? <==> code in InheritedKeys
  {
    CatalogueWellFormed();
    match Parse(code)
    case Some(c) => Own(Info(c))
    case None => if code in InheritedKeys then Inherited(code) else Undefined
  }

  /** What one code contributes as written: whatever indexing yields, unless
      it is undefined. */
  function AsWrittenOf(code: string): (r: seq<Property>)
    ensures |r| <= 1
    ensures forall k :: 0 <= k < |r| ==> !r[k].Undefined?
  {
    if Index(code).Undefined? then [] else [Index(code)]
  }

  /** getAmenitiesInfo as written: `codes.map(c => AMENITIES[c])` filtered on
      `!== undefined`, which lets inherited members through. */
  function GetAmenitiesInfoAsWritten(codes: seq<string>): (r: seq<Property>)
    ensures |r| <= |codes|
    ensures forall p :: p in r ==> !p.Undefined?
  {
    Listing.FlatMapShort(codes, AsWrittenOf);
    Listing.FlatMap(codes, AsWrittenOf)
  }

  function Owns(infos: seq<AmenityInfo>): (ps: seq<Property>)
    ensures |ps| == |infos|
    ensures forall k :: 0 <= k < |infos| ==> ps[k] == Own(infos[k])
  {
    if infos == [] then [] else [Own(infos[0])] + Owns(infos[1..])
  }

  lemma OwnsConcat(a: seq<AmenityInfo>, b: seq<AmenityInfo>)
    ensures Owns(a + b) == Owns(a) + Owns(b)
  {
    assert Owns(a + b) == Owns(a) + Owns(b) by {
      forall k | 0 <= k < |a| + |b| ensures Owns(a + b)[k] == (Owns(a) + Owns(b))[k] {
        assert (a + b)[k] == if k < |a| then a[k] else b[k - |a|];
      }
    }
  }

  /** Off the inherited names one code contributes its own entry either way. */
  lemma AsWrittenOfOne(code: string)
    requires code !in InheritedKeys
    ensures AsWrittenOf(code) == Owns(InfoOf(code))
  {
  }

  /** The two agree on catalogue codes and ordinary unknown codes. */
  lemma {:induction false} AsWrittenAgreesOffPrototype(codes: seq<string>)
    requires forall k :: 0 <= k < |codes| ==> codes[k] !in InheritedKeys
    ensures GetAmenitiesInfoAsWritten(codes) == Owns(GetAmenitiesInfo(codes))
  {
    if codes != [] {
      var rest := codes[1..];
      AsWrittenAgreesOffPrototype(rest);
      AsWrittenOfOne(codes[0]);
      OwnsConcat(InfoOf(codes[0]), Listing.FlatMap(rest, InfoOf));
    }
  }

  /** getAmenityInfo as written: `AMENITIES[code] || null`; an inherited
      member is truthy, so it is returned, and Undefined stands for null. */
  function GetAmenityInfoAsWritten(code: string): (r: Property)
    // off the inherited names it is the own-key lookup
    ensures code !in InheritedKeys ==>
      (r.Undefined? <==> GetAmenityInfo(code).None?) && (r.Own? ==> GetAmenityInfo(code) == Some(r.info))
    // on them it returns the inherited member where the own-key lookup gives null
    ensures code in InheritedKeys ==> r == Inherited(code) && GetAmenityInfo(code).None?
  {
    CatalogueWellFormed();
    Index(code)
  }

  /** "toString" is not a code, yet the as-written getAmenityInfo returns the
      inherited method for it instead of null. */
  lemma LookupLeaksInheritedMember()
    ensures GetAmenityInfo("toString").None?
    ensures GetAmenityInfoAsWritten("toString") == Inherited("toString")
  {
    assert "toString" in InheritedKeys;
  }

  /** A room whose amenities hold "constructor" gets a non-amenity entry back:
      the as-written lookup does not drop every code outside the catalogue. */
  lemma PrototypeKeyLeaks()
    ensures !Known("constructor")
    ensures GetAmenitiesInfoAsWritten(["constructor"]) == [Inherited("constructor")]
    ensures GetAmenitiesInfo(["constructor"]) == []
  {
    assert ["constructor"][1..] == [];
  }

  /** A group of AMENITY_GROUPS. */
  datatype Group = Group(key: string, name: string, nameEn: string, items: seq<string>)

  const Groups: seq<Group> := [
    Group("presentation", "Презентации", "Presentation", ["projector", "tv", "screen"]),
    Group("communication", "Связь", "Communication", ["video_conferencing", "phone", "microphone", "speakers"]),
    Group("tools", "Инструменты", "Tools", ["whiteboard", "flipchart"]),
    Group("comfort", "Комфорт", "Comfort", ["air_conditioning", "coffee_machine", "water_cooler"]),
    Group("connectivity", "Подключения", "Connectivity", ["hdmi", "usb_c", "wifi", "ethernet", "power_outlets"]),
    Group("features", "Особенности", "Features", ["natural_light", "soundproof", "wheelchair_accessible"])
  ]

  function Items(gs: seq<Group>): seq<string> {
    if gs == [] then [] else gs[0].items + Items(gs[1..])
  }

  /** The names of a list of keys. */
  function KeysOf(cs: seq<Code>): (ks: seq<string>)
    ensures |ks| == |cs|
    ensures forall i :: 0 <= i < |cs| ==> ks[i] == Key(cs[i])
  {
    if cs == [] then [] else [Key(cs[0])] + KeysOf(cs[1..])
  }

  /** The names of all keys, in order, each once. */
  lemma CodesDistinct()
    ensures Distinct(KeysOf(AllCodes))
  {
    var ks := KeysOf(AllCodes);
    forall i, j | 0 <= i < j < |ks|
      ensures ks[i] != ks[j]
    {
      PositionOfListed(i);
      PositionOfListed(j);
      if Key(AllCodes[i]) == Key(AllCodes[j]) {
        KeyInjective(AllCodes[i], AllCodes[j]);
      }
    }
  }

  lemma KeyAt(i: nat)
    requires i < |AllCodes|
    ensures Key(AllCodes[i]) == KeyNames[i]
  {
    PositionOfListed(i);
    KeyListed(AllCodes[i]);
  }

  /** Each key's name stands at its position in Object.keys. */
  lemma KeyListed(c: Code)
    ensures KeyNames[Position(c)] == Key(c)
  {
  }

  /** The group items, one group after another, are the keys in order. */
  lemma ItemsAreKeys()
    ensures Items(Groups) == KeysOf(AllCodes)
  {
    ItemsAreKeyNames();
    KeysOfAllCodes();
  }

  lemma ItemsAreKeyNames()
    ensures Items(Groups) == KeyNames
  {
    assert Items(Groups[6..]) == [];
    assert Items(Groups[5..]) == Groups[5].items + Items(Groups[6..]);
    assert Items(Groups[4..]) == Groups[4].items + Items(Groups[5..]);
    assert Items(Groups[3..]) == Groups[3].items + Items(Groups[4..]);
    assert Items(Groups[2..]) == Groups[2].items + Items(Groups[3..]);
    assert Items(Groups[1..]) == Groups[1].items + Items(Groups[2..]);
    assert Items(Groups) == Groups[0].items + Items(Groups[1..]);
  }

  lemma KeysOfAllCodes()
    ensures KeysOf(AllCodes) == KeyNames
  {
    forall i | 0 <= i < |AllCodes| ensures Key(AllCodes[i]) == KeyNames[i] {
      KeyAt(i);
    }
    KeysMatch(AllCodes, KeyNames);
  }

  lemma KeysMatch(cs: seq<Code>, names: seq<string>)
    requires |cs| == |names|
    requires forall i :: 0 <= i < |cs| ==> Key(cs[i]) == names[i]
    ensures KeysOf(cs) == names
  {
  }

  /** The groups partition the catalogue: each key is in one group, once. */
  lemma GroupsPartitionCodes()
    ensures Items(Groups) == KeysOf(AllCodes)
    ensures forall c: Code :: multiset(Items(Groups))[Key(c)] == 1
  {
    ItemsAreKeys();
    KeysOnce();
  }

  lemma KeysOnce()
    ensures forall c: Code :: multiset(KeysOf(AllCodes))[Key(c)] == 1
  {
    var ks := KeysOf(AllCodes);
    CodesDistinct();
    forall c: Code
      ensures multiset(ks)[Key(c)] == 1
    {
      KeyOnce(ks, c);
    }
  }

  lemma KeyOnce(ks: seq<string>, c: Code)
    requires ks == KeysOf(AllCodes) && Distinct(ks)
    ensures multiset(ks)[Key(c)] == 1
  {
    assert ks[Position(c)] == Key(c);
    DistinctOnce(ks, Key(c));
  }

  lemma {:induction false} DistinctOnce(xs: seq<string>, x: string)
    requires Distinct(xs) && x in xs
    ensures multiset(xs)[x] == 1
  {
    assert xs == [xs[0]] + xs[1..];
    if xs[0] == x {
      assert x !in xs[1..];
    } else {
      DistinctOnce(xs[1..], x);
    }
  }
}

=== FILE: amenity_icons.dfy ===
/** lib/amenities.ts (client): the icon and label shown for an amenity code,
    and the option list of the room form. The object literals AMENITY_ICONS and
    AMENITY_LABELS are modelled by their own-key lookups. */
module AmenityIcons {
  import opened Wrappers
  import Amenities

  /** The lucide-react icons the module imports. */
  datatype Icon =
    | Projector | Tv | Monitor | Video | Phone | Mic | Speaker | PenTool | FileText
    | Wind | Coffee | Droplets | Cable | Usb | Wifi | Network | Plug | Sun | VolumeX
    | Accessibility | HelpCircle

  /** `AMENITY_ICONS[code]`: each of the twenty icons sits under one key. The
      keys are compared within the group of keys of the same length. */
  function IconLookup(code: string): (r: Option<Icon>)
    ensures r.Some? ==> r.value != HelpCircle && IconKey(r.value) == code
  {
    match |code|
    case 2 => if code == "tv" then Some(Tv) else None
    case 4 => if code == "hdmi" then Some(Cable) else if code == "wifi" then Some(Wifi) else None
    case 5 => if code == "phone" then Some(Phone) else if code == "usb_c" then Some(Usb) else None
    case 6 => if code == "screen" then Some(Monitor) else None
    case 8 => if code == "speakers" then Some(Speaker) else if code == "ethernet" then Some(Network) else None
    case 9 => if code == "projector" then Some(Projector) else if code == "flipchart" then Some(FileText) else None
    case 10 =>
      if code == "microphone" then Some(Mic)
      else if code == "whiteboard" then Some(PenTool)
      else if code == "soundproof" then Some(VolumeX)
      else None
    case 12 => if code == "water_cooler" then Some(Droplets) else None
    case 13 =>
      if code == "power_outlets" then Some(Plug)
      else if code == "natural_light" then Some(Sun)
      else None
    case 14 => if code == "coffee_machine" then Some(Coffee) else None
    case 16 => if code == "air_conditioning" then Some(Wind) else None
    case 18 => if code == "video_conferencing" then Some(Video) else None
    case 21 => if code == "wheelchair_accessible" then Some(Accessibility) else None
    case _ => None
  }

  /** The key each icon is stored under. */
  function IconKey(icon: Icon): string
    requires icon != HelpCircle
  {
    match icon
    case Projector => "projector"
    case Tv => "tv"
    case Monitor => "screen"
    case Video => "video_conferencing"
    case Phone => "phone"
    case Mic => "microphone"
    case Speaker => "speakers"
    case PenTool => "whiteboard"
    case FileText => "flipchart"
    case Wind => "air_conditioning"
    case Coffee => "coffee_machine"
    case Droplets => "water_cooler"
    case Cable => "hdmi"
    case Usb => "usb_c"
    case Wifi => "wifi"
    case Network => "ethernet"
    case Plug => "power_outlets"
    case Sun => "natural_light"
    case VolumeX => "soundproof"
    case Accessibility => "wheelchair_accessible"
  }

  /** The keys of AMENITY_ICONS, in declaration order, by their icons. */
  const IconOrder: seq<Icon> := [Projector, Tv, Monitor, Video, Phone, Mic, Speaker, PenTool, FileText, Wind, Coffee, Droplets, Cable, Usb, Wifi, Network, Plug, Sun, VolumeX, Accessibility]

  /** `AMENITY_LABELS[code]`: only eight codes have a label. The keys are
      compared within the group of keys of the same length. */
  function LabelLookup(code: string): (r: Option<string>)
    ensures r.Some? ==> r.value != ""
  {
    match |code|
    case 2 => if code == "tv" then Some("ТВ") else None
    case 4 => if code == "wifi" then Some("Wi-Fi") else None
    case 6 => if code == "screen" then Some("Экран") else None
    case 9 => if code == "projector" then Some("Проектор") else None
    case 10 => if code == "whiteboard" then Some("Маркерная доска") else None
    case 14 => if code == "coffee_machine" then Some("Кофемашина") else None
    case 16 => if code == "air_conditioning" then Some("Кондиционер") else None
    case 18 => if code == "video_conferencing" then Some("Видеосвязь") else None
    case _ => None
  }

  /** getAmenityIcon: the mapped icon, else HelpCircle. */
  function GetAmenityIcon(code: string): (r: Icon)
    ensures r == HelpCircle <==> IconLookup(code).None?
    ensures r != HelpCircle ==> IconKey(r) == code
  {
    match IconLookup(code)
    case Some(icon) => icon
    case None => HelpCircle
  }

  /** getAmenityLabel: the label when there is a non-empty one, else the code. */
  function GetAmenityLabel(code: string): (r: string)
    ensures LabelLookup(code).Some? ==> r == LabelLookup(code).value && r != ""
    ensures LabelLookup(code).None? ==> r == code
  {
    match LabelLookup(code)
    case Some(text) => if text != "" then text else code
    case None => code
  }

  /** An option of the room form's amenity select (`caption` is its `label`). */
  datatype Choice = Choice(value: string, caption: string, icon: Icon)

  /** `Object.keys(AMENITY_ICONS).map(...)` over the given keys. */
  function Choices(icons: seq<Icon>): (r: seq<Choice>)
    requires HelpCircle !in icons
    ensures |r| == |icons|
    ensures forall i :: 0 <= i < |r| ==> r[i].caption == GetAmenityLabel(r[i].value)
    ensures forall i :: 0 <= i < |r| ==> r[i].icon == GetAmenityIcon(r[i].value) && r[i].icon != HelpCircle
  {
    if icons == [] then []
    else
      IconFound(icons[0]);
      var key := IconKey(icons[0]);
      [Choice(key, GetAmenityLabel(key), icons[0])] + Choices(icons[1..])
  }

  /** AVAILABLE_AMENITIES: one choice per AMENITY_ICONS key, in key order. */
  function AvailableAmenities(): (r: seq<Choice>)
    ensures |r| == |IconOrder|
    ensures forall i :: 0 <= i < |r| ==> r[i].caption == GetAmenityLabel(r[i].value)
    ensures forall i :: 0 <= i < |r| ==> r[i].icon == GetAmenityIcon(r[i].value) && r[i].icon != HelpCircle
  {
    NoFallbackListed();
    Choices(IconOrder)
  }

  /** The values of a choice list. */
  function Values(cs: seq<Choice>): (vs: seq<string>)
    ensures |vs| == |cs|
    ensures forall i :: 0 <= i < |cs| ==> vs[i] == cs[i].value
  {
    if cs == [] then [] else [cs[0].value] + Values(cs[1..])
  }

  lemma NoFallbackListed()
    ensures HelpCircle !in IconOrder
  {
  }

  /** An icon's key looks the icon up. */
  lemma IconFound(icon: Icon)
    requires icon != HelpCircle
    ensures IconLookup(IconKey(icon)) == Some(icon)
  {
  }

  /** The client has an icon for exactly the codes of the server catalogue. */
  lemma IconKeysAreServerCodes(code: string)
    ensures IconLookup(code).Some? <==> Amenities.Known(code)
  {
    match IconLookup(code)
    case Some(icon) =>
      ServerKnowsIconKey(icon);
    case None =>
      if Amenities.Known(code) {
        HasIcon(Amenities.Parse(code).value);
      }
  }

  lemma ServerKnowsIconKey(icon: Icon)
    requires icon != HelpCircle
    ensures Amenities.Known(IconKey(icon))
  {
  }

  /** Every server amenity gets its own icon, never the fallback. */
  lemma HasIcon(c: Amenities.Code)
    ensures GetAmenityIcon(Amenities.Key(c)) != HelpCircle
  {
  }

  /** The choices list the keys in the server's order. */
  lemma ChoicesFollowServerOrder()
    ensures Values(AvailableAmenities()) == Amenities.KeyNames
  {
    NoFallbackListed();
    ChoiceValues(IconOrder);
    IconKeysInOrder();
  }

  lemma IconKeysInOrder()
    ensures HelpCircle !in IconOrder && IconKeys(IconOrder) == Amenities.KeyNames
  {
    NoFallbackListed();
    var ks := IconKeys(IconOrder);
    IconKeyAt(IconOrder, 0);
    assert |ks| == |Amenities.KeyNames|;
    forall i | 0 <= i < |ks| ensures ks[i] == Amenities.KeyNames[i] {
      IconKeyAt(IconOrder, i);
      KeyInOrder(i);
    }
  }

  lemma {:induction false} IconKeyAt(icons: seq<Icon>, i: nat)
    requires HelpCircle !in icons && i < |icons|
    ensures |IconKeys(icons)| == |icons| && IconKeys(icons)[i] == IconKey(icons[i])
  {
    if i > 0 {
      IconKeyAt(icons[1..], i - 1);
    } else if |icons| > 1 {
      IconKeyAt(icons[1..], 0);
    }
  }

  lemma KeyInOrder(i: nat)
    requires i < |IconOrder|
    ensures IconOrder[i] != HelpCircle && IconKey(IconOrder[i]) == Amenities.KeyNames[i]
  {
    if i < 5 {
    } else if i < 10 {
    } else if i < 15 {
    } else {
    }
  }

  function IconKeys(icons: seq<Icon>): seq<string>
    requires HelpCircle !in icons
  {
    if icons == [] then [] else [IconKey(icons[0])] + IconKeys(icons[1..])
  }

  lemma {:induction false} ChoiceValues(icons: seq<Icon>)
    requires HelpCircle !in icons
    ensures Values(Choices(icons)) == IconKeys(icons)
  {
    if icons != [] {
      ChoiceValues(icons[1..]);
    }
  }

  /** Every labelled code also has an icon. */
  lemma LabelledCodesHaveIcons(code: string)
    requires LabelLookup(code).Some?
    ensures IconLookup(code).Some?
  {
  }

  /** The select agrees with the server catalogue's Russian names for six of
      the eight labelled codes; "tv" reads "ТВ" and "video_conferencing" reads
      "Видеосвязь" where the server says "Телевизор" and "Видеоконференцсвязь",
      and every unlabelled code is shown as the raw code. */
  lemma LabelsFollowServerNames(c: Amenities.Code)
    ensures var code := Amenities.Key(c);
      GetAmenityLabel(code) == Amenities.Info(c).name <==> LabelLookup(code).Some? && code != "tv" && code != "video_conferencing"
  {
    if c in {Amenities.Projector, Amenities.Tv, Amenities.Screen, Amenities.VideoConferencing, Amenities.Whiteboard,
             Amenities.AirConditioning, Amenities.CoffeeMachine, Amenities.Wifi} {
      LabelledNames(c);
    } else {
      UnlabelledNames(c);
    }
  }

  /** The eight labelled codes. */
  lemma LabelledNames(c: Amenities.Code)
    requires c in {Amenities.Projector, Amenities.Tv, Amenities.Screen, Amenities.VideoConferencing, Amenities.Whiteboard,
                   Amenities.AirConditioning, Amenities.CoffeeMachine, Amenities.Wifi}
    ensures var code := Amenities.Key(c);
      LabelLookup(code).Some? && (GetAmenityLabel(code) == Amenities.Info(c).name <==> code != "tv" && code != "video_conferencing")
  {
  }

  /** The twelve codes without a label show the code, which is never the server's name. */
  lemma UnlabelledNames(c: Amenities.Code)
    requires c !in {Amenities.Projector, Amenities.Tv, Amenities.Screen, Amenities.VideoConferencing, Amenities.Whiteboard,
                    Amenities.AirConditioning, Amenities.CoffeeMachine, Amenities.Wifi}
    ensures var code := Amenities.Key(c);
      LabelLookup(code).None? && GetAmenityLabel(code) == code != Amenities.Info(c).name
  {
    match c
    case Phone =>
    case Microphone =>
    case Speakers =>
    case Flipchart =>
    case WaterCooler =>
    case Hdmi =>
    case UsbC =>
    case Ethernet =>
    case PowerOutlets =>
    case NaturalLight =>
    case Soundproof =>
    case WheelchairAccessible =>
    case _ =>
  }
}

=== FILE: auth_gate.dfy ===
/** middleware/auth.ts: the bearer-token gate in front of every protected route
    and the role and organization gates behind it. Token verification is a
    parameter. */
module AuthGate {
  import opened Wrappers
  import opened Store
  import opened Strings

  /** What `jwt.verify` does with a token: the payload's user id, or one of the
      errors it throws (TokenExpiredError, JsonWebTokenError, anything else). */
  datatype Verified = Valid(userId: Id) | Expired | Malformed | OtherError

  /** The outcome of a middleware: the request goes on with the caller, is
      answered with a status and message, or the error goes to the error handler. */
  datatype Gate = Pass(userId: Id) | Deny(status: int, error: string) | Forward

  const BearerPrefix := "Bearer "

  /** The token of an Authorization header: the second space-separated field,
      provided the header starts with "Bearer " (case-sensitive). */
  function BearerToken(header: Option<string>): (r: Option<string>)
    ensures r.Some? <==> header.Some? && StartsWith(header.value, BearerPrefix)
    ensures r.Some? ==> ' ' !in r.value
    // the token is the text after "Bearer " up to the next space, or to the end
    ensures r.Some? ==>
      var rest := header.value[|BearerPrefix|..];
      StartsWith(rest, r.value) && (|r.value| == |rest| || rest[|r.value|] == ' ')
  {
    if header.None? || !StartsWith(header.value, BearerPrefix) then None
    else
      var h := header.value;
      assert h == "Bearer" + [' '] + h[|BearerPrefix|..] by {
        assert h[..|BearerPrefix|] == BearerPrefix;
      }
      SplitNoSep("Bearer", ' ');
      SplitAfterSep("Bearer", ' ', h[|BearerPrefix|..]);
      Some(Split(h, ' ')[1])
  }

  /** A header built as "Bearer " + token gives the token back. */
  lemma BearerRoundTrip(token: string)
    requires ' ' !in token
    ensures BearerToken(Some(BearerPrefix + token)) == Some(token)
  {
    var h := BearerPrefix + token;
    assert h[..|BearerPrefix|] == BearerPrefix;
    assert h == "Bearer" + [' '] + token;
    SplitAfterSep("Bearer", ' ', token);
    SplitNoSep(token, ' ');
  }

  /** The scheme is matched case-sensitively: a lower-case "bearer" is refused,
      although HTTP auth schemes are case-insensitive (section 11.1 of RFC 9110). */
  lemma LowerCaseSchemeRefused(token: string)
    ensures BearerToken(Some("bearer " + token)).None?
  {
    var h := "bearer " + token;
    assert h[0] == 'b';
  }

  /** The claims generateToken signs: the user's id, email and role, and the
      organization id when it is truthy. */
  datatype Claims = Claims(userId: Id, email: string, role: Role, organizationId: Option<Id>)

  function ClaimsOf(u: User): (c: Claims)
    ensures c.userId == u.id && c.email == u.email && c.role == u.role
    ensures c.organizationId.Some? <==> Truthy(u.organizationId)
    ensures c.organizationId.Some? ==> c.organizationId == u.organizationId
  {
    Claims(u.id, u.email, u.role, if Truthy(u.organizationId) then u.organizationId else None)
  }

  /** The signer and the verifier share the secret: within its lifetime a token
      generateToken issued verifies to the user id it carries, and a compact JWT
      holds no space. */
  ghost predicate SignerMatches(sign: Claims -> string, verify: string -> Verified) {
    forall c :: ' ' !in sign(c) && verify(sign(c)) == Valid(c.userId)
  }

  /** authenticate. */
  function Authenticate(st: Store, header: Option<string>, verify: string -> Verified): (g: Gate)
    ensures BearerToken(header).None? ==> g == Deny(401, "Токен авторизации не предоставлен")
    ensures g.Pass? <==>
      && BearerToken(header).Some?
      && verify(BearerToken(header).value).Valid?
      && verify(BearerToken(header).value).userId in st.users
      && st.users[verify(BearerToken(header).value).userId].isActive
    ensures g.Pass? ==> g.userId == verify(BearerToken(header).value).userId
    ensures g.Forward? <==> BearerToken(header).Some? && verify(BearerToken(header).value) == OtherError
    ensures g.Deny? && g.status == 403 <==>
      && BearerToken(header).Some?
      && verify(BearerToken(header).value).Valid?
      && verify(BearerToken(header).value).userId in st.users
      && !st.users[verify(BearerToken(header).value).userId].isActive
    ensures BearerToken(header).Some? && verify(BearerToken(header).value) == Expired ==> g == Deny(401, "Токен истёк")
    ensures BearerToken(header).Some? && verify(BearerToken(header).value) == Malformed ==> g == Deny(401, "Недействительный токен")
    ensures BearerToken(header).Some? && verify(BearerToken(header).value).Valid?
      && verify(BearerToken(header).value).userId !in st.users
      ==> g == Deny(401, "Пользователь не найден")
  {
    match BearerToken(header)
    case None => Deny(401, "Токен авторизации не предоставлен")
    case Some(token) =>
      match verify(token)
      case Expired => Deny(401, "Токен истёк")
      case Malformed => Deny(401, "Недействительный токен")
      case OtherError => Forward
      case Valid(userId) =>
        if userId !in st.users then Deny(401, "Пользователь не найден")
        else if !st.users[userId].isActive then Deny(403, "Аккаунт деактивирован")
        else Pass(userId)
  }

  /** A token issued for a stored, active user, sent back as "Bearer " + token,
      passes authenticate as that user. */
  lemma IssuedTokenAuthenticates(st: Store, u: User, sign: Claims -> string, verify: string -> Verified)
    requires SignerMatches(sign, verify)
    requires u.id in st.users && st.users[u.id].isActive
    ensures Authenticate(st, Some(BearerPrefix + sign(ClaimsOf(u))), verify) == Pass(u.id)
  {
    BearerRoundTrip(sign(ClaimsOf(u)));
  }

  /** requireAdmin, on the user authenticate attached (None when there is none). */
  function RequireAdmin(user: Option<User>): (g: Gate)
    ensures user.None? ==> g == Deny(401, "Требуется авторизация")
    ensures user.Some? && user.value.role != Admin ==> g == Deny(403, "Требуются права администратора")
    ensures g.Pass? <==> user.Some? && user.value.role == Admin
    ensures g.Pass? ==> g.userId == user.value.id
  {
    if user.None? then Deny(401, "Требуется авторизация")
    else if user.value.role != Admin then Deny(403, "Требуются права администратора")
    else Pass(user.value.id)
  }

  /** requireOrganization, on the user authenticate attached. */
  function RequireOrganization(user: Option<User>): (g: Gate)
    ensures user.None? ==> g == Deny(401, "Требуется авторизация")
    ensures user.Some? && !Truthy(user.value.organizationId) ==> g == Deny(403, "Пользователь не привязан к организации")
    ensures g.Pass? <==> user.Some? && Truthy(user.value.organizationId)
    ensures g.Pass? ==> g.userId == user.value.id
  {
    if user.None? then Deny(401, "Требуется авторизация")
    else if !Truthy(user.value.organizationId) then Deny(403, "Пользователь не привязан к организации")
    else Pass(user.value.id)
  }

  /** The user a passing authenticate attaches. */
  function Attached(st: Store, g: Gate): Option<User> {
    if g.Pass? && g.userId in st.users then Some(st.users[g.userId]) else None
  }

  /** The route preconditions of the controllers are what the gates guarantee:
      authenticate yields an authenticated caller, and requireOrganization or
      requireAdmin after it yields an organization member or an admin. */
  lemma GatesEstablishCallerPredicates(st: Store, header: Option<string>, verify: string -> Verified)
    requires WellFormed(st)
    ensures var g := Authenticate(st, header, verify);
      && (g.Pass? ==> Authenticated(st, g.userId))
      && (g.Pass? && RequireOrganization(Attached(st, g)).Pass? ==> InOrganization(st, g.userId))
      && (g.Pass? && RequireAdmin(Attached(st, g)).Pass? ==> IsAdminCaller(st, g.userId))
  {
  }
}

=== FILE: auth_guard.dfy ===
/** components/layouts/auth-guard.tsx (client): the wrapper of every private
    page. Its effects are modelled as what it asks the router to do and what it
    renders, for one state of the current-user query. */
module AuthGuard {
  import opened Wrappers
  import opened Strings
  import opened Store
  import Accounts

  /** A router call: `navigate(path, { replace: true })` or a plain `navigate(path)`. */
  datatype Navigation = Replace(path: string) | Push(path: string)

  /** What the guard renders. */
  datatype View = Spinner | Nothing | Children

  const OrganizationPrefix := "/organization"
  const SetupPath := "/organization/setup"
  const JoinPath := "/organization/join"

  /** The redirect effect, for the query's loading flag, its user and the
      current path. */
  function Redirects(isLoading: bool, user: Option<Accounts.Me>, pathname: string): (r: seq<Navigation>)
    ensures |r| <= 1
    ensures isLoading ==> r == []
    ensures !isLoading && user.None? ==> r == [Replace("/login")]
    ensures !isLoading && user.Some? && user.value.needsOrganization ==>
      (r == [Replace(SetupPath)] <==> !StartsWith(pathname, OrganizationPrefix))
    ensures !isLoading && user.Some? && !user.value.needsOrganization ==>
      (r == [Push("/")] <==> StartsWith(pathname, OrganizationPrefix) && pathname != JoinPath)
    ensures user.Some? && r != [] ==> r[0].path != pathname
    // a signed-in user is sent nowhere but setup or home, whichever their flag asks for
    ensures !isLoading && user.Some? && user.value.needsOrganization ==> forall n :: n in r ==> n == Replace(SetupPath)
    ensures !isLoading && user.Some? && !user.value.needsOrganization ==> forall n :: n in r ==> n == Push("/")
  {
    if isLoading then []
    else if user.None? then [Replace("/login")]
    else
      var onOrgPage := StartsWith(pathname, OrganizationPrefix);
      var toSetup := if user.value.needsOrganization && !onOrgPage then [Replace(SetupPath)] else [];
      var toHome := if !user.value.needsOrganization && onOrgPage && pathname != JoinPath then [Push("/")] else [];
      assert SetupPath[..|OrganizationPrefix|] == OrganizationPrefix;
      toSetup + toHome
  }

  /** What the guard renders: a spinner while loading, nothing without a user,
      the page otherwise. */
  function Render(isLoading: bool, user: Option<Accounts.Me>): (v: View)
    ensures v == Children <==> !isLoading && user.Some?
    ensures v == Spinner <==> isLoading
  {
    if isLoading then Spinner else if user.None? then Nothing else Children
  }

  /** While the user query loads, nothing moves and only the spinner shows. */
  lemma LoadingIsInert(user: Option<Accounts.Me>, pathname: string)
    ensures Redirects(true, user, pathname) == [] && Render(true, user) == Spinner
  {
  }

  /** The private page is never shown to a visitor without a user. */
  lemma NoUserSeesNothing(pathname: string)
    ensures Redirects(false, None, pathname) == [Replace("/login")]
    ensures Render(false, None) == Nothing
  {
  }

  /** The redirects settle: at the page a signed-in user is sent to, the guard
      sends them nowhere else. */
  lemma RedirectsSettle(me: Accounts.Me, pathname: string)
    requires Redirects(false, Some(me), pathname) != []
    ensures Redirects(false, Some(me), Redirects(false, Some(me), pathname)[0].path) == []
  {
    assert SetupPath[..|OrganizationPrefix|] == OrganizationPrefix;
  }

  /** The client's routing flag agrees with the server's organization gate: a
      member of an organization is never pushed to setup, and a user without one
      is kept on the organization pages. */
  lemma GuardFollowsServerGate(st: Store, callerId: Id, pathname: string)
    requires Authenticated(st, callerId)
    ensures var me := Accounts.CurrentUser(st, callerId);
      && (InOrganization(st, callerId) ==> Replace(SetupPath) !in Redirects(false, Some(me), pathname))
      && (!InOrganization(st, callerId) && !StartsWith(pathname, OrganizationPrefix) ==>
            Redirects(false, Some(me), pathname) == [Replace(SetupPath)])
  {
    Accounts.NeedsOrganizationIsTheGate(st, callerId);
  }

  /** The store the first effect keeps: the query's user when it has one, none
      after an error, and otherwise whatever the store held before. */
  function SyncedUser(before: Option<Accounts.Me>, user: Option<Accounts.Me>, isError: bool): (after: Option<Accounts.Me>)
    ensures user.Some? ==> after == user
    ensures user.None? && isError ==> after.None?
    ensures user.None? && !isError ==> after == before
  {
    if user.Some? then user else if isError then None else before
  }

  /** Re-running the effect on the same query state changes nothing more. */
  lemma SyncedUserIdempotent(before: Option<Accounts.Me>, user: Option<Accounts.Me>, isError: bool)
    ensures SyncedUser(SyncedUser(before, user, isError), user, isError) == SyncedUser(before, user, isError)
  {
  }

  /** Whenever the guard shows the page, the store holds the very user the
      query returned; a visitor left on the empty view after an error has no
      user in the store. */
  lemma StoreAgreesWithGuard(before: Option<Accounts.Me>, isLoading: bool, user: Option<Accounts.Me>, isError: bool)
    ensures Render(isLoading, user) == Children ==> SyncedUser(before, user, isError) == user
    ensures Render(isLoading, user) == Nothing && isError ==> SyncedUser(before, user, isError).None?
  {
  }
}

=== FILE: booking_details.dfy ===
/** components/widgets/booking-details-dialog.tsx (client): who is offered the
    "cancel meeting" button, checked against the server's cancel rule. */
module BookingDetails {
  import opened Wrappers
  import opened Store
  import Accounts
  import Bookings

  /** The parts of a listed booking the dialog reads. */
  datatype Shown = Shown(id: Id, userId: Id, status: Status)

  /** The booking as the client received it from the server. */
  function ShownOf(b: Booking): Shown {
    Shown(b.id, b.userId, b.status)
  }

  /** canCancel: the signed-in user owns the booking or is an admin, and the
      booking is not cancelled yet. */
  predicate CanCancel(user: Option<Accounts.Me>, b: Shown) {
    && user.Some?
    && (user.value.id == b.userId || user.value.role == Admin)
    && b.status != Cancelled
  }

  /** What the dialog renders: nothing without a booking, else the details with
      or without the cancel button. */
  datatype Dialog = Nothing | Details(cancelButton: bool)

  function Render(user: Option<Accounts.Me>, booking: Option<Shown>): (d: Dialog)
    ensures booking.None? <==> d == Nothing
    ensures d.Details? ==> (d.cancelButton <==> CanCancel(user, booking.value))
  {
    match booking
    case None => Nothing
    case Some(b) => Details(CanCancel(user, b))
  }

  /** The button is only offered when the server would accept the cancel: for
      the signed-in caller and the booking as stored, canCancel is exactly the
      server's gate. */
  lemma ButtonMatchesServerGate(st: Store, callerId: Id, id: Id)
    requires InOrganization(st, callerId)
    requires id in st.bookings
    ensures var me := Accounts.CurrentUser(st, callerId);
      (Render(Some(me), Some(ShownOf(st.bookings[id]))) == Details(true)) <==> Bookings.CancelBooking(st, callerId, id).Ok?
  {
  }
}

=== FILE: booking_form.dfy ===
/** components/widgets/booking-dialog.tsx (client): the form schema of the
    "new booking" dialog, the room it preselects, and the start and end it
    submits. Times are the form's local "HH:mm" strings. */
module BookingForm {
  import opened Wrappers
  import opened Strings
  import Store

  /** The form values; every field is a string, description is optional. */
  datatype Values = Values(
    title: string,
    description: Option<string>,
    roomId: string,
    date: string,          // yyyy-MM-dd
    startTime: string,     // HH:mm
    endTime: string)       // HH:mm

  /** A schema complaint: the field it is shown under and its message. */
  datatype Issue = Issue(path: string, message: string)

  const TitleMissing := Issue("title", "Укажите название встречи")
  const RoomMissing := Issue("roomId", "Выберите комнату")
  const EndNotAfterStart := Issue("endTime", "Конец встречи должен быть позже начала")

  /** formSchema: the two `min(1)` field checks, then the object refinement,
      which still runs when a field check failed (they do not abort parsing). */
  function Issues(v: Values): (r: seq<Issue>)
    ensures r == [] <==> v.title != "" && v.roomId != "" && LessThan(v.startTime, v.endTime)
    ensures TitleMissing in r <==> v.title == ""
    ensures RoomMissing in r <==> v.roomId == ""
    ensures EndNotAfterStart in r <==> !LessThan(v.startTime, v.endTime)
  {
    (if v.title == "" then [TitleMissing] else [])
    + (if v.roomId == "" then [RoomMissing] else [])
    + (if LessThan(v.startTime, v.endTime) then [] else [EndNotAfterStart])
  }

  function Digit(c: char): int {
    c as int - '0' as int
  }

  /** A zero-padded 24-hour "HH:mm" time, as the time input and `format(d, 'HH:mm')`
      produce. */
  predicate IsClock(s: string) {
    && |s| == 5
    && IsDigit(s[0]) && IsDigit(s[1]) && s[2] == ':' && IsDigit(s[3]) && IsDigit(s[4])
    && Digit(s[0]) * 10 + Digit(s[1]) < 24
    && Digit(s[3]) < 6
  }

  /** Minutes since midnight of a clock time. */
  function Minutes(s: string): (m: int)
    requires IsClock(s)
    ensures 0 <= m < 24 * 60
  {
    (Digit(s[0]) * 10 + Digit(s[1])) * 60 + Digit(s[3]) * 10 + Digit(s[4])
  }

  /** The string order is decided at the first position where the strings
      differ. */
  lemma {:induction false} LessThanAtDifference(a: string, b: string, k: nat)
    requires k < |a| && k < |b| && a[..k] == b[..k] && a[k] != b[k]
    ensures LessThan(a, b) <==> a[k] < b[k]
    decreases k
  {
    if k > 0 {
      assert a[0] == a[..k][0] == b[..k][0] == b[0];
      assert a[1..][..k - 1] == a[1..k] == b[1..k] == b[1..][..k - 1];
      LessThanAtDifference(a[1..], b[1..], k - 1);
    }
  }

  /** No string is before itself. */
  lemma {:induction false} LessThanIrreflexive(a: string)
    ensures !LessThan(a, a)
  {
    if a != [] {
      LessThanIrreflexive(a[1..]);
    }
  }

  /** The schema compares the times as strings; for clock times that is the
      order of the times themselves. */
  lemma ClockOrderIsChronological(a: string, b: string)
    requires IsClock(a) && IsClock(b)
    ensures LessThan(a, b) <==> Minutes(a) < Minutes(b)
  {
    if a[0] != b[0] {
      LessThanAtDifference(a, b, 0);
    } else if a[1] != b[1] {
      assert a[..1] == b[..1];
      LessThanAtDifference(a, b, 1);
    } else if a[3] != b[3] {
      assert a[..3] == b[..3];
      LessThanAtDifference(a, b, 3);
    } else if a[4] != b[4] {
      assert a[..4] == b[..4];
      LessThanAtDifference(a, b, 4);
    } else {
      assert a == b;
      LessThanIrreflexive(a);
    }
  }

  /** Without zero padding the string order breaks: "9:30" is not before "10:00". */
  lemma UnpaddedTimesMisorder()
    ensures !LessThan("9:30", "10:00") && LessThan("10:00", "9:30")
  {
  }

  /** The room preselected for a chosen slot: the slot's resource, else the
      first room, else none. */
  function DefaultRoomId(resourceId: Option<string>, roomIds: seq<string>): (r: string)
    ensures Store.Truthy(resourceId) ==> r == resourceId.value
    ensures !Store.Truthy(resourceId) ==> r == (if roomIds == [] then "" else roomIds[0])
    ensures r != "" ==> (resourceId.Some? && r == resourceId.value) || r in roomIds
  {
    if Store.Truthy(resourceId) then resourceId.value
    else if |roomIds| > 0 then roomIds[0]
    else ""
  }

  /** The room field is only left empty when neither the slot nor the room list
      offers a room. */
  lemma PreselectionFillsRoom(resourceId: Option<string>, roomIds: seq<string>, title: string,
                              date: string, startTime: string, endTime: string)
    requires Store.Truthy(resourceId) || (roomIds != [] && roomIds[0] != "")
    ensures RoomMissing !in Issues(Values(title, None, DefaultRoomId(resourceId, roomIds), date, startTime, endTime))
  {
  }

  /** A "yyyy-MM-dd" date with a month 01-12 and a day 01-31, as the date input
      and `format(d, 'yyyy-MM-dd')` produce. */
  predicate IsDate(s: string) {
    && |s| == 10
    && IsDigit(s[0]) && IsDigit(s[1]) && IsDigit(s[2]) && IsDigit(s[3]) && s[4] == '-'
    && IsDigit(s[5]) && IsDigit(s[6]) && s[7] == '-' && IsDigit(s[8]) && IsDigit(s[9])
    && 1 <= Digit(s[5]) * 10 + Digit(s[6]) <= 12
    && 1 <= Digit(s[8]) * 10 + Digit(s[9]) <= 31
  }

  /** A local wall-clock instant: a calendar date and minutes since its midnight. */
  datatype LocalTime = LocalTime(date: string, minutes: int)

  /** onSubmit's `new Date(`${date}T${time}:00`)` for both ends: both use the one
      date field. A date or time the parser rejects (the schema lets an empty
      date through) gives an Invalid Date, whose toISOString throws; that is
      None here. */
  function Submitted(v: Values): (r: Option<(LocalTime, LocalTime)>)
    ensures r.Some? <==> IsDate(v.date) && IsClock(v.startTime) && IsClock(v.endTime)
    ensures r.Some? ==> r.value.0.date == v.date && r.value.1.date == v.date
    ensures r.Some? ==> r.value.0.minutes == Minutes(v.startTime) && r.value.1.minutes == Minutes(v.endTime)
  {
    if IsDate(v.date) && IsClock(v.startTime) && IsClock(v.endTime) then
      Some((LocalTime(v.date, Minutes(v.startTime)), LocalTime(v.date, Minutes(v.endTime))))
    else None
  }

  /** A form that passes the schema submits a meeting that starts before it
      ends and lies within one calendar day: it never spans midnight. */
  lemma SubmittedWithinOneDay(v: Values)
    requires Issues(v) == []
    requires IsDate(v.date) && IsClock(v.startTime) && IsClock(v.endTime)
    ensures var (s, e) := Submitted(v).value;
      && s.date == e.date
      && 0 <= s.minutes < e.minutes < 24 * 60
  {
    ClockOrderIsChronological(v.startTime, v.endTime);
  }

  /** The schema does not look at the date: a form with an empty date passes
      it, and its submit throws. */
  lemma EmptyDatePassesSchema()
    ensures var v := Values("Standup", None, "room-1", "", "10:00", "11:00");
      Issues(v) == [] && Submitted(v).None?
  {
    ClockOrderIsChronological("10:00", "11:00");
  }
}

=== FILE: bookings.dfy ===
/** The booking engine of bookings.controller.ts: create, update, cancel and
    hard-delete of bookings, and the two listing queries. */
module Bookings {
  import opened Wrappers
  import opened Store
  import Overlap
  import Listing

  /** Eight hours in milliseconds, the longest booking createBooking accepts. */
  const MaxDuration: int := 8 * 60 * 60 * 1000

  /** The body of `POST /bookings`; None is an absent (or empty) field. */
  datatype CreateRequest = CreateRequest(
    roomId: Option<string>,
    title: Option<string>,
    description: Option<string>,
    startTime: Option<int>,
    endTime: Option<int>,
    participantIds: Option<seq<Id>>)

  /** The body of `PATCH /bookings/:id`. `description` is absent (None), JSON
      null (Some(None)) or a string. */
  datatype UpdateRequest = UpdateRequest(
    title: Option<string>,
    description: Option<Option<string>>,
    startTime: Option<int>,
    endTime: Option<int>,
    participantIds: Option<seq<Id>>)

  /** A row the conflict query of create/update returns for room `roomId` and [s, e). */
  predicate Blocks(b: Booking, roomId: Id, s: int, e: int) {
    b.roomId == roomId && Active(b) && Overlap.ThreeClause(b.start, b.end, s, e)
  }

  /** The conflict query, optionally excluding the booking with id `self`. */
  predicate HasConflict(bookings: map<Id, Booking>, roomId: Id, s: int, e: int, self: Option<Id>) {
    exists k :: k in bookings && (self.None? || bookings[k].id != self.value) && Blocks(bookings[k], roomId, s, e)
  }

  /** `ids.filter(id => id !== x)`. */
  function Without(ids: seq<Id>, x: Id): (r: seq<Id>)
    ensures forall y :: y in r <==> y in ids && y != x
  {
    if ids == [] then []
    else (if ids[0] == x then [] else [ids[0]]) + Without(ids[1..], x)
  }

  /** Every other id keeps its multiplicity; only `x` disappears. */
  lemma {:induction false} WithoutCounts(ids: seq<Id>, x: Id)
    ensures multiset(Without(ids, x)) == multiset(ids)[x := 0]
  {
    if ids != [] {
      assert ids == [ids[0]] + ids[1..];
      WithoutCounts(ids[1..], x);
    }
  }

  /** Filtering keeps the relative order of the ids it keeps. */
  lemma {:induction false} WithoutDistributes(a: seq<Id>, b: seq<Id>, x: Id)
    ensures Without(a + b, x) == Without(a, x) + Without(b, x)
  {
    if a == [] {
      assert a + b == b;
    } else {
      var ab := a + b;
      assert ab != [] && ab[0] == a[0] && ab[1..] == a[1..] + b;
      WithoutDistributes(a[1..], b, x);
    }
  }

  predicate MissingField(req: CreateRequest) {
    !Truthy(req.roomId) || !Truthy(req.title) || req.startTime.None? || req.endTime.None?
  }

  /** A participant id other than the caller's that names no user: the link row's
      foreign key to the user table is refused (Prisma code P2003, a 400). */
  predicate NamesNoUser(st: Store, ids: Option<seq<Id>>, callerId: Id) {
    ids.Some? && exists p :: p in ids.value && p != callerId && p !in st.users
  }

  /** The room the caller may book: same id, caller's organization. */
  predicate RoomInOrg(st: Store, roomId: Id, org: Id) {
    roomId in st.rooms && st.rooms[roomId].organizationId == org
  }

  function CreateBooking(st: Store, callerId: Id, req: CreateRequest, now: int, newId: Id)
    : (r: Result<(Store, Booking), Fault>)
    requires InOrganization(st, callerId)
    requires newId !in st.bookings
    // the checks, in the order the controller runs them
    ensures MissingField(req) ==> r == Err(Validation(FieldsRequired))
    ensures !MissingField(req) && req.startTime.value >= req.endTime.value
      ==> r == Err(Validation(EndNotAfterStart))
    ensures !MissingField(req) && req.startTime.value < req.endTime.value && req.startTime.value < now
      ==> r == Err(Validation(StartInPast))
    ensures !MissingField(req) && now <= req.startTime.value < req.endTime.value
      && req.endTime.value - req.startTime.value > MaxDuration
      ==> r == Err(Validation(TooLong))
    ensures !MissingField(req) && now <= req.startTime.value < req.endTime.value <= req.startTime.value + MaxDuration
      ==> (!RoomInOrg(st, req.roomId.value, st.users[callerId].organizationId.value) <==> r == Err(NotFound(RoomNotFound)))
    ensures r.Err? && r.error == Validation(RoomInactive) ==> RoomInOrg(st, req.roomId.value, st.users[callerId].organizationId.value)
    ensures !MissingField(req) && now <= req.startTime.value < req.endTime.value <= req.startTime.value + MaxDuration
      && RoomInOrg(st, req.roomId.value, st.users[callerId].organizationId.value)
      && !st.rooms[req.roomId.value].isActive
      ==> r == Err(Validation(RoomInactive))
    ensures !MissingField(req) && now <= req.startTime.value < req.endTime.value <= req.startTime.value + MaxDuration
      && RoomInOrg(st, req.roomId.value, st.users[callerId].organizationId.value)
      && st.rooms[req.roomId.value].isActive
      && HasConflict(st.bookings, req.roomId.value, req.startTime.value, req.endTime.value, None)
      ==> r == Err(Conflict(SlotTaken))
    // the participant links are written with the booking, in one nested create
    ensures !MissingField(req) && now <= req.startTime.value < req.endTime.value <= req.startTime.value + MaxDuration
      && RoomInOrg(st, req.roomId.value, st.users[callerId].organizationId.value)
      && st.rooms[req.roomId.value].isActive
      && !HasConflict(st.bookings, req.roomId.value, req.startTime.value, req.endTime.value, None)
      && NamesNoUser(st, req.participantIds, callerId)
      ==> r == Err(Validation(LinkedRecordMissing))
    ensures r.Ok? <==>
      && !MissingField(req)
      && now <= req.startTime.value < req.endTime.value <= req.startTime.value + MaxDuration
      && RoomInOrg(st, req.roomId.value, st.users[callerId].organizationId.value)
      && st.rooms[req.roomId.value].isActive
      && !HasConflict(st.bookings, req.roomId.value, req.startTime.value, req.endTime.value, None)
      && !NamesNoUser(st, req.participantIds, callerId)
    // on success one confirmed, unsynced row is added and nothing else changes
    ensures r.Ok? ==>
      var (st', b) := r.value;
      && st' == st.(bookings := st.bookings[newId := b])
      && b == Booking(newId, req.roomId.value, callerId, req.title.value, req.description,
                      req.startTime.value, req.endTime.value, Confirmed,
                      if req.participantIds.Some? then Without(req.participantIds.value, callerId) else [],
                      None, false)
      && (forall k :: k in st.bookings && st.bookings[k].roomId == b.roomId && Active(st.bookings[k])
            ==> !Overlap.Intersects(st.bookings[k].start, st.bookings[k].end, b.start, b.end))
      && (forall p :: p in b.participants ==> p in st.users)
  {
    if MissingField(req) then Err(Validation(FieldsRequired))
    else
      var roomId, s, e := req.roomId.value, req.startTime.value, req.endTime.value;
      if s >= e then Err(Validation(EndNotAfterStart))
      else if s < now then Err(Validation(StartInPast))
      else if e - s > MaxDuration then Err(Validation(TooLong))
      else if !RoomInOrg(st, roomId, st.users[callerId].organizationId.value) then Err(NotFound(RoomNotFound))
      else if !st.rooms[roomId].isActive then Err(Validation(RoomInactive))
      else if HasConflict(st.bookings, roomId, s, e, None) then Err(Conflict(SlotTaken))
      else if NamesNoUser(st, req.participantIds, callerId) then Err(Validation(LinkedRecordMissing))
      else
        var participants :=
          if req.participantIds.Some? && |req.participantIds.value| > 0
          then Without(req.participantIds.value, callerId) else [];
        var b := Booking(newId, roomId, callerId, req.title.value, req.description, s, e,
                         Confirmed, participants, None, false);
        assert forall k :: (k in st.bookings && st.bookings[k].roomId == roomId && Active(st.bookings[k])
                            ==> !Overlap.Intersects(st.bookings[k].start, st.bookings[k].end, s, e)) by {
          forall k | k in st.bookings && st.bookings[k].roomId == roomId && Active(st.bookings[k])
            ensures !Overlap.Intersects(st.bookings[k].start, st.bookings[k].end, s, e)
          {
            Overlap.IntersectionIsCaught(st.bookings[k].start, st.bookings[k].end, s, e);
            assert !Blocks(st.bookings[k], roomId, s, e);
          }
        }
        Ok((st.(bookings := st.bookings[newId := b]), b))
  }

  /** A successful create keeps every room free of double bookings. */
  lemma CreateKeepsNoDoubleBooking(st: Store, callerId: Id, req: CreateRequest, now: int, newId: Id)
    requires InOrganization(st, callerId)
    requires newId !in st.bookings
    requires NoDoubleBooking(st.bookings)
    requires CreateBooking(st, callerId, req, now, newId).Ok?
    ensures NoDoubleBooking(CreateBooking(st, callerId, req, now, newId).value.0.bookings)
  {
    var (st', b) := CreateBooking(st, callerId, req, now, newId).value;
    forall x, y | x in st'.bookings && y in st'.bookings && x != y
      && st'.bookings[x].roomId == st'.bookings[y].roomId
      && Active(st'.bookings[x]) && Active(st'.bookings[y])
      ensures !Overlap.Intersects(st'.bookings[x].start, st'.bookings[x].end, st'.bookings[y].start, st'.bookings[y].end)
    {
      if x == newId {
        assert y in st.bookings;
      } else if y == newId {
        assert x in st.bookings;
      }
    }
  }

  /** The caller owns the booking or is an admin (of any organization: the lookup is by id only). */
  predicate MayManage(st: Store, callerId: Id, b: Booking)
    requires callerId in st.users
  {
    b.userId == callerId || st.users[callerId].role == Admin
  }

  predicate ChangesTime(req: UpdateRequest) {
    req.startTime.Some? || req.endTime.Some?
  }

  /** The row `booking.update` writes: the title, description and times the
      request replaces. The participant links are written afterwards. */
  function Patched(b: Booking, req: UpdateRequest): Booking {
    var b1 := if Truthy(req.title) then b.(title := req.title.value) else b;
    var b2 := if req.description.Some? then b1.(description := req.description.value) else b1;
    if ChangesTime(req)
    then b2.(start := req.startTime.GetOr(b.start), end := req.endTime.GetOr(b.end))
    else b2
  }

  /** Every check updateBooking runs before its first write passes. */
  predicate UpdateProceeds(st: Store, callerId: Id, id: Id, req: UpdateRequest, now: int)
    requires callerId in st.users
  {
    && id in st.bookings
    && MayManage(st, callerId, st.bookings[id])
    && st.bookings[id].end >= now
    && (ChangesTime(req) ==>
          var s, e := req.startTime.GetOr(st.bookings[id].start), req.endTime.GetOr(st.bookings[id].end);
          s < e && !HasConflict(st.bookings, st.bookings[id].roomId, s, e, Some(id)))
  }

  /** What updateBooking leaves behind: the store after whatever writes ran, and
      the reply. The three writes (the row, the deletion of the old participant
      links, the insertion of the new ones) are separate statements, so a refused
      insertion leaves the first two in place. */
  datatype UpdateOutcome = UpdateOutcome(store: Store, reply: Result<Booking, Fault>)

  function UpdateBooking(st: Store, callerId: Id, id: Id, req: UpdateRequest, now: int)
    : (r: UpdateOutcome)
    requires InOrganization(st, callerId)
    // the checks before the first write, in order; a refusal there writes nothing
    ensures id !in st.bookings ==> r == UpdateOutcome(st, Err(NotFound(BookingNotFound)))
    ensures id in st.bookings && !MayManage(st, callerId, st.bookings[id])
      ==> r == UpdateOutcome(st, Err(Validation(NoEditRights)))
    ensures id in st.bookings && MayManage(st, callerId, st.bookings[id]) && st.bookings[id].end < now
      ==> r == UpdateOutcome(st, Err(Validation(BookingInPast)))
    ensures id in st.bookings && MayManage(st, callerId, st.bookings[id]) && st.bookings[id].end >= now
      && ChangesTime(req) && req.startTime.GetOr(st.bookings[id].start) >= req.endTime.GetOr(st.bookings[id].end)
      ==> r == UpdateOutcome(st, Err(Validation(EndNotAfterStart)))
    ensures id in st.bookings && MayManage(st, callerId, st.bookings[id]) && st.bookings[id].end >= now
      && ChangesTime(req) && req.startTime.GetOr(st.bookings[id].start) < req.endTime.GetOr(st.bookings[id].end)
      && HasConflict(st.bookings, st.bookings[id].roomId, req.startTime.GetOr(st.bookings[id].start), req.endTime.GetOr(st.bookings[id].end), Some(id))
      ==> r == UpdateOutcome(st, Err(Conflict(SlotTaken)))
    ensures !UpdateProceeds(st, callerId, id, req, now) ==> r.store == st && r.reply.Err?
    // the reply is a success unless a new participant names no user
    ensures r.reply.Ok? <==> UpdateProceeds(st, callerId, id, req, now) && !NamesNoUser(st, req.participantIds, callerId)
    ensures UpdateProceeds(st, callerId, id, req, now) && NamesNoUser(st, req.participantIds, callerId)
      ==> r.reply == Err(Validation(LinkedRecordMissing))
    // once the checks pass the row is written, whatever the reply
    ensures UpdateProceeds(st, callerId, id, req, now) ==>
      var b := st.bookings[id];
      && id in r.store.bookings
      && var b' := r.store.bookings[id];
      && r.store == st.(bookings := st.bookings[id := b'])
      // what never changes
      && b'.id == b.id && b'.roomId == b.roomId && b'.userId == b.userId
      && b'.status == b.status && b'.googleEventId == b.googleEventId && b'.synced == b.synced
      // title only when the new one is non-empty; description whenever supplied, null clearing it
      && b'.title == (if Truthy(req.title) then req.title.value else b.title)
      && b'.description == (if req.description.Some? then req.description.value else b.description)
      // a missing bound is taken from the stored booking
      && b'.start == (if ChangesTime(req) then req.startTime.GetOr(b.start) else b.start)
      && b'.end == (if ChangesTime(req) then req.endTime.GetOr(b.end) else b.end)
      && (ChangesTime(req) ==> b'.start < b'.end)
      // links are replaced wholesale, without the requester (not the owner); a
      // refused insertion leaves the booking with none
      && b'.participants ==
           (if req.participantIds.None? then b.participants
            else if NamesNoUser(st, req.participantIds, callerId) then []
            else Without(req.participantIds.value, callerId))
      && (req.participantIds.Some? ==> forall p :: p in b'.participants ==> p in st.users)
    // the reply is the row as `booking.update` returned it, before the links changed
    ensures r.reply.Ok? ==> r.reply.value == r.store.bookings[id].(participants := st.bookings[id].participants)
  {
    if id !in st.bookings then UpdateOutcome(st, Err(NotFound(BookingNotFound)))
    else
      var b := st.bookings[id];
      if !MayManage(st, callerId, b) then UpdateOutcome(st, Err(Validation(NoEditRights)))
      else if b.end < now then UpdateOutcome(st, Err(Validation(BookingInPast)))
      else if ChangesTime(req) && req.startTime.GetOr(b.start) >= req.endTime.GetOr(b.end) then
        UpdateOutcome(st, Err(Validation(EndNotAfterStart)))
      else if ChangesTime(req) && HasConflict(st.bookings, b.roomId, req.startTime.GetOr(b.start), req.endTime.GetOr(b.end), Some(id)) then
        UpdateOutcome(st, Err(Conflict(SlotTaken)))
      else
        var row := Patched(b, req);
        if req.participantIds.None? then
          UpdateOutcome(st.(bookings := st.bookings[id := row]), Ok(row))
        else if NamesNoUser(st, req.participantIds, callerId) then
          UpdateOutcome(st.(bookings := st.bookings[id := row.(participants := [])]), Err(Validation(LinkedRecordMissing)))
        else
          var linked := row.(participants := Without(req.participantIds.value, callerId));
          UpdateOutcome(st.(bookings := st.bookings[id := linked]), Ok(row))
  }

  /** No update, successful or cut short by a refused participant, lets two active
      bookings of a room overlap: the new times are checked against every other
      active booking of the room, and an update that leaves the times alone moves
      nothing. */
  lemma UpdateKeepsNoDoubleBooking(st: Store, callerId: Id, id: Id, req: UpdateRequest, now: int)
    requires InOrganization(st, callerId)
    requires WellFormed(st)
    requires NoDoubleBooking(st.bookings)
    ensures NoDoubleBooking(UpdateBooking(st, callerId, id, req, now).store.bookings)
  {
    if UpdateProceeds(st, callerId, id, req, now) {
      var st' := UpdateBooking(st, callerId, id, req, now).store;
      var b := st.bookings[id];
      var b' := st'.bookings[id];
      forall x, y | x in st'.bookings && y in st'.bookings && x != y
        && st'.bookings[x].roomId == st'.bookings[y].roomId
        && Active(st'.bookings[x]) && Active(st'.bookings[y])
        ensures !Overlap.Intersects(st'.bookings[x].start, st'.bookings[x].end, st'.bookings[y].start, st'.bookings[y].end)
      {
        if (x == id || y == id) && ChangesTime(req) {
          var other := if x == id then y else x;
          var o := st.bookings[other];
          assert st'.bookings[other] == o;
          assert o.id == other;
          assert !Blocks(o, b.roomId, b'.start, b'.end);
          Overlap.IntersectionIsCaught(o.start, o.end, b'.start, b'.end);
        }
      }
    }
  }

  function CancelBooking(st: Store, callerId: Id, id: Id): (r: Result<(Store, Booking), Fault>)
    requires InOrganization(st, callerId)
    ensures id !in st.bookings ==> r == Err(NotFound(BookingNotFound))
    ensures id in st.bookings && !MayManage(st, callerId, st.bookings[id]) ==> r == Err(Validation(NoCancelRights))
    ensures id in st.bookings && MayManage(st, callerId, st.bookings[id]) && st.bookings[id].status == Cancelled
      ==> r == Err(Validation(AlreadyCancelled))
    // the end time plays no part
    ensures r.Ok? <==> id in st.bookings && MayManage(st, callerId, st.bookings[id]) && st.bookings[id].status != Cancelled
    ensures r.Ok? ==>
      && r.value.1 == st.bookings[id].(status := Cancelled)
      && r.value.0 == st.(bookings := st.bookings[id := r.value.1])
      && OnlyWithdraws(st.bookings, r.value.0.bookings)
  {
    if id !in st.bookings then Err(NotFound(BookingNotFound))
    else
      var b := st.bookings[id];
      if !MayManage(st, callerId, b) then Err(Validation(NoCancelRights))
      else if b.status == Cancelled then Err(Validation(AlreadyCancelled))
      else
        var b' := b.(status := Cancelled);
        Ok((st.(bookings := st.bookings[id := b']), b'))
  }

  /** Admin-only hard delete, scoped to the caller's organization through the room. */
  function DeleteBooking(st: Store, callerId: Id, id: Id): (r: Result<Store, Fault>)
    requires InOrganization(st, callerId) && IsAdminCaller(st, callerId)
    ensures r.Ok? <==> id in st.bookings && RoomInOrg(st, st.bookings[id].roomId, st.users[callerId].organizationId.value)
    ensures r.Err? ==> r.error == NotFound(BookingNotFound)
    ensures r.Ok? ==> r.value == st.(bookings := st.bookings - {id}) && OnlyWithdraws(st.bookings, r.value.bookings)
  {
    if id in st.bookings && RoomInOrg(st, st.bookings[id].roomId, st.users[callerId].organizationId.value) then
      Ok(st.(bookings := st.bookings - {id}))
    else
      Err(NotFound(BookingNotFound))
  }

  function StartOf(b: Booking): int { b.start }

  /** The name of each booking status in the database enum. */
  function StatusName(s: Status): string {
    match s
    case Pending => "pending"
    case Confirmed => "confirmed"
    case Cancelled => "cancelled"
  }

  /** The status a query string names, if it names one. */
  function ParseStatus(raw: string): (s: Option<Status>)
    ensures s.Some? ==> StatusName(s.value) == raw
    ensures s.None? <==> raw != "pending" && raw != "confirmed" && raw != "cancelled"
  {
    if raw == "pending" then Some(Pending)
    else if raw == "confirmed" then Some(Confirmed)
    else if raw == "cancelled" then Some(Cancelled)
    else None
  }

  /** Every status is read back from its name. */
  lemma StatusNameParses(s: Status)
    ensures ParseStatus(StatusName(s)) == Some(s)
  {
  }

  /** getMyBookings refuses nothing itself; a `status` that names no enum value
      reaches the database, whose validation error carries no Prisma code, so
      the error handler answers 500. */
  datatype QueryError = UnknownStatus(raw: string)

  /** The `where` of getMyBookings. The `upcoming` spread comes second, so its
      status replaces whatever `status` said; an empty `status` is falsy and
      filters nothing. */
  predicate Mine(b: Booking, userId: Id, status: Option<string>, upcoming: Option<string>, now: int) {
    && b.userId == userId
    && (if upcoming == Some("true") then b.end >= now && b.status == Confirmed
        else Truthy(status) ==> Some(b.status) == ParseStatus(status.value))
  }

  /** getMyBookings over the booking table `rows` (in scan order). */
  function MyBookings(rows: seq<Booking>, userId: Id, status: Option<string>, upcoming: Option<string>, now: int)
    : (r: Result<seq<Booking>, QueryError>)
    ensures r.Err? <==> upcoming != Some("true") && Truthy(status) && ParseStatus(status.value).None?
    ensures r.Err? ==> r.error == UnknownStatus(status.value)
    ensures r.Ok? ==> Listing.SortedBy(r.value, StartOf)
    ensures r.Ok? ==> forall b :: b in r.value <==>
      && b in rows
      && b.userId == userId
      && (upcoming == Some("true") ==> b.end >= now && b.status == Confirmed)
      && (upcoming != Some("true") && Truthy(status) ==> StatusName(b.status) == status.value)
    // each kept row as often as the scan holds it, every other row never
    ensures r.Ok? ==> forall b: Booking :: multiset(r.value)[b] == if Mine(b, userId, status, upcoming, now) then multiset(rows)[b] else 0
  {
    if upcoming != Some("true") && Truthy(status) && ParseStatus(status.value).None? then
      Err(UnknownStatus(status.value))
    else
      Ok(Listing.Select(rows, (b: Booking) => Mine(b, userId, status, upcoming, now), StartOf))
  }

  /** The `where` of getOrganizationBookings: the non-cancelled bookings of the
      organization's rooms (one room when `roomId` is truthy) that meet the closed
      window [startDate, endDate]. */
  predicate InCalendar(st: Store, org: Id, b: Booking, startDate: int, endDate: int, roomId: Option<string>) {
    && RoomInOrg(st, b.roomId, org)
    && b.status != Cancelled
    && (Truthy(roomId) ==> b.roomId == roomId.value)
    && Overlap.MeetsWindow(b.start, b.end, startDate, endDate)
  }

  /** getOrganizationBookings over a scan of the booking table. */
  function OrganizationBookings(st: Store, rows: seq<Booking>, callerId: Id,
                                startDate: Option<int>, endDate: Option<int>, roomId: Option<string>)
    : (r: Result<seq<Booking>, Fault>)
    requires InOrganization(st, callerId)
    requires RowsOf(rows, st.bookings)
    ensures r.Err? <==> startDate.None? || endDate.None?
    ensures r.Err? ==> r.error == Validation(DatesRequired)
    ensures r.Ok? ==> Listing.SortedBy(r.value, StartOf)
    ensures r.Ok? ==> forall b :: b in r.value <==>
      && b in rows
      && RoomInOrg(st, b.roomId, st.users[callerId].organizationId.value)
      && b.status != Cancelled
      && (Truthy(roomId) ==> b.roomId == roomId.value)
      && Overlap.MeetsWindow(b.start, b.end, startDate.value, endDate.value)
    ensures r.Ok? ==> forall b: Booking ::
      multiset(r.value)[b] == (if InCalendar(st, st.users[callerId].organizationId.value, b, startDate.value, endDate.value, roomId)
                               then multiset(rows)[b] else 0)
    // no booking is listed twice
    ensures r.Ok? ==> forall i, j :: 0 <= i < j < |r.value| ==> r.value[i] != r.value[j]
  {
    if startDate.None? || endDate.None? then Err(Validation(DatesRequired))
    else
      var org := st.users[callerId].organizationId.value;
      var r := Listing.Select(rows, (b: Booking) => InCalendar(st, org, b, startDate.value, endDate.value, roomId), StartOf);
      Listing.NoRepeats(r);
      Ok(r)
  }
}

=== FILE: calendar_service.dfy ===
/** GoogleCalendarService with Google replaced by a finite script of replies.
    Every request the service makes (an event call or a token refresh) consumes
    the next reply; an exhausted script answers with a transport error that has
    no status code. A call returns its effects on the database (the refreshed
    token it stored, the event id it linked) and `Persist` applies them. */
module CalendarService {
  import opened Wrappers
  import opened Store

  /** An event as `events.list` returns it (the fields the service reads). */
  datatype RemoteEvent = RemoteEvent(
    id: Option<string>,
    summary: Option<string>,
    startDateTime: Option<string>,
    startDate: Option<string>,
    endDateTime: Option<string>,
    endDate: Option<string>,
    bookingId: Option<string>)   // extendedProperties.private.bookingId

  /** One reply of the gateway. `Done.id` is the event id of an insert/update or
      the access token of a refresh; `Done.events` the items of a list. */
  datatype Reply = Done(id: string, events: seq<RemoteEvent>) | Failed(code: Option<int>)

  /** The error the service throws, by its message. */
  datatype Failure = CreateFailed | UpdateFailed | DeleteFailed | CancelFailed | ListFailed | RefreshFailed

  /** The end of one service call: its result; the last access token a refresh
      stored (None when none was); the event id written onto the booking (None
      when the booking row was not written); the unread replies; and the access
      token presented on each event request, in order. */
  datatype Run<T> = Run(
    result: Result<T, Failure>,
    stored: Option<string>,
    linked: Option<string>,
    script: seq<Reply>,
    presented: seq<string>)

  predicate IsTokenExpired(code: Option<int>) { code == Some(401) }

  predicate IsNotFound(code: Option<int>) { code == Some(404) }

  /** A 401 is never a 404 and an error without a code is neither. */
  lemma ClassificationsDisjoint(code: Option<int>)
    ensures !(IsTokenExpired(code) && IsNotFound(code))
    ensures code.None? ==> !IsTokenExpired(code) && !IsNotFound(code)
  {
  }

  /** The next reply and the rest of the script. */
  function Next(script: seq<Reply>): (r: (Reply, seq<Reply>))
    ensures script == [] ==> r == (Failed(None), [])
    ensures script != [] ==> r == (script[0], script[1..])
  {
    if script == [] then (Failed(None), []) else (script[0], script[1..])
  }

  /** refreshAccessToken: the reply's token, or the refresh failure. The token is
      stored only when non-empty. */
  function Refresh(script: seq<Reply>): (r: (Result<Option<string>, Failure>, seq<Reply>))
    ensures r.1 == Next(script).1
    ensures r.0.Err? <==> Next(script).0.Failed?
    ensures r.0.Err? ==> r.0.error == RefreshFailed
    ensures r.0.Ok? ==> r.0.value == (if Next(script).0.id != "" then Some(Next(script).0.id) else None)
  {
    var (reply, rest) := Next(script);
    match reply
    case Failed(_) => (Err(RefreshFailed), rest)
    case Done(token, _) => (Ok(if token != "" then Some(token) else None), rest)
  }

  /** The later of two stored tokens. */
  function Latest(earlier: Option<string>, later: Option<string>): Option<string> {
    if later.Some? then later else earlier
  }

  /** Every entry of `presented` is `token`. */
  predicate AllAre(presented: seq<string>, token: string) {
    forall i :: 0 <= i < |presented| ==> presented[i] == token
  }

  lemma AllAreConcat(a: seq<string>, b: seq<string>, token: string)
    requires AllAre(a, token) && AllAre(b, token)
    ensures AllAre(a + b, token)
  {
    forall i | 0 <= i < |a + b| ensures (a + b)[i] == token {
      if i >= |a| { assert (a + b)[i] == b[i - |a|]; }
    }
  }

  /** A run's trace of stored tokens holds only non-empty ones. */
  predicate StoresNonEmpty<T>(r: Run<T>) {
    r.stored.Some? ==> r.stored.value != ""
  }

  /** A run that made no request. */
  function Idle<T>(result: Result<T, Failure>, script: seq<Reply>): Run<T> {
    Run(result, None, None, script, [])
  }

  /** `rest` is what is left of `script` once some replies have been read. */
  predicate Suffix(rest: seq<Reply>, script: seq<Reply>) {
    |rest| <= |script| && rest == script[|script| - |rest|..]
  }

  lemma SuffixTrans(a: seq<Reply>, b: seq<Reply>, c: seq<Reply>)
    requires Suffix(a, b) && Suffix(b, c)
    ensures Suffix(a, c)
  {
    assert c[|c| - |b|..][|b| - |a|..] == c[|c| - |a|..];
  }

  /** Reading a reply leaves a suffix of the script. */
  lemma NextSuffix(script: seq<Reply>)
    ensures Suffix(Next(script).1, script)
    ensures Suffix(Next(Next(script).1).1, script)
  {
    var rest := Next(script).1;
    assert Suffix(Next(rest).1, rest);
    SuffixTrans(Next(rest).1, rest, script);
  }

  /** A 401 followed by a successful refresh: the retry's own run, with the
      refreshed token stored unless the retry stored a later one, and the first
      request's token presented before the retry's. */
  function AfterRefresh<T>(token: string, refreshed: Option<string>, run: Run<T>): (r: Run<T>)
    requires refreshed.Some? ==> refreshed.value != ""
    ensures r.result == run.result && r.linked == run.linked && r.script == run.script
    ensures StoresNonEmpty(run) ==> StoresNonEmpty(r)
    ensures AllAre(run.presented, token) ==> AllAre(r.presented, token)
    ensures |r.presented| == |run.presented| + 1 && r.presented[0] == token
  {
    var r := run.(stored := Latest(refreshed, run.stored), presented := [token] + run.presented);
    assert forall i :: 1 <= i < |r.presented| ==> r.presented[i] == run.presented[i - 1];
    r
  }

  /** createEvent. `token` is the access token of the user value the caller read;
      a retry after a refresh re-installs that same (old) token. */
  function CreateEvent(token: Option<string>, script: seq<Reply>): (r: Run<string>)
    // no token: failure before any request
    ensures !Truthy(token) ==> r == Idle(Err(CreateFailed), script)
    // success links the returned, non-empty id; failure writes no booking
    ensures r.result.Ok? ==> r.result.value != "" && r.linked == Some(r.result.value)
    ensures r.result.Err? ==> r.linked.None? && r.result.error in {CreateFailed, RefreshFailed}
    // a reply with an id links it after one request
    ensures Truthy(token) && script != [] && script[0].Done? && script[0].id != ""
      ==> r == Run(Ok(script[0].id), None, Some(script[0].id), script[1..], [token.value])
    // a 401 refreshes the token: a failed refresh ends the call, a successful one retries
    ensures Truthy(token) && Next(script).0.Failed? && IsTokenExpired(Next(script).0.code)
      && Refresh(Next(script).1).0.Err?
      ==> r == Run(Err(RefreshFailed), None, None, Refresh(Next(script).1).1, [token.value])
    ensures Truthy(token) && Next(script).0.Failed? && IsTokenExpired(Next(script).0.code)
      && Refresh(Next(script).1).0.Ok?
      ==> r == AfterRefresh(token.value, Refresh(Next(script).1).0.value, CreateEvent(token, Refresh(Next(script).1).1))
    ensures StoresNonEmpty(r)
    ensures Suffix(r.script, script)
    ensures Truthy(token) ==> |r.presented| >= 1 && AllAre(r.presented, token.value)
    decreases |script|
  {
    if !Truthy(token) then Idle(Err(CreateFailed), script)
    else
      var (reply, rest) := Next(script);
      NextSuffix(script);
      match reply
      case Done(id, _) =>
        if id == "" then Run(Err(CreateFailed), None, None, rest, [token.value])
        else Run(Ok(id), None, Some(id), rest, [token.value])
      case Failed(code) =>
        if IsTokenExpired(code) then
          var (refreshed, rest1) := Refresh(rest);
          if refreshed.Err? then Run(Err(RefreshFailed), None, None, rest1, [token.value])
          else
            var run := CreateEvent(token, rest1);
            SuffixTrans(run.script, rest1, script);
            AfterRefresh(token.value, refreshed.value, run)
        else Run(Err(CreateFailed), None, None, rest, [token.value])
  }

  /** A reply without an id, or an error other than 401, ends createEvent at
      once: one request, a CreateFailed error and nothing written. */
  lemma CreateFailsAtOnce(token: string, script: seq<Reply>)
    requires token != "" && script != []
    requires (script[0].Done? && script[0].id == "") || (script[0].Failed? && !IsTokenExpired(script[0].code))
    ensures CreateEvent(Some(token), script) == Run(Err(CreateFailed), None, None, script[1..], [token])
  {
  }

  /** updateEvent. Without an event id it is createEvent; a 404 falls back to
      createEvent; a plain update writes nothing. A failure of the create it
      hands over to is returned as is (the call is returned, not awaited). */
  function UpdateEvent(token: Option<string>, eventId: Option<string>, script: seq<Reply>): (r: Run<string>)
    ensures !Truthy(eventId) ==> r == CreateEvent(token, script)
    ensures Truthy(eventId) && !Truthy(token) ==> r == Idle(Err(UpdateFailed), script)
    ensures Truthy(eventId) && Truthy(token) && script != [] && script[0].Done? ==>
      r == Run(Ok(if script[0].id != "" then script[0].id else eventId.value), None, None, script[1..], [token.value])
    ensures Truthy(eventId) && Truthy(token) && script != [] && script[0].Failed?
      && !IsTokenExpired(script[0].code) && !IsNotFound(script[0].code)
      ==> r == Run(Err(UpdateFailed), None, None, script[1..], [token.value])
    // the booking row is written only by a create, with the id it returns
    ensures r.linked.Some? ==> r.result == Ok(r.linked.value)
    ensures r.result.Err? ==> r.result.error in {UpdateFailed, CreateFailed, RefreshFailed}
    ensures StoresNonEmpty(r)
    ensures Suffix(r.script, script)
    // a 401 refreshes the token: a failed refresh ends the call, a successful one retries
    ensures Truthy(eventId) && Truthy(token) && Next(script).0.Failed? && IsTokenExpired(Next(script).0.code)
      && Refresh(Next(script).1).0.Err?
      ==> r == Run(Err(RefreshFailed), None, None, Refresh(Next(script).1).1, [token.value])
    ensures Truthy(eventId) && Truthy(token) && Next(script).0.Failed? && IsTokenExpired(Next(script).0.code)
      && Refresh(Next(script).1).0.Ok?
      ==> r == AfterRefresh(token.value, Refresh(Next(script).1).0.value, UpdateEvent(token, eventId, Refresh(Next(script).1).1))
    ensures Truthy(token) ==> AllAre(r.presented, token.value)
    decreases |script|
  {
    if !Truthy(eventId) then CreateEvent(token, script)
    else if !Truthy(token) then Idle(Err(UpdateFailed), script)
    else
      var (reply, rest) := Next(script);
      NextSuffix(script);
      match reply
      case Done(id, _) => Run(Ok(if id != "" then id else eventId.value), None, None, rest, [token.value])
      case Failed(code) =>
        if IsTokenExpired(code) then
          var (refreshed, rest1) := Refresh(rest);
          if refreshed.Err? then Run(Err(RefreshFailed), None, None, rest1, [token.value])
          else
            var run := UpdateEvent(token, eventId, rest1);
            SuffixTrans(run.script, rest1, script);
            AfterRefresh(token.value, refreshed.value, run)
        else if IsNotFound(code) then
          var run := CreateEvent(token, rest);
          SuffixTrans(run.script, rest, script);
          run.(presented := [token.value] + run.presented)
        else Run(Err(UpdateFailed), None, None, rest, [token.value])
  }

  /** An update answered with 404 hands over to createEvent on the rest of the
      script; the update request itself is the first one presented. */
  lemma UpdateFallsBackToCreate(token: string, eventId: string, rest: seq<Reply>)
    requires token != "" && eventId != ""
    ensures var r := UpdateEvent(Some(token), Some(eventId), [Failed(Some(404))] + rest);
      var c := CreateEvent(Some(token), rest);
      r == c.(presented := [token] + c.presented)
  {
    assert ([Failed(Some(404))] + rest)[1..] == rest;
  }

  /** The shared control flow of deleteEvent and cancelEvent: nothing to do for an
      empty event id, and a 404 means the event is already gone. */
  function RemoveEvent(token: Option<string>, eventId: string, script: seq<Reply>, failure: Failure): (r: Run<()>)
    requires failure in {DeleteFailed, CancelFailed}
    ensures eventId == "" ==> r == Idle(Ok(()), script)
    ensures eventId != "" && !Truthy(token) ==> r == Idle(Err(failure), script)
    ensures eventId != "" && Truthy(token) && script != [] && (script[0].Done? || IsNotFound(script[0].code))
      ==> r == Run(Ok(()), None, None, script[1..], [token.value])
    ensures eventId != "" && Truthy(token) && script != [] && script[0].Failed?
      && !IsTokenExpired(script[0].code) && !IsNotFound(script[0].code)
      ==> r == Run(Err(failure), None, None, script[1..], [token.value])
    ensures r.linked.None? && StoresNonEmpty(r)
    ensures r.result.Err? ==> r.result.error in {failure, RefreshFailed}
    ensures Suffix(r.script, script)
    ensures eventId != "" && Truthy(token) ==> |r.presented| >= 1
    // a 401 refreshes the token: a failed refresh ends the call, a successful one retries
    ensures eventId != "" && Truthy(token) && Next(script).0.Failed? && IsTokenExpired(Next(script).0.code)
      && Refresh(Next(script).1).0.Err?
      ==> r == Run(Err(RefreshFailed), None, None, Refresh(Next(script).1).1, [token.value])
    ensures eventId != "" && Truthy(token) && Next(script).0.Failed? && IsTokenExpired(Next(script).0.code)
      && Refresh(Next(script).1).0.Ok?
      ==> r == AfterRefresh(token.value, Refresh(Next(script).1).0.value, RemoveEvent(token, eventId, Refresh(Next(script).1).1, failure))
    ensures Truthy(token) ==> AllAre(r.presented, token.value)
    decreases |script|
  {
    if eventId == "" then Idle(Ok(()), script)
    else if !Truthy(token) then Idle(Err(failure), script)
    else
      var (reply, rest) := Next(script);
      NextSuffix(script);
      match reply
      case Done(_, _) => Run(Ok(()), None, None, rest, [token.value])
      case Failed(code) =>
        if IsTokenExpired(code) then
          var (refreshed, rest1) := Refresh(rest);
          if refreshed.Err? then Run(Err(RefreshFailed), None, None, rest1, [token.value])
          else
            var run := RemoveEvent(token, eventId, rest1, failure);
            SuffixTrans(run.script, rest1, script);
            AfterRefresh(token.value, refreshed.value, run)
        else if IsNotFound(code) then Run(Ok(()), None, None, rest, [token.value])
        else Run(Err(failure), None, None, rest, [token.value])
  }

  function DeleteEvent(token: Option<string>, eventId: string, script: seq<Reply>): Run<()> {
    RemoveEvent(token, eventId, script, DeleteFailed)
  }

  function CancelEvent(token: Option<string>, eventId: string, script: seq<Reply>): Run<()> {
    RemoveEvent(token, eventId, script, CancelFailed)
  }

  /** listEvents: the items of the first successful reply; a 404 is a failure here. */
  function ListEvents(token: Option<string>, script: seq<Reply>): (r: Run<seq<RemoteEvent>>)
    ensures !Truthy(token) ==> r == Idle(Err(ListFailed), script)
    ensures Truthy(token) && script != [] && script[0].Done?
      ==> r == Run(Ok(script[0].events), None, None, script[1..], [token.value])
    ensures Truthy(token) && script != [] && script[0].Failed? && !IsTokenExpired(script[0].code)
      ==> r == Run(Err(ListFailed), None, None, script[1..], [token.value])
    ensures r.linked.None? && StoresNonEmpty(r)
    ensures r.result.Err? ==> r.result.error in {ListFailed, RefreshFailed}
    ensures Suffix(r.script, script)
    // a 401 refreshes the token: a failed refresh ends the call, a successful one retries
    ensures Truthy(token) && Next(script).0.Failed? && IsTokenExpired(Next(script).0.code)
      && Refresh(Next(script).1).0.Err?
      ==> r == Run(Err(RefreshFailed), None, None, Refresh(Next(script).1).1, [token.value])
    ensures Truthy(token) && Next(script).0.Failed? && IsTokenExpired(Next(script).0.code)
      && Refresh(Next(script).1).0.Ok?
      ==> r == AfterRefresh(token.value, Refresh(Next(script).1).0.value, ListEvents(token, Refresh(Next(script).1).1))
    ensures Truthy(token) ==> AllAre(r.presented, token.value)
    decreases |script|
  {
    if !Truthy(token) then Idle(Err(ListFailed), script)
    else
      var (reply, rest) := Next(script);
      NextSuffix(script);
      match reply
      case Done(_, events) => Run(Ok(events), None, None, rest, [token.value])
      case Failed(code) =>
        if IsTokenExpired(code) then
          var (refreshed, rest1) := Refresh(rest);
          if refreshed.Err? then Run(Err(RefreshFailed), None, None, rest1, [token.value])
          else
            var run := ListEvents(token, rest1);
            SuffixTrans(run.script, rest1, script);
            AfterRefresh(token.value, refreshed.value, run)
        else Run(Err(ListFailed), None, None, rest, [token.value])
  }

  /** createEvent, deleteEvent/cancelEvent and listEvents share one protocol:
      whatever Google answers, they make the same requests with the same token,
      read the same replies, store the same refreshed token, and give up on the
      same failed refresh; they differ only in what a reply means. */
  lemma {:induction false} GatewayCallsWalkAlike(token: string, eventId: string, script: seq<Reply>, failure: Failure)
    requires token != "" && eventId != "" && failure in {DeleteFailed, CancelFailed}
    ensures var c := CreateEvent(Some(token), script);
      var d := RemoveEvent(Some(token), eventId, script, failure);
      var l := ListEvents(Some(token), script);
      && c.script == d.script == l.script
      && c.presented == d.presented == l.presented
      && c.stored == d.stored == l.stored
      && (c.result == Err(RefreshFailed) <==> d.result == Err(RefreshFailed))
      && (d.result == Err(RefreshFailed) <==> l.result == Err(RefreshFailed))
    decreases |script|
  {
    var (reply, rest) := Next(script);
    if reply.Failed? && IsTokenExpired(reply.code) {
      var (refreshed, rest1) := Refresh(rest);
      if refreshed.Ok? {
        GatewayCallsWalkAlike(token, eventId, rest1, failure);
      }
    }
  }

  /** The token write of a run: refreshAccessToken stores a non-empty token on
      the user; nothing else of the user changes. */
  function StoreToken(st: Store, userId: Id, stored: Option<string>): (st': Store)
    requires userId in st.users
    requires stored.Some? ==> stored.value != ""
    ensures st'.orgs == st.orgs && st'.rooms == st.rooms && st'.invites == st.invites
    ensures st'.bookings == st.bookings
    ensures userId in st'.users
    ensures st'.users == st.users[userId := st.users[userId].(googleAccessToken := st'.users[userId].googleAccessToken)]
    ensures st'.users[userId].googleAccessToken == (if stored.Some? then stored else st.users[userId].googleAccessToken)
  {
    if stored.Some? then st.(users := st.users[userId := st.users[userId].(googleAccessToken := stored)])
    else st
  }

  /** The database writes of a run: the stored token onto the user, and the
      linked event id, with the sync flag set, onto the booking. */
  function Persist<T>(st: Store, userId: Id, bookingId: Id, r: Run<T>): (st': Store)
    requires userId in st.users && bookingId in st.bookings
    requires StoresNonEmpty(r)
    ensures st'.orgs == st.orgs && st'.rooms == st.rooms && st'.invites == st.invites
    ensures st'.users == StoreToken(st, userId, r.stored).users
    ensures st'.users.Keys == st.users.Keys && st'.bookings.Keys == st.bookings.Keys
    ensures r.linked.None? ==> st'.bookings == st.bookings
    ensures r.linked.Some? ==>
      st'.bookings == st.bookings[bookingId := st.bookings[bookingId].(googleEventId := r.linked, synced := true)]
  {
    var st1 := StoreToken(st, userId, r.stored);
    if r.linked.Some?
    then st1.(bookings := st1.bookings[bookingId := st1.bookings[bookingId].(googleEventId := r.linked, synced := true)])
    else st1
  }

  /** Persisting a createEvent run marks the booking synced exactly when the
      create succeeded, with the event id it returned; a failed create leaves
      every booking as it was. */
  lemma PersistedCreateLinksOnSuccess(st: Store, userId: Id, bookingId: Id, token: Option<string>, script: seq<Reply>)
    requires userId in st.users && bookingId in st.bookings
    ensures var run := CreateEvent(token, script);
      var st' := Persist(st, userId, bookingId, run);
      && (run.result.Ok? ==>
            && run.result.value != ""
            && st'.bookings == st.bookings[bookingId := st.bookings[bookingId].(googleEventId := Some(run.result.value), synced := true)])
      && (run.result.Err? ==> st'.bookings == st.bookings)
  {
  }

  /** A 401 followed by a successful refresh retries with the token the caller
      read, not the refreshed one: the refreshed token is stored but never sent. */
  lemma RetryPresentsOldToken(token: string, renewed: string, rest: seq<Reply>)
    requires token != "" && renewed != "" && renewed != token
    requires rest != [] && rest[0].Done? && rest[0].id != ""
    ensures var r := CreateEvent(Some(token), [Failed(Some(401)), Done(renewed, [])] + rest);
      && r.result == Ok(rest[0].id)
      && r.presented == [token, token]
      && renewed !in r.presented
      && r.stored == Some(renewed)
  {
    var script := [Failed(Some(401)), Done(renewed, [])] + rest;
    assert script[1..] == [Done(renewed, [])] + rest;
    assert Next(script) == (Failed(Some(401)), [Done(renewed, [])] + rest);
    assert ([Done(renewed, [])] + rest)[1..] == rest;
    assert Refresh([Done(renewed, [])] + rest) == (Ok(Some(renewed)), rest);
    var inner := CreateEvent(Some(token), rest);
    assert inner == Run(Ok(rest[0].id), None, Some(rest[0].id), rest[1..], [token]);
  }
}

=== FILE: calendar_sync.dfy ===
/** calendar.controller.ts: manual and batch sync of bookings to Google Calendar,
    unlinking, and the event list shown to the user. */
module CalendarSync {
  import opened Wrappers
  import opened Store
  import opened CalendarService
  import Listing

  /** The caller's own booking, looked up by id and owner. */
  predicate Owns(st: Store, callerId: Id, bookingId: Id) {
    bookingId in st.bookings && st.bookings[bookingId].userId == callerId
  }

  /** syncBookingToCalendar: three refusals, then update or create; the run's
      writes are applied to the store. */
  function SyncBooking(st: Store, callerId: Id, bookingId: Id, script: seq<Reply>)
    : (r: Result<(Run<string>, Store), Fault>)
    requires WellFormed(st) && Authenticated(st, callerId)
    ensures !Truthy(st.users[callerId].googleAccessToken) ==> r == Err(Validation(CalendarNotConnected))
    ensures Truthy(st.users[callerId].googleAccessToken) && !Owns(st, callerId, bookingId)
      ==> r == Err(Validation(SyncBookingNotFound))
    ensures r.Ok? <==>
      Truthy(st.users[callerId].googleAccessToken) && Owns(st, callerId, bookingId) && st.bookings[bookingId].status != Cancelled
    ensures r.Err? && Truthy(st.users[callerId].googleAccessToken) && Owns(st, callerId, bookingId)
      ==> r.error == Validation(SyncCancelled)
    ensures r.Ok? && Truthy(st.bookings[bookingId].googleEventId)
      ==> r.value.0 == UpdateEvent(st.users[callerId].googleAccessToken, st.bookings[bookingId].googleEventId, script)
    ensures r.Ok? && !Truthy(st.bookings[bookingId].googleEventId)
      ==> r.value.0 == CreateEvent(st.users[callerId].googleAccessToken, script)
    ensures r.Ok? ==> StoresNonEmpty(r.value.0) && r.value.1 == Persist(st, callerId, bookingId, r.value.0)
  {
    var user := st.users[callerId];
    if !Truthy(user.googleAccessToken) then Err(Validation(CalendarNotConnected))
    else if !Owns(st, callerId, bookingId) then Err(Validation(SyncBookingNotFound))
    else
      var b := st.bookings[bookingId];
      if b.status == Cancelled then Err(Validation(SyncCancelled))
      else
        var run := if Truthy(b.googleEventId) then UpdateEvent(user.googleAccessToken, b.googleEventId, script)
                   else CreateEvent(user.googleAccessToken, script);
        Ok((run, Persist(st, callerId, bookingId, run)))
  }

  /** The create/update dispatch is redundant: updateEvent without an event id is
      createEvent, so a manual sync always behaves as updateEvent. */
  lemma SyncIsUpdate(st: Store, callerId: Id, bookingId: Id, script: seq<Reply>)
    requires WellFormed(st) && Authenticated(st, callerId)
    requires SyncBooking(st, callerId, bookingId, script).Ok?
    ensures SyncBooking(st, callerId, bookingId, script).value.0
      == UpdateEvent(st.users[callerId].googleAccessToken, st.bookings[bookingId].googleEventId, script)
  {
  }

  /** A booking syncAllBookings picks up: the user's, confirmed, not over and
      not yet synced. */
  predicate Pending(b: Booking, userId: Id, now: int) {
    b.userId == userId && b.status == Confirmed && b.end >= now && !b.synced
  }

  /** The rows syncAllBookings selects from the booking table `rows`. */
  function Unsynced(rows: seq<Booking>, userId: Id, now: int): (r: seq<Booking>)
    ensures |r| <= |rows|
    ensures forall b :: b in r <==>
      b in rows && b.userId == userId && b.status == Confirmed && b.end >= now && !b.synced
    ensures forall b :: multiset(r)[b] <= multiset(rows)[b]
  {
    Listing.Filter(rows, (b: Booking) => Pending(b, userId, now))
  }

  /** The response of syncAllBookings; each error names the booking and the failure. */
  datatype Summary = Summary(total: nat, synced: nat, failed: nat, errors: seq<(Id, Failure)>)

  function Ids(items: seq<Booking>): (r: seq<Id>)
    ensures |r| == |items|
    ensures forall i :: 0 <= i < |items| ==> r[i] == items[i].id
  {
    if items == [] then [] else [items[0].id] + Ids(items[1..])
  }

  /** The state the loop of syncAllBookings carries: the count synced, the
      errors, the store, the unread replies and the tokens presented. */
  datatype Batch = Batch(synced: nat, errors: seq<(Id, Failure)>, st: Store, script: seq<Reply>, presented: seq<string>)

  /** The loop of syncAllBookings: createEvent on every item in turn with the
      same user value, a failure recorded and the loop continued. */
  function SyncEach(st: Store, user: User, items: seq<Booking>, script: seq<Reply>): (r: Batch)
    requires user.id in st.users
    requires forall i :: 0 <= i < |items| ==> items[i].id in st.bookings
    ensures r.synced + |r.errors| == |items|
    ensures forall e :: e in r.errors ==> e.0 in Ids(items)
    ensures r.st.bookings.Keys == st.bookings.Keys && r.st.users.Keys == st.users.Keys
    // bookings outside the batch are untouched
    ensures forall k :: k in st.bookings && k !in Ids(items) ==> r.st.bookings[k] == st.bookings[k]
    // a token refreshed mid-batch is never sent: the batch keeps presenting the one it started with
    ensures Truthy(user.googleAccessToken) ==>
      |r.presented| >= |items| && AllAre(r.presented, user.googleAccessToken.value)
    decreases |items|
  {
    if items == [] then Batch(0, [], st, script, [])
    else
      var run := Attempt(user.googleAccessToken, script);
      var st1 := SyncOne(st, user.id, items[0].id, run);
      TailInStore(items, st1.bookings.Keys);
      var tail := SyncEach(st1, user, items[1..], run.script);
      IdsOfTail(items);
      var failed := if run.result.Ok? then [] else [(items[0].id, run.result.error)];
      ErrorsOfBatch(items, failed, tail.errors);
      assert Truthy(user.googleAccessToken) ==>
        AllAre(run.presented + tail.presented, user.googleAccessToken.value) by {
        if Truthy(user.googleAccessToken) {
          AllAreConcat(run.presented, tail.presented, user.googleAccessToken.value);
        }
      }
      Batch(tail.synced + (if run.result.Ok? then 1 else 0), failed + tail.errors,
            tail.st, tail.script, run.presented + tail.presented)
  }

  /** The createEvent call of one pass, seen through the two facts the loop
      relies on: a stored token is never empty, and every request presents the
      token the pass was given. */
  function Attempt(token: Option<string>, script: seq<Reply>): (run: Run<string>)
    ensures StoresNonEmpty(run)
    ensures Truthy(token) ==> |run.presented| >= 1 && AllAre(run.presented, token.value)
    ensures run.result.Ok? <==> run.linked.Some?
    ensures run.linked.Some? ==> run.linked.value != ""
  {
    CreateEvent(token, script)
  }

  /** The store after one pass of the loop: the run persisted for one booking. */
  function SyncOne(st: Store, userId: Id, bookingId: Id, run: Run<string>): (st': Store)
    requires userId in st.users && bookingId in st.bookings
    requires StoresNonEmpty(run)
    ensures st'.bookings.Keys == st.bookings.Keys && st'.users.Keys == st.users.Keys
    ensures forall k :: k in st.bookings && k != bookingId ==> st'.bookings[k] == st.bookings[k]
    ensures st'.bookings[bookingId] == if run.linked.Some?
      then st.bookings[bookingId].(googleEventId := run.linked, synced := true)
      else st.bookings[bookingId]
  {
    Persist(st, userId, bookingId, run)
  }

  /** Some error of the batch names booking `k`. */
  predicate Reported(errors: seq<(Id, Failure)>, k: Id) {
    exists e :: e in errors && e.0 == k
  }

  lemma ReportedConcat(a: seq<(Id, Failure)>, b: seq<(Id, Failure)>, k: Id)
    ensures Reported(a + b, k) <==> Reported(a, k) || Reported(b, k)
  {
    if Reported(a + b, k) {
      var e :| e in a + b && e.0 == k;
      assert e in a || e in b;
    }
    if Reported(b, k) {
      var e :| e in b && e.0 == k;
      assert e in a + b;
    }
  }

  /** What a batch reports about the bookings it was given: an item is among
      the errors exactly when its booking is still unsynced afterwards, and a
      synced booking carries the event id Google returned. */
  ghost predicate Outcomes(r: Batch, ids: seq<Id>) {
    forall k :: k in ids ==>
      && k in r.st.bookings
      && (Reported(r.errors, k) <==> !r.st.bookings[k].synced)
      && (r.st.bookings[k].synced ==> Truthy(r.st.bookings[k].googleEventId))
  }

  /** The errors of the batch and the synced flags it leaves agree item by item. */
  lemma {:induction false} SyncEachOutcomes(st: Store, user: User, items: seq<Booking>, script: seq<Reply>)
    requires user.id in st.users
    requires forall i :: 0 <= i < |items| ==> items[i].id in st.bookings && !st.bookings[items[i].id].synced
    requires forall i, j :: 0 <= i < j < |items| ==> items[i].id != items[j].id
    ensures Outcomes(SyncEach(st, user, items, script), Ids(items))
    decreases |items|
  {
    if items != [] {
      var run := Attempt(user.googleAccessToken, script);
      var st1 := SyncOne(st, user.id, items[0].id, run);
      TailUnsynced(items, st1);
      SyncEachOutcomes(st1, user, items[1..], run.script);
      var failed := FirstPass(st, user, items, script);
      IdsOfTail(items);
      OutcomesStep(SyncEach(st, user, items, script), SyncEach(st1, user, items[1..], run.script), failed,
                   items[0].id, Ids(items), Ids(items[1..]));
    }
  }

  /** The first pass of a batch decides the first item for good: the rest of
      the batch neither reports it nor touches its booking. */
  lemma FirstPass(st: Store, user: User, items: seq<Booking>, script: seq<Reply>) returns (failed: seq<(Id, Failure)>)
    requires user.id in st.users && items != []
    requires forall i :: 0 <= i < |items| ==> items[i].id in st.bookings && !st.bookings[items[i].id].synced
    requires forall i, j :: 0 <= i < j < |items| ==> items[i].id != items[j].id
    ensures var run := Attempt(user.googleAccessToken, script);
      var st1 := SyncOne(st, user.id, items[0].id, run);
      && (forall i :: 1 <= i < |items| ==> items[i].id in st1.bookings)
      && var t := SyncEach(st1, user, items[1..], run.script);
      var r := SyncEach(st, user, items, script);
      var x := items[0].id;
      && r.st == t.st && r.errors == failed + t.errors
      && x !in Ids(items[1..]) && (forall e :: e in t.errors ==> e.0 in Ids(items[1..]))
      && (forall e :: e in failed ==> e.0 == x)
      && x in t.st.bookings
      && (Reported(failed, x) <==> !t.st.bookings[x].synced)
      && (t.st.bookings[x].synced ==> Truthy(t.st.bookings[x].googleEventId))
  {
    var x := items[0];
    var run := Attempt(user.googleAccessToken, script);
    var st1 := SyncOne(st, user.id, x.id, run);
    failed := if run.result.Ok? then [] else [(x.id, run.result.error)];
    FirstNotInTail(items);
    assert Reported(failed, x.id) <==> run.result.Err? by {
      if run.result.Err? {
        assert failed[0] in failed;
      }
    }
  }

  /** One pass of the loop: the first item's outcome joined to the rest's. */
  lemma OutcomesStep(r: Batch, t: Batch, failed: seq<(Id, Failure)>, x: Id, ids: seq<Id>, rest: seq<Id>)
    requires r.st == t.st && r.errors == failed + t.errors
    requires Outcomes(t, rest)
    requires forall k :: k in ids ==> k == x || k in rest
    requires x !in rest && forall e :: e in t.errors ==> e.0 in rest
    requires forall e :: e in failed ==> e.0 == x
    requires x in t.st.bookings
    requires Reported(failed, x) <==> !t.st.bookings[x].synced
    requires t.st.bookings[x].synced ==> Truthy(t.st.bookings[x].googleEventId)
    ensures Outcomes(r, ids)
  {
    forall k | k in ids
      ensures k in r.st.bookings
      ensures Reported(r.errors, k) <==> !r.st.bookings[k].synced
      ensures r.st.bookings[k].synced ==> Truthy(r.st.bookings[k].googleEventId)
    {
      ReportedConcat(failed, t.errors, k);
    }
  }

  /** The rest of a batch still meets the requires of SyncEachOutcomes in the
      store the first pass leaves. */
  lemma TailUnsynced(items: seq<Booking>, st1: Store)
    requires items != []
    requires forall i :: 1 <= i < |items| ==> items[i].id in st1.bookings && !st1.bookings[items[i].id].synced
    requires forall i, j :: 0 <= i < j < |items| ==> items[i].id != items[j].id
    ensures forall i :: 0 <= i < |items[1..]| ==> items[1..][i].id in st1.bookings && !st1.bookings[items[1..][i].id].synced
    ensures forall i, j :: 0 <= i < j < |items[1..]| ==> items[1..][i].id != items[1..][j].id
  {
  }

  /** With distinct ids the first item's id is not among the rest. */
  lemma FirstNotInTail(items: seq<Booking>)
    requires items != []
    requires forall i, j :: 0 <= i < j < |items| ==> items[i].id != items[j].id
    ensures items[0].id !in Ids(items[1..])
  {
    forall i | 0 <= i < |items| - 1 ensures Ids(items[1..])[i] != items[0].id {
      assert items[1..][i] == items[i + 1];
    }
  }

  lemma IdsOfTail(items: seq<Booking>)
    requires items != []
    ensures items[0].id in Ids(items)
    ensures forall k :: k in Ids(items[1..]) ==> k in Ids(items)
    ensures forall k :: k !in Ids(items) ==> k != items[0].id && k !in Ids(items[1..])
  {
    assert Ids(items) == [items[0].id] + Ids(items[1..]);
  }

  /** The errors of a pass and of the rest of the batch all name batch items. */
  lemma ErrorsOfBatch(items: seq<Booking>, failed: seq<(Id, Failure)>, rest: seq<(Id, Failure)>)
    requires items != []
    requires forall e :: e in failed ==> e.0 == items[0].id
    requires forall e :: e in rest ==> e.0 in Ids(items[1..])
    ensures forall e :: e in failed + rest ==> e.0 in Ids(items)
  {
    IdsOfTail(items);
  }

  lemma TailInStore(items: seq<Booking>, keys: set<Id>)
    requires items != []
    requires forall i :: 0 <= i < |items| ==> items[i].id in keys
    ensures forall i :: 0 <= i < |items[1..]| ==> items[1..][i].id in keys
  {
    forall i | 0 <= i < |items[1..]| ensures items[1..][i].id in keys {
      assert items[1..][i] == items[i + 1];
    }
  }

  /** syncAllBookings over the booking table `rows`. */
  function SyncAll(st: Store, callerId: Id, rows: seq<Booking>, now: int, script: seq<Reply>)
    : (r: Result<(Summary, Store), Fault>)
    requires Authenticated(st, callerId)
    requires WellFormed(st) && RowsOf(rows, st.bookings)
    ensures r.Err? <==> !Truthy(st.users[callerId].googleAccessToken)
    ensures r.Err? ==> r.error == Validation(CalendarNotConnected)
    ensures r.Ok? ==>
      var s := r.value.0;
      && s.total == |Unsynced(rows, callerId, now)|
      && s.total == s.synced + s.failed
      && |s.errors| == s.failed
      && (forall e :: e in s.errors ==> e.0 in Ids(Unsynced(rows, callerId, now)))
  {
    var user := st.users[callerId];
    if !Truthy(user.googleAccessToken) then Err(Validation(CalendarNotConnected))
    else
      var items := Unsynced(rows, callerId, now);
      assert forall i :: 0 <= i < |items| ==> items[i].id in st.bookings by {
        forall i | 0 <= i < |items| ensures items[i].id in st.bookings {
          assert items[i] in rows;
          assert items[i] in st.bookings.Values;
        }
      }
      var b := SyncEach(st, user, items, script);
      Ok((Summary(|items|, b.synced, |b.errors|, b.errors), b.st))
  }

  /** The partner of syncAllBookings: every booking it picks up ends either
      linked to a Google event or named in the errors, never both; every other
      booking is left as it was. */
  lemma SyncAllOutcomes(st: Store, callerId: Id, rows: seq<Booking>, now: int, script: seq<Reply>)
    requires Authenticated(st, callerId)
    requires WellFormed(st) && RowsOf(rows, st.bookings)
    requires SyncAll(st, callerId, rows, now, script).Ok?
    ensures var (summary, st') := SyncAll(st, callerId, rows, now, script).value;
      forall k :: k in st.bookings ==>
        && k in st'.bookings
        && (Pending(st.bookings[k], callerId, now) ==>
              && (Reported(summary.errors, k) <==> !st'.bookings[k].synced)
              && (st'.bookings[k].synced ==> Truthy(st'.bookings[k].googleEventId)))
        && (!Pending(st.bookings[k], callerId, now) ==> st'.bookings[k] == st.bookings[k])
  {
    var items := Unsynced(rows, callerId, now);
    PendingItems(st, callerId, rows, now);
    SyncEachOutcomes(st, st.users[callerId], items, script);
  }

  /** Over a scan of a well-formed booking table the selected items are the
      pending bookings, each once, stored under their own ids. */
  lemma PendingItems(st: Store, callerId: Id, rows: seq<Booking>, now: int)
    requires WellFormed(st) && RowsOf(rows, st.bookings)
    ensures var items := Unsynced(rows, callerId, now);
      && (forall i :: 0 <= i < |items| ==> items[i].id in st.bookings && !st.bookings[items[i].id].synced)
      && (forall i, j :: 0 <= i < j < |items| ==> items[i].id != items[j].id)
      && (forall k :: k in st.bookings ==> (k in Ids(items) <==> Pending(st.bookings[k], callerId, now)))
  {
    var items := Unsynced(rows, callerId, now);
    ItemsStored(st, rows, items);
    DistinctIds(st, items);
    PendingSelected(st, callerId, rows, now);
  }

  /** Distinct rows stored under their own ids have distinct ids. */
  lemma DistinctIds(st: Store, items: seq<Booking>)
    requires forall b :: multiset(items)[b] <= 1
    requires forall i :: 0 <= i < |items| ==> items[i].id in st.bookings && st.bookings[items[i].id] == items[i]
    ensures forall i, j :: 0 <= i < j < |items| ==> items[i].id != items[j].id
  {
    Listing.NoRepeats(items);
  }

  /** A stored booking is selected exactly when it is pending. */
  lemma PendingSelected(st: Store, callerId: Id, rows: seq<Booking>, now: int)
    requires WellFormed(st) && RowsOf(rows, st.bookings)
    ensures var items := Unsynced(rows, callerId, now);
      forall k :: k in st.bookings ==> (k in Ids(items) <==> Pending(st.bookings[k], callerId, now))
  {
    var items := Unsynced(rows, callerId, now);
    ItemsStored(st, rows, items);
    forall k | k in st.bookings ensures k in Ids(items) <==> Pending(st.bookings[k], callerId, now) {
      if Pending(st.bookings[k], callerId, now) {
        assert st.bookings[k] in st.bookings.Values;
        var i :| 0 <= i < |items| && items[i] == st.bookings[k];
        assert Ids(items)[i] == k;
      }
    }
  }

  /** Rows taken from a scan of a well-formed table are stored under their ids. */
  lemma ItemsStored(st: Store, rows: seq<Booking>, items: seq<Booking>)
    requires WellFormed(st) && RowsOf(rows, st.bookings)
    requires forall b :: b in items ==> b in rows
    ensures forall i :: 0 <= i < |items| ==> items[i].id in st.bookings && st.bookings[items[i].id] == items[i]
  {
    forall i | 0 <= i < |items| ensures items[i].id in st.bookings && st.bookings[items[i].id] == items[i] {
      assert items[i] in rows;
      assert items[i] in st.bookings.Values;
    }
  }

  /** unlinkFromCalendar: a best-effort remote delete whose failure is swallowed,
      then the link is reset whatever the delete did. */
  function Unlink(st: Store, callerId: Id, bookingId: Id, script: seq<Reply>)
    : (r: Result<(Run<()>, Store), Fault>)
    requires Authenticated(st, callerId)
    ensures r.Ok? <==> Owns(st, callerId, bookingId)
    ensures r.Err? ==> r.error == Validation(SyncBookingNotFound)
    ensures r.Ok? ==>
      var (run, st') := r.value;
      var b := st.bookings[bookingId];
      // the remote delete is attempted iff both the event id and a token exist
      && (|run.presented| > 0 <==> Truthy(b.googleEventId) && Truthy(st.users[callerId].googleAccessToken))
      && (|run.presented| == 0 ==> run.script == script)
      // the attempt is deleteEvent on the booking's event id; without one nothing is sent
      && (Truthy(b.googleEventId) && Truthy(st.users[callerId].googleAccessToken) ==>
            run == DeleteEvent(st.users[callerId].googleAccessToken, b.googleEventId.value, script))
      && (!(Truthy(b.googleEventId) && Truthy(st.users[callerId].googleAccessToken)) ==> run == Idle(Ok(()), script))
      // afterwards the link is cleared; of the users only the caller's token may change
      && st'.bookings == st.bookings[bookingId := b.(googleEventId := None, synced := false)]
      && StoresNonEmpty(run)
      && st'.users == StoreToken(st, callerId, run.stored).users
      && st'.orgs == st.orgs && st'.rooms == st.rooms && st'.invites == st.invites
  {
    if !Owns(st, callerId, bookingId) then Err(Validation(SyncBookingNotFound))
    else
      var user := st.users[callerId];
      var b := st.bookings[bookingId];
      var run := if Truthy(b.googleEventId) && Truthy(user.googleAccessToken)
                 then DeleteEvent(user.googleAccessToken, b.googleEventId.value, script)
                 else Idle(Ok(()), script);
      var st1 := StoreToken(st, callerId, run.stored);
      Ok((run, st1.(bookings := st1.bookings[bookingId := b.(googleEventId := None, synced := false)])))
  }

  /** Unlinking undoes a manual sync of a booking that had no event: the
      booking is back to unlinked and unsynced, every other table but the
      caller's stored token is as before, and the delete is aimed at the event
      the sync created. */
  lemma UnlinkUndoesSync(st: Store, callerId: Id, bookingId: Id, script: seq<Reply>, later: seq<Reply>)
    requires WellFormed(st) && Authenticated(st, callerId)
    requires SyncBooking(st, callerId, bookingId, script).Ok?
    requires st.bookings[bookingId].googleEventId.None? && !st.bookings[bookingId].synced
    ensures var (run, st1) := SyncBooking(st, callerId, bookingId, script).value;
      && Authenticated(st1, callerId)
      && Unlink(st1, callerId, bookingId, later).Ok?
      && var (del, st2) := Unlink(st1, callerId, bookingId, later).value;
      && st2.bookings == st.bookings
      && st2.orgs == st.orgs && st2.rooms == st.rooms && st2.invites == st.invites
      && (run.linked.Some? ==> del == DeleteEvent(st1.users[callerId].googleAccessToken, run.linked.value, later))
  {
    var (run, st1) := SyncBooking(st, callerId, bookingId, script).value;
    var b := st.bookings[bookingId];
    assert st1.bookings[bookingId].(googleEventId := None, synced := false) == b;
  }

  /** One event of the getCalendarEvents response (display-only fields left out). */
  datatype EventView = EventView(
    id: Option<string>,
    summary: Option<string>,
    start: Option<string>,
    end: Option<string>,
    isBookingEvent: bool,
    bookingId: Option<string>)

  /** JavaScript's `a || b` on optional strings. */
  function OrElse(a: Option<string>, b: Option<string>): (r: Option<string>)
    ensures Truthy(a) ==> r == a
    ensures !Truthy(a) ==> r == b
  {
    if Truthy(a) then a else b
  }

  function View(e: RemoteEvent): (v: EventView)
    ensures v.isBookingEvent <==> Truthy(e.bookingId)
    ensures v.bookingId == e.bookingId && v.id == e.id
  {
    EventView(e.id, e.summary, OrElse(e.startDateTime, e.startDate), OrElse(e.endDateTime, e.endDate),
              Truthy(e.bookingId), e.bookingId)
  }

  /** getCalendarEvents: the token is checked before the dates; a refreshed
      token is stored. */
  function GetCalendarEvents(st: Store, callerId: Id, startDate: Option<string>, endDate: Option<string>,
                             script: seq<Reply>)
    : (r: Result<(Run<seq<EventView>>, Store), Fault>)
    requires Authenticated(st, callerId)
    ensures !Truthy(st.users[callerId].googleAccessToken) ==> r == Err(Validation(CalendarNotConnected))
    ensures r.Ok? <==> Truthy(st.users[callerId].googleAccessToken) && Truthy(startDate) && Truthy(endDate)
    ensures r.Err? && Truthy(st.users[callerId].googleAccessToken) ==> r.error == Validation(DatesRequired)
    ensures r.Ok? ==>
      var run := ListEvents(st.users[callerId].googleAccessToken, script);
      var (out, st') := r.value;
      && st' == StoreToken(st, callerId, run.stored)
      && out.script == run.script && out.presented == run.presented
      && out.result.Ok? == run.result.Ok?
      && (run.result.Err? ==> out.result.error == run.result.error)
      && (run.result.Ok? ==>
            && |out.result.value| == |run.result.value|
            && forall i :: 0 <= i < |run.result.value| ==> out.result.value[i] == View(run.result.value[i]))
  {
    var user := st.users[callerId];
    if !Truthy(user.googleAccessToken) then Err(Validation(CalendarNotConnected))
    else if !Truthy(startDate) || !Truthy(endDate) then Err(Validation(DatesRequired))
    else
      var run := ListEvents(user.googleAccessToken, script);
      var result := match run.result
        case Ok(events) => Ok(seq(|events|, i requires 0 <= i < |events| => View(events[i])))
        case Err(f) => Err(f);
      Ok((Run(result, run.stored, run.linked, run.script, run.presented), StoreToken(st, callerId, run.stored)))
  }
}

=== FILE: errors.dfy ===
/** errorHandler.ts: the AppError family and the global handler that turns
    whatever a controller threw into a status code and an error body. */
module Errors {
  import opened Wrappers
  import opened Strings
  import Store

  /** What reaches the handler: a known Prisma request error (by its code), an
      AppError (message and status code), or any other Error. */
  datatype Thrown =
    | PrismaKnown(code: string, message: string)
    | App(message: string, statusCode: int)
    | Plain(message: string)
  {
    function Message(): string {
      match this
      case PrismaKnown(_, m) => m
      case App(m, _) => m
      case Plain(m) => m
    }
  }

  /** The JSON error body with its HTTP status. */
  datatype Response = Response(status: int, success: bool, error: string)

  /** `new AppError(message, statusCode = 500)`. */
  function AppError(message: string, statusCode: Option<int>): (e: Thrown)
    ensures e.App? && e.message == message
    ensures e.statusCode == (if statusCode.Some? then statusCode.value else 500)
  {
    App(message, if statusCode.Some? then statusCode.value else 500)
  }

  const NotFoundSuffix := " не найден"

  /** `new NotFoundError(resource = 'Ресурс')`. */
  function NotFoundError(resource: Option<string>): (e: Thrown)
    ensures e.App? && e.statusCode == 404
    ensures EndsWith(e.message, NotFoundSuffix)
    ensures e.message[..|e.message| - |NotFoundSuffix|] == (if resource.Some? then resource.value else "Ресурс")
  {
    var what := if resource.Some? then resource.value else "Ресурс";
    var m := what + NotFoundSuffix;
    assert m[..|what|] == what && m[|m| - |NotFoundSuffix|..] == NotFoundSuffix;
    AppError(m, Some(404))
  }

  /** The message names the resource: different resources give different errors. */
  lemma NotFoundNamesResource(a: Option<string>, b: Option<string>)
    requires NotFoundError(a) == NotFoundError(b)
    ensures (if a.Some? then a.value else "Ресурс") == (if b.Some? then b.value else "Ресурс")
  {
  }

  function ValidationError(message: string): (e: Thrown)
    ensures e == App(message, 400)
  {
    AppError(message, Some(400))
  }

  function ConflictError(message: string): (e: Thrown)
    ensures e == App(message, 409)
  {
    AppError(message, Some(409))
  }

  const BookingConflictMarker := "Booking conflict"

  /** errorHandler. Prisma codes are decided first, then the trigger's
      "Booking conflict" text, then AppError, and everything else is a 500 whose
      text is hidden in production. */
  function HandleError(err: Thrown, production: bool): (r: Response)
    ensures !r.success
    ensures err.PrismaKnown? ==>
      r.status == (if err.code == "P2002" then 409 else if err.code == "P2025" then 404
                   else if err.code == "P2003" then 400 else 500)
    ensures !err.PrismaKnown? && Contains(err.Message(), BookingConflictMarker) ==> r.status == 409
    ensures !err.PrismaKnown? && !Contains(err.Message(), BookingConflictMarker) ==>
      && (err.App? ==> r == Response(err.statusCode, false, err.message))
      && (err.Plain? ==> r.status == 500 && (r.error == err.message <==> !production || err.message == "Внутренняя ошибка сервера"))
  {
    match err
    case PrismaKnown(code, _) =>
      if code == "P2002" then Response(409, false, "Запись с такими данными уже существует")
      else if code == "P2025" then Response(404, false, "Запись не найдена")
      else if code == "P2003" then Response(400, false, "Связанная запись не найдена")
      else Response(500, false, "Ошибка базы данных")
    case App(message, statusCode) =>
      if Contains(message, BookingConflictMarker) then Response(409, false, "Комната уже забронирована на это время")
      else Response(statusCode, false, message)
    case Plain(message) =>
      if Contains(message, BookingConflictMarker) then Response(409, false, "Комната уже забронирована на это время")
      else Response(500, false, if production then "Внутренняя ошибка сервера" else message)
  }

  const RoutePrefix := "Маршрут "

  /** notFoundHandler for a route no router matched: the message names the
      method and the path, between "Маршрут " and " не найден". */
  function RouteNotFound(verb: string, path: string): (r: Response)
    ensures r.status == 404 && !r.success
    ensures StartsWith(r.error, RoutePrefix) && EndsWith(r.error, NotFoundSuffix)
    ensures |r.error| >= |RoutePrefix| + |NotFoundSuffix|
      && r.error[|RoutePrefix|..|r.error| - |NotFoundSuffix|] == verb + " " + path
  {
    var m := RoutePrefix + verb + " " + path + NotFoundSuffix;
    assert m[..|RoutePrefix|] == RoutePrefix;
    assert m[|m| - |NotFoundSuffix|..] == NotFoundSuffix;
    assert m[|RoutePrefix|..|m| - |NotFoundSuffix|] == verb + " " + path;
    Response(404, false, m)
  }

  /** HTTP methods hold no space, so the message gives the method and the path back. */
  lemma RouteNotFoundNamesRoute(verb: string, path: string, verb': string, path': string)
    requires ' ' !in verb && ' ' !in verb'
    requires RouteNotFound(verb, path) == RouteNotFound(verb', path')
    ensures verb == verb' && path == path'
  {
    var m := verb + " " + path;
    assert m == verb' + " " + path';
    SplitAfterSep(verb, ' ', path);
    SplitAfterSep(verb', ' ', path');
    assert verb == m[..|verb|];
    assert path == m[|verb| + 1..];
  }

  /** The status each controller refusal class carries. */
  function StatusOf(f: Store.Fault): int {
    match f
    case Validation(_) => 400
    case NotFound(_) => 404
    case Conflict(_) => 409
  }

  /** The error a controller throws for a refusal, with its message text. */
  function Throw(f: Store.Fault, message: string): (e: Thrown)
    ensures e.App? && e.message == message
  {
    match f
    case Validation(_) => ValidationError(message)
    case NotFound(_) => AppError(message, Some(404))
    case Conflict(_) => ConflictError(message)
  }

  /** A refusal reaches the client with its class's status and its own message,
      in production too, unless the message mentions a booking conflict. */
  lemma RefusalKeepsStatus(f: Store.Fault, message: string, production: bool)
    requires !Contains(message, BookingConflictMarker)
    ensures HandleError(Throw(f, message), production) == Response(StatusOf(f), false, message)
  {
  }

  /** The trigger text overrides the class: a "Booking conflict" message is a 409
      even when thrown as a NotFoundError or a ValidationError. */
  lemma ConflictTextOverridesClass(f: Store.Fault, message: string, production: bool)
    requires Contains(message, BookingConflictMarker)
    ensures HandleError(Throw(f, message), production).status == 409
  {
  }

  /** A Prisma error is classified by its code alone, whatever its message says. */
  lemma PrismaCodeDecides(code: string, m1: string, m2: string, production: bool)
    ensures HandleError(PrismaKnown(code, m1), production) == HandleError(PrismaKnown(code, m2), production)
  {
  }

  /** An unexpected error's text leaves the server only outside production. */
  lemma UnknownErrorsHiddenInProduction(message: string)
    requires !Contains(message, BookingConflictMarker)
    ensures HandleError(Plain(message), false).error == message
    ensures HandleError(Plain(message), true).error == "Внутренняя ошибка сервера"
  {
  }
}

=== FILE: google_login.dfy ===
/** config/passport.ts: the Google OAuth verify callback (find or create the
    user and merge the Google profile into it) and session serialization. */
module GoogleLogin {
  import opened Wrappers
  import opened Store

  /** The parts of a Google profile the callback reads, with the tokens the
      OAuth exchange returned. */
  datatype Profile = Profile(
    googleId: string,
    email: Option<string>,          // emails[0].value
    displayName: string,
    photo: Option<string>,          // photos[0].value
    accessToken: string,
    refreshToken: Option<string>)

  /** The user is one the sign-in lookup may find: same Google id, or same email when the profile has one. */
  predicate Matches(u: User, p: Profile) {
    u.googleId == Some(p.googleId) || (p.email.Some? && u.email == p.email.value)
  }

  /** An answer the database may give to that `findFirst`: some matching row, or
      none when no row matches. Which of several matching rows comes first is the
      database's choice. */
  predicate FirstMatch(users: map<Id, User>, p: Profile, found: Option<Id>) {
    match found
    case Some(id) => id in users && Matches(users[id], p)
    case None => forall k :: k in users ==> !Matches(users[k], p)
  }

  /** The update of an existing user: Google id and access token always
      overwrite; name, avatar and refresh token only fill in or replace with a
      non-empty value. */
  function Merge(u: User, p: Profile): (u': User)
    ensures u'.googleId == Some(p.googleId) && u'.googleAccessToken == Some(p.accessToken)
    ensures u'.name == (if u.name != "" then u.name else p.displayName)
    ensures u'.avatarUrl == (if Truthy(p.photo) then p.photo else u.avatarUrl)
    ensures u'.googleRefreshToken == (if Truthy(p.refreshToken) then p.refreshToken else u.googleRefreshToken)
    // identity, credentials and membership are untouched
    ensures u'.id == u.id && u'.email == u.email && u'.password == u.password
    ensures u'.role == u.role && u'.isActive == u.isActive && u'.organizationId == u.organizationId
  {
    u.(googleId := Some(p.googleId),
       name := if u.name != "" then u.name else p.displayName,
       avatarUrl := if Truthy(p.photo) then p.photo else u.avatarUrl,
       googleAccessToken := Some(p.accessToken),
       googleRefreshToken := if Truthy(p.refreshToken) then p.refreshToken else u.googleRefreshToken)
  }

  /** A repeated sign-in with the same profile changes nothing more. */
  lemma MergeIdempotent(u: User, p: Profile)
    ensures Merge(Merge(u, p), p) == Merge(u, p)
  {
  }

  /** The row created for a first sign-in: Google fields, no organization, no
      password, and the column defaults for role and active flag. */
  function Created(id: Id, p: Profile): (u: User)
    requires p.email.Some?
    ensures u.id == id && u.email == p.email.value && u.name == p.displayName
    ensures u.password.None? && u.organizationId.None? && u.role == Member && u.isActive
    ensures u.googleId == Some(p.googleId) && u.googleAccessToken == Some(p.accessToken)
    ensures u.googleRefreshToken == p.refreshToken && u.avatarUrl == p.photo
  {
    User(id, p.email.value, None, p.displayName, p.photo, Member, true, None,
         Some(p.googleId), Some(p.accessToken), p.refreshToken)
  }

  const NoEmail := "Email не получен от Google"

  /** The verify callback. `found` is the database's answer to the lookup and
      `newId` the id it assigns to a created row. */
  function SignIn(st: Store, p: Profile, found: Option<Id>, newId: Id): (r: Result<(Store, User), string>)
    requires p.email.Some? ==> FirstMatch(st.users, p, found)
    requires newId !in st.users
    ensures r.Err? <==> !Truthy(p.email)
    ensures r.Err? ==> r.error == NoEmail
    ensures r.Ok? && found.Some? ==>
      r.value == (st.(users := st.users[found.value := Merge(st.users[found.value], p)]), Merge(st.users[found.value], p))
    ensures r.Ok? && found.None? ==>
      r.value == (st.(users := st.users[newId := Created(newId, p)]), Created(newId, p))
  {
    if !Truthy(p.email) then Err(NoEmail)
    else match found
      case Some(id) =>
        var u := Merge(st.users[id], p);
        Ok((st.(users := st.users[id := u]), u))
      case None =>
        var u := Created(newId, p);
        Ok((st.(users := st.users[newId := u]), u))
  }

  /** Signing in with Google never breaks email uniqueness: a new row is only
      created when no row has the email, and a merge keeps the email. */
  lemma SignInKeepsEmailsUnique(st: Store, p: Profile, found: Option<Id>, newId: Id)
    requires p.email.Some? ==> FirstMatch(st.users, p, found)
    requires newId !in st.users
    requires EmailsUnique(st.users)
    requires SignIn(st, p, found, newId).Ok?
    ensures EmailsUnique(SignIn(st, p, found, newId).value.0.users)
  {
  }

  /** The signed-in user is the stored row, and its calendar is connected. */
  lemma SignInConnectsCalendar(st: Store, p: Profile, found: Option<Id>, newId: Id)
    requires p.email.Some? ==> FirstMatch(st.users, p, found)
    requires newId !in st.users
    requires WellFormed(st)
    requires p.accessToken != ""
    requires SignIn(st, p, found, newId).Ok?
    ensures var (st', u) := SignIn(st, p, found, newId).value;
      u.id in st'.users && st'.users[u.id] == u && Truthy(u.googleAccessToken)
  {
  }

  /** serializeUser keeps only the id; deserializeUser looks it up again. */
  function Serialize(u: User): Id {
    u.id
  }

  function Deserialize(st: Store, id: Id): (r: Option<User>)
    ensures r.Some? <==> id in st.users
    ensures r.Some? ==> r.value == st.users[id]
  {
    if id in st.users then Some(st.users[id]) else None
  }

  /** A stored user survives the session round trip. */
  lemma SessionRoundTrip(st: Store, u: User)
    requires u.id in st.users && st.users[u.id] == u
    ensures Deserialize(st, Serialize(u)) == Some(u)
  {
  }
}

=== FILE: listing.dfy ===
/** Filtering and ordering of query results: the `where` and `orderBy` of the
    source's `findMany` calls, applied to a table scan given as a sequence. */
module Listing {

  ghost predicate SortedBy<T>(s: seq<T>, key: T -> int) {
    forall i, j :: 0 <= i < j < |s| ==> key(s[i]) <= key(s[j])
  }

  /** The rows satisfying `p`, in scan order, duplicates kept. */
  function Filter<T(!new)>(s: seq<T>, p: T -> bool): (r: seq<T>)
    ensures |r| <= |s|
    ensures forall x :: x in r <==> x in s && p(x)
    ensures forall x :: multiset(r)[x] == if p(x) then multiset(s)[x] else 0
  {
    if s == [] then []
    else
      assert s == [s[0]] + s[1..];
      (if p(s[0]) then [s[0]] else []) + Filter(s[1..], p)
  }

  /** A filter that keeps every row is the identity. */
  lemma {:induction false} FilterKeepsAll<T(!new)>(s: seq<T>, p: T -> bool)
    requires forall i :: 0 <= i < |s| ==> p(s[i])
    ensures Filter(s, p) == s
  {
    if s != [] {
      FilterKeepsAll(s[1..], p);
      assert s == [s[0]] + s[1..];
    }
  }

  /** `f` applied to every row and the results concatenated, in scan order. */
  function FlatMap<X, Y>(xs: seq<X>, f: X -> seq<Y>): (r: seq<Y>)
    ensures forall y :: y in r ==> exists x :: x in xs && y in f(x)
  {
    if xs == [] then []
    else
      var rest := FlatMap(xs[1..], f);
      assert forall y :: y in rest ==> exists x :: x in xs && y in f(x) by {
        forall y | y in rest ensures exists x :: x in xs && y in f(x) {
          var x :| x in xs[1..] && y in f(x);
          assert x in xs;
        }
      }
      f(xs[0]) + rest
  }

  lemma {:induction false} FlatMapConcat<X, Y>(a: seq<X>, b: seq<X>, f: X -> seq<Y>)
    ensures FlatMap(a + b, f) == FlatMap(a, f) + FlatMap(b, f)
  {
    if a == [] {
      assert a + b == b;
    } else {
      assert (a + b)[0] == a[0];
      assert (a + b)[1..] == a[1..] + b;
      FlatMapConcat(a[1..], b, f);
      assert FlatMap(a + b, f) == f(a[0]) + (FlatMap(a[1..], f) + FlatMap(b, f));
    }
  }

  /** When each row yields at most one result, the output is no longer than the
      input, and as long exactly when every row yields one. */
  lemma {:induction false} FlatMapShort<X, Y>(xs: seq<X>, f: X -> seq<Y>)
    requires forall k :: 0 <= k < |xs| ==> |f(xs[k])| <= 1
    ensures |FlatMap(xs, f)| <= |xs|
    ensures |FlatMap(xs, f)| == |xs| <==> forall k :: 0 <= k < |xs| ==> |f(xs[k])| == 1
  {
    if xs != [] {
      assert forall k :: 1 <= k < |xs| ==> xs[k] == xs[1..][k - 1];
      FlatMapShort(xs[1..], f);
    }
  }

  lemma SortedCons<T>(h: T, t: seq<T>, key: T -> int)
    requires SortedBy(t, key)
    requires forall i :: 0 <= i < |t| ==> key(h) <= key(t[i])
    ensures SortedBy([h] + t, key)
  {
    var r := [h] + t;
    forall i, j | 0 <= i < j < |r| ensures key(r[i]) <= key(r[j]) {
      assert r[j] == t[j - 1];
      if i > 0 { assert r[i] == t[i - 1]; }
    }
  }

  /** Insertion of one row into an ordered result. */
  function Insert<T(!new)>(x: T, s: seq<T>, key: T -> int): (r: seq<T>)
    requires SortedBy(s, key)
    ensures SortedBy(r, key)
    ensures multiset(r) == multiset(s) + multiset{x}
    ensures |r| == |s| + 1
  {
    if s == [] then [x]
    else if key(x) <= key(s[0]) then
      SortedCons(x, s, key);
      [x] + s
    else
      var t := Insert(x, s[1..], key);
      assert s == [s[0]] + s[1..];
      assert forall i :: 0 <= i < |t| ==> key(s[0]) <= key(t[i]) by {
        forall i | 0 <= i < |t| ensures key(s[0]) <= key(t[i]) {
          assert t[i] in multiset(t);
          if t[i] != x { assert t[i] in multiset(s[1..]); }
        }
      }
      SortedCons(s[0], t, key);
      [s[0]] + t
  }

  /** `orderBy: { startTime: 'asc' }`: an ordered permutation of the rows. */
  function SortBy<T(!new)>(s: seq<T>, key: T -> int): (r: seq<T>)
    ensures SortedBy(r, key)
    ensures multiset(r) == multiset(s)
    ensures |r| == |s|
  {
    if s == [] then []
    else
      assert s == [s[0]] + s[1..];
      Insert(s[0], SortBy(s[1..], key), key)
  }

  /** A sequence that holds each value at most once has no repeated entry. */
  lemma NoRepeats<T>(s: seq<T>)
    requires forall x :: multiset(s)[x] <= 1
    ensures forall i, j :: 0 <= i < j < |s| ==> s[i] != s[j]
  {
    forall i, j | 0 <= i < j < |s| ensures s[i] != s[j] {
      if s[i] == s[j] {
        CountedTwice(s, i, j);
        assert false;
      }
    }
  }

  lemma CountedTwice<T>(s: seq<T>, i: int, j: int)
    requires 0 <= i < j < |s| && s[i] == s[j]
    ensures multiset(s)[s[i]] >= 2
  {
    assert s == s[..j] + s[j..];
    assert s[i] in s[..j] && s[j] in s[j..];
  }

  /** A permutation has the same members. */
  lemma SameMembers<T>(a: seq<T>, b: seq<T>)
    requires multiset(a) == multiset(b)
    ensures forall x :: x in a <==> x in b
  {
    assert forall x :: x in a <==> x in multiset(a);
    assert forall x :: x in b <==> x in multiset(b);
  }

  /** The first `n` rows of an ordered result are ordered and come from it. */
  /** A `findMany` with a `where` and an `orderBy`: the kept rows, ordered, each
      as often as the scan holds it. */
  function Select<T(!new)>(s: seq<T>, p: T -> bool, key: T -> int): (r: seq<T>)
    ensures SortedBy(r, key)
    ensures forall x :: x in r <==> x in s && p(x)
    ensures forall x :: multiset(r)[x] == if p(x) then multiset(s)[x] else 0
  {
    var f := Filter(s, p);
    var r := SortBy(f, key);
    SameMembers(r, f);
    r
  }

  lemma TakeSorted<T>(s: seq<T>, n: nat, key: T -> int)
    requires SortedBy(s, key)
    ensures SortedBy(Take(s, n), key)
    ensures forall x :: x in Take(s, n) ==> x in s
    // what is cut off starts no earlier than the last row kept
    ensures forall x :: x in s && x !in Take(s, n) ==>
      |Take(s, n)| == n && (n > 0 ==> key(Take(s, n)[n - 1]) <= key(x))
  {
    var r := Take(s, n);
    forall x | x in r ensures x in s {
      var i :| 0 <= i < |r| && r[i] == x;
      assert s[i] == x;
    }
    forall x | x in s && x !in r ensures |r| == n && (n > 0 ==> key(r[n - 1]) <= key(x)) {
      var j :| 0 <= j < |s| && s[j] == x;
    }
  }

  /** `take: n`. */
  function Take<T>(s: seq<T>, n: nat): (r: seq<T>)
    ensures |r| <= n && |r| <= |s|
    ensures |r| == if |s| <= n then |s| else n
    ensures r == s[..|r|]
    ensures |s| <= n ==> r == s
  {
    if |s| <= n then s else s[..n]
  }
}

=== FILE: organizations.dfy ===
/** The membership and invite protocol of organizations.controller.ts. */
module Organizations {
  import opened Wrappers
  import opened Strings
  import opened Store
  import Slug

  newtype byte = x: int | 0 <= x < 256

  /** generateInviteCode draws six random bytes. */
  const InviteBytes: nat := 6
  const DayMs: int := 24 * 60 * 60 * 1000
  const DefaultInviteDays: int := 7

  // ---------------------------------------------------------------- invite codes

  function HexDigit(d: int): (c: char)
    requires 0 <= d < 16
    ensures IsDigit(c) || 'a' <= c <= 'f'
  {
    if d < 10 then ('0' as int + d) as char else ('a' as int + d - 10) as char
  }

  /** `Buffer.toString('hex')`: two lower-case digits per byte, high nibble first. */
  function Hex(bs: seq<byte>): (r: string)
    ensures |r| == 2 * |bs|
    ensures forall i :: 0 <= i < |r| ==> IsDigit(r[i]) || 'a' <= r[i] <= 'f'
  {
    if bs == [] then []
    else [HexDigit(bs[0] as int / 16), HexDigit(bs[0] as int % 16)] + Hex(bs[1..])
  }

  predicate IsCodeChar(c: char) {
    IsDigit(c) || 'A' <= c <= 'F'
  }

  /** generateInviteCode on the drawn bytes: upper-case hex. */
  function InviteCode(bs: seq<byte>): (r: string)
    ensures |r| == 2 * |bs|
    ensures forall i :: 0 <= i < |r| ==> IsCodeChar(r[i])
  {
    Upper(Hex(bs))
  }

  function CodeValue(c: char): (d: int)
    requires IsCodeChar(c)
    ensures 0 <= d < 16
  {
    if IsDigit(c) then c as int - '0' as int else c as int - 'A' as int + 10
  }

  /** Reading a code back into the bytes it was drawn from. */
  function DecodeCode(s: string): (r: seq<byte>)
    requires |s| % 2 == 0
    requires forall i :: 0 <= i < |s| ==> IsCodeChar(s[i])
    ensures |r| == |s| / 2
  {
    if s == [] then []
    else [(CodeValue(s[0]) * 16 + CodeValue(s[1])) as byte] + DecodeCode(s[2..])
  }

  /** Different draws give different codes: the code determines the bytes. */
  lemma {:induction false} DecodeInviteCode(bs: seq<byte>)
    ensures DecodeCode(InviteCode(bs)) == bs
  {
    if bs != [] {
      var c := InviteCode(bs);
      var h := Hex(bs);
      assert h[2..] == Hex(bs[1..]);
      UpperDrop(h, 2);
      assert c[2..] == InviteCode(bs[1..]);
      DecodeInviteCode(bs[1..]);
      assert c[0] == UpperChar(HexDigit(bs[0] as int / 16));
      assert c[1] == UpperChar(HexDigit(bs[0] as int % 16));
      DecodeByte(bs[0]);
      assert [bs[0]] + bs[1..] == bs;
    }
  }

  lemma UpperDrop(s: string, n: nat)
    requires n <= |s|
    ensures Upper(s)[n..] == Upper(s[n..])
  {
    assert forall i :: 0 <= i < |s| - n ==> Upper(s)[n..][i] == UpperChar(s[n..][i]);
  }

  /** The two code characters of a byte read back as the byte. */
  lemma DecodeByte(b: byte)
    ensures (CodeValue(UpperChar(HexDigit(b as int / 16))) * 16
             + CodeValue(UpperChar(HexDigit(b as int % 16)))) as byte == b
  {
    DecodeDigit(b as int / 16);
    DecodeDigit(b as int % 16);
  }

  /** An upper-cased hex digit reads back as its value. */
  lemma DecodeDigit(d: int)
    requires 0 <= d < 16
    ensures IsCodeChar(UpperChar(HexDigit(d))) && CodeValue(UpperChar(HexDigit(d))) == d
  {
  }

  /** A code typed in lower case is still found by the upper-cased lookup. */
  lemma CodeCaseInsensitive(bs: seq<byte>)
    ensures Upper(Lower(InviteCode(bs))) == InviteCode(bs)
  {
  }

  // ---------------------------------------------------------------- roles

  function RoleName(role: Role): string {
    match role
    case Admin => "admin"
    case Member => "member"
  }

  /** The check `role !== 'member' && role !== 'admin'`. */
  function ParseRole(s: string): (r: Option<Role>)
    ensures r.Some? <==> s == "admin" || s == "member"
    ensures r.Some? ==> RoleName(r.value) == s
  {
    if s == "admin" then Some(Admin) else if s == "member" then Some(Member) else None
  }

  lemma ParseRoleName(role: Role)
    ensures ParseRole(RoleName(role)) == Some(role)
  {
  }

  // ---------------------------------------------------------------- createOrganization

  function SlugsInUse(orgs: map<Id, Organization>): set<string> {
    set o | o in orgs :: orgs[o].slug
  }

  /** The transaction of createOrganization: the organization is stored and its
      founder becomes its admin. */
  function Founded(st: Store, founderId: Id, org: Organization): Store
    requires founderId in st.users
  {
    st.(orgs := st.orgs[org.id := org],
        users := st.users[founderId := st.users[founderId].(organizationId := Some(org.id), role := Admin)])
  }

  /** Founding never takes an admin from an existing organization, and the new
      one starts with its founder as active admin. */
  lemma {:induction false} FoundingKeepsAdmin(st: Store, founderId: Id, org: Organization)
    requires Authenticated(st, founderId)
    requires !Truthy(st.users[founderId].organizationId)
    requires "" !in st.orgs  // organization ids are generated uuids
    requires EveryOrgHasAdmin(st)
    ensures EveryOrgHasAdmin(Founded(st, founderId, org))
  {
    var st' := Founded(st, founderId, org);
    forall o | o in st'.orgs ensures HasActiveAdmin(st'.users, o) {
      if o == org.id {
        assert IsActiveAdminOf(st'.users[founderId], o);
      } else {
        var a :| a in st.users && IsActiveAdminOf(st.users[a], o);
        assert a != founderId;
        assert IsActiveAdminOf(st'.users[a], o);
      }
    }
  }

  /** The slug of a new organization: the first free one among base, base-1,
      base-2, ... where the base comes from the untrimmed name. */
  ghost predicate FirstFreeSlug(slug: string, base: string, inUse: set<string>) {
    && slug !in inUse
    && (slug == base ||
        exists k: nat :: 0 < k && slug == Slug.Candidate(base, k)
          && forall j :: 0 <= j < k ==> Slug.Candidate(base, j) in inUse)
  }

  method CreateOrganization(st: Store, callerId: Id, name: Option<string>, description: Option<string>, newOrgId: Id)
    returns (r: Result<(Store, Organization), Fault>)
    requires Authenticated(st, callerId)
    requires newOrgId !in st.orgs
    ensures !Truthy(name) || |Trim(name.value)| < 2 ==> r == Err(Validation(NameTooShort))
    ensures r.Ok? <==> Truthy(name) && |Trim(name.value)| >= 2 && !Truthy(st.users[callerId].organizationId)
    ensures r.Err? && Truthy(name) && |Trim(name.value)| >= 2 ==> r.error == Conflict(AlreadyInOrganization)
    ensures r.Ok? ==>
      var (st', org) := r.value;
      && org.id == newOrgId
      && org.name == Trim(name.value)
      && org.description == (if description.Some? then Some(Trim(description.value)) else None)
      && FirstFreeSlug(org.slug, Slug.MakeSlug(name.value), SlugsInUse(st.orgs))
      && st' == Founded(st, callerId, org)
  {
    if !Truthy(name) || |Trim(name.value)| < 2 {
      return Err(Validation(NameTooShort));
    }
    if Truthy(st.users[callerId].organizationId) {
      return Err(Conflict(AlreadyInOrganization));
    }
    var base := Slug.MakeSlug(name.value);
    var slug, k := Slug.FreeSlug(base, SlugsInUse(st.orgs));
    assert FirstFreeSlug(slug, base, SlugsInUse(st.orgs)) by {
      if k > 0 {
        assert 0 < k && slug == Slug.Candidate(base, k);
      }
    }
    var org := Organization(newOrgId, Trim(name.value), slug,
                            if description.Some? then Some(Trim(description.value)) else None);
    r := Ok((Founded(st, callerId, org), org));
  }

  // ---------------------------------------------------------------- invites

  /** The body of `POST /organizations/invites`; None is an absent field. */
  datatype InviteRequest = InviteRequest(email: Option<string>, role: Option<string>, expiresInDays: Option<int>)

  /** No user with this email is already in `org`. */
  predicate EmailFree(users: map<Id, User>, email: string, org: Id) {
    forall k :: k in users && users[k].email == email ==> users[k].organizationId != Some(org)
  }

  predicate CodeInUse(invites: map<Id, Invite>, code: string) {
    exists k :: k in invites && invites[k].code == code
  }

  function CreateInvite(st: Store, callerId: Id, req: InviteRequest, now: int, newId: Id, bytes: seq<byte>)
    : (r: Result<(Store, Invite), Fault>)
    requires Authenticated(st, callerId)
    requires EmailsUnique(st.users)
    requires newId !in st.invites
    requires |bytes| == InviteBytes
    ensures !Truthy(st.users[callerId].organizationId) ==> r == Err(Validation(NoOrganization))
    ensures Truthy(st.users[callerId].organizationId) && ParseRole(req.role.GetOr("member")).None?
      ==> r == Err(Validation(InvalidRole))
    ensures Truthy(st.users[callerId].organizationId) && ParseRole(req.role.GetOr("member")) == Some(Admin)
      && st.users[callerId].role != Admin
      ==> r == Err(Validation(AdminInviteNeedsAdmin))
    ensures r.Ok? <==>
      && Truthy(st.users[callerId].organizationId)
      && ParseRole(req.role.GetOr("member")).Some?
      && (ParseRole(req.role.GetOr("member")) == Some(Admin) ==> st.users[callerId].role == Admin)
      && (Truthy(req.email) ==> EmailFree(st.users, req.email.value, st.users[callerId].organizationId.value))
      && !CodeInUse(st.invites, InviteCode(bytes))
    // an invited email that already belongs to the organization is refused first
    ensures Truthy(st.users[callerId].organizationId) && ParseRole(req.role.GetOr("member")).Some?
      && (ParseRole(req.role.GetOr("member")) == Some(Admin) ==> st.users[callerId].role == Admin)
      && Truthy(req.email) && !EmailFree(st.users, req.email.value, st.users[callerId].organizationId.value)
      ==> r == Err(Conflict(AlreadyMember))
    // a fresh code that collides with a stored one is the unique-constraint refusal
    ensures Truthy(st.users[callerId].organizationId) && ParseRole(req.role.GetOr("member")).Some?
      && (ParseRole(req.role.GetOr("member")) == Some(Admin) ==> st.users[callerId].role == Admin)
      && (Truthy(req.email) ==> EmailFree(st.users, req.email.value, st.users[callerId].organizationId.value))
      && CodeInUse(st.invites, InviteCode(bytes))
      ==> r == Err(Conflict(CodeTaken))
    ensures r.Ok? ==>
      var (st', inv) := r.value;
      && inv == Invite(newId, st.users[callerId].organizationId.value, InviteCode(bytes), callerId,
                       if Truthy(req.email) then req.email else None,
                       ParseRole(req.role.GetOr("member")).value,
                       now + req.expiresInDays.GetOr(DefaultInviteDays) * DayMs,
                       None, None)
      && |inv.code| == 12
      && st' == st.(invites := st.invites[newId := inv])
  {
    var caller := st.users[callerId];
    if !Truthy(caller.organizationId) then Err(Validation(NoOrganization))
    else
      var org := caller.organizationId.value;
      var role := ParseRole(req.role.GetOr("member"));
      if role.None? then Err(Validation(InvalidRole))
      else if role.value == Admin && caller.role != Admin then Err(Validation(AdminInviteNeedsAdmin))
      else if Truthy(req.email) && (var u := UserByEmail(st.users, req.email.value);
                                    u.Some? && st.users[u.value].organizationId == Some(org)) then
        Err(Conflict(AlreadyMember))
      else
        var code := InviteCode(bytes);
        // the code column is unique: a collision is the database's unique-constraint error
        if CodeInUse(st.invites, code) then Err(Conflict(CodeTaken))
        else
          var inv := Invite(newId, org, code, callerId, if Truthy(req.email) then req.email else None,
                            role.value, now + req.expiresInDays.GetOr(DefaultInviteDays) * DayMs, None, None);
          Ok((st.(invites := st.invites[newId := inv]), inv))
  }

  /** Behind requireAdmin the admin-invite refusal never fires. */
  lemma AdminRouteMayInviteAdmins(st: Store, callerId: Id, req: InviteRequest, now: int, newId: Id, bytes: seq<byte>)
    requires IsAdminCaller(st, callerId)
    requires EmailsUnique(st.users)
    requires newId !in st.invites
    requires |bytes| == InviteBytes
    ensures CreateInvite(st, callerId, req, now, newId, bytes) != Err(Validation(AdminInviteNeedsAdmin))
  {
  }

  function RevokeInvite(st: Store, callerId: Id, inviteId: Id): (r: Result<Store, Fault>)
    requires IsAdminCaller(st, callerId)
    ensures !Truthy(st.users[callerId].organizationId) ==> r == Err(Validation(NoOrganization))
    ensures Truthy(st.users[callerId].organizationId) &&
      (inviteId !in st.invites || st.invites[inviteId].organizationId != st.users[callerId].organizationId.value)
      ==> r == Err(NotFound(InviteNotFound))
    ensures r.Ok? <==>
      && Truthy(st.users[callerId].organizationId)
      && inviteId in st.invites
      && st.invites[inviteId].organizationId == st.users[callerId].organizationId.value
      && st.invites[inviteId].usedAt.None?
    ensures Truthy(st.users[callerId].organizationId) && inviteId in st.invites
      && st.invites[inviteId].organizationId == st.users[callerId].organizationId.value
      && st.invites[inviteId].usedAt.Some?
      ==> r == Err(Validation(InviteUsed))
    ensures r.Ok? ==> r.value == st.(invites := st.invites - {inviteId})
  {
    var org := st.users[callerId].organizationId;
    if !Truthy(org) then Err(Validation(NoOrganization))
    else if inviteId !in st.invites || st.invites[inviteId].organizationId != org.value then Err(NotFound(InviteNotFound))
    else if st.invites[inviteId].usedAt.Some? then Err(Validation(InviteUsed))
    else Ok(st.(invites := st.invites - {inviteId}))
  }

  /** Revoking is the inverse of creating: an admin who issues an invite and
      revokes it at once is back at the store they started from. */
  lemma RevokeUndoesCreate(st: Store, callerId: Id, req: InviteRequest, now: int, newId: Id, bytes: seq<byte>)
    requires IsAdminCaller(st, callerId)
    requires EmailsUnique(st.users)
    requires newId !in st.invites
    requires |bytes| == InviteBytes
    requires CreateInvite(st, callerId, req, now, newId, bytes).Ok?
    ensures RevokeInvite(CreateInvite(st, callerId, req, now, newId, bytes).value.0, callerId, newId) == Ok(st)
  {
    var (st', inv) := CreateInvite(st, callerId, req, now, newId, bytes).value;
    assert st'.invites - {newId} == st.invites;
  }

  /** A revoked code is gone: the public check no longer finds it. */
  lemma RevokedCodeIsUnknown(st: Store, callerId: Id, inviteId: Id, code: string, now: int)
    requires IsAdminCaller(st, callerId)
    requires CodesUnique(st.invites)
    requires RevokeInvite(st, callerId, inviteId).Ok?
    requires Upper(code) == st.invites[inviteId].code
    ensures CodesUnique(RevokeInvite(st, callerId, inviteId).value.invites)
    ensures CheckInviteCode(RevokeInvite(st, callerId, inviteId).value, code, now) == Err(NotFound(InviteNotFound))
  {
  }

  /** An invite that can still be redeemed at `now`. */
  predicate Redeemable(inv: Invite, now: int) {
    inv.usedAt.None? && !(inv.expiresAt < now)
  }

  /** The public preview `GET /organizations/invites/check/:code`. */
  function CheckInviteCode(st: Store, code: string, now: int): (r: Result<Invite, Fault>)
    requires CodesUnique(st.invites)
    ensures !CodeInUse(st.invites, Upper(code)) ==> r == Err(NotFound(InviteNotFound))
    ensures forall k :: k in st.invites && st.invites[k].code == Upper(code) ==>
      && (st.invites[k].usedAt.Some? ==> r == Err(Validation(InviteUsed)))
      && (st.invites[k].usedAt.None? && st.invites[k].expiresAt < now ==> r == Err(Validation(InviteExpired)))
      && (Redeemable(st.invites[k], now) ==> r == Ok(st.invites[k]))
  {
    var k := InviteByCode(st.invites, Upper(code));
    if k.None? then Err(NotFound(InviteNotFound))
    else
      var inv := st.invites[k.value];
      if inv.usedAt.Some? then Err(Validation(InviteUsed))
      else if inv.expiresAt < now then Err(Validation(InviteExpired))
      else Ok(inv)
  }

  /** The email restriction of an invite, compared case-insensitively. */
  predicate EmailAllowed(inv: Invite, email: string) {
    !Truthy(inv.email) || Lower(inv.email.value) == Lower(email)
  }

  function JoinOrganization(st: Store, callerId: Id, code: Option<string>, now: int)
    : (r: Result<(Store, User), Fault>)
    requires Authenticated(st, callerId)
    requires CodesUnique(st.invites)
    ensures !Truthy(code) ==> r == Err(Validation(CodeRequired))
    ensures Truthy(code) && Truthy(st.users[callerId].organizationId) ==> r == Err(Conflict(AlreadyInOrganization))
    ensures Truthy(code) && !Truthy(st.users[callerId].organizationId) && !CodeInUse(st.invites, Upper(code.value))
      ==> r == Err(NotFound(InviteNotFound))
    ensures forall k :: (Truthy(code) && !Truthy(st.users[callerId].organizationId)
                         && k in st.invites && st.invites[k].code == Upper(code.value)) ==>
      var inv := st.invites[k];
      && (inv.usedAt.Some? ==> r == Err(Validation(InviteUsed)))
      && (inv.usedAt.None? && inv.expiresAt < now ==> r == Err(Validation(InviteExpired)))
      && (Redeemable(inv, now) && !EmailAllowed(inv, st.users[callerId].email) ==> r == Err(Validation(EmailMismatch)))
      && (Redeemable(inv, now) && EmailAllowed(inv, st.users[callerId].email) ==>
            var u := st.users[callerId].(organizationId := Some(inv.organizationId), role := inv.role);
            r == Ok((st.(invites := st.invites[k := inv.(usedById := Some(callerId), usedAt := Some(now))],
                         users := st.users[callerId := u]), u)))
  {
    if !Truthy(code) then Err(Validation(CodeRequired))
    else if Truthy(st.users[callerId].organizationId) then Err(Conflict(AlreadyInOrganization))
    else
      var k := InviteByCode(st.invites, Upper(code.value));
      if k.None? then Err(NotFound(InviteNotFound))
      else
        var inv := st.invites[k.value];
        if inv.usedAt.Some? then Err(Validation(InviteUsed))
        else if inv.expiresAt < now then Err(Validation(InviteExpired))
        else if !EmailAllowed(inv, st.users[callerId].email) then Err(Validation(EmailMismatch))
        else
          var u := st.users[callerId].(organizationId := Some(inv.organizationId), role := inv.role);
          Ok((st.(invites := st.invites[k.value := inv.(usedById := Some(callerId), usedAt := Some(now))],
                  users := st.users[callerId := u]), u))
  }

  /** An invite is single-use: once redeemed, nobody else can redeem the same
      code, whatever the time. */
  lemma {:induction false} JoinIsSingleUse(st: Store, callerId: Id, code: Option<string>, now: int,
                                           other: Id, later: int)
    requires Authenticated(st, callerId)
    requires CodesUnique(st.invites)
    requires JoinOrganization(st, callerId, code, now).Ok?
    requires Authenticated(JoinOrganization(st, callerId, code, now).value.0, other)
    requires JoinOrganization(st, callerId, code, now).value.0.users[other].organizationId.None?
    ensures CodesUnique(JoinOrganization(st, callerId, code, now).value.0.invites)
    ensures JoinOrganization(JoinOrganization(st, callerId, code, now).value.0, other, code, later)
              == Err(Validation(InviteUsed))
  {
    var st' := JoinOrganization(st, callerId, code, now).value.0;
    var k :| k in st.invites && st.invites[k].code == Upper(code.value);
    assert st'.invites[k].usedAt.Some?;
    assert CodesUnique(st'.invites) by {
      forall a, b | a in st'.invites && b in st'.invites && st'.invites[a].code == st'.invites[b].code
        ensures a == b
      {
        assert st.invites[a].code == st'.invites[a].code;
        assert st.invites[b].code == st'.invites[b].code;
      }
    }
  }

  // ---------------------------------------------------------------- leave, remove, role change

  /** The active admins of organization `org`: the users the last-admin checks count. */
  function ActiveAdmins(users: map<Id, User>, org: Id): set<Id> {
    set k | k in users && IsActiveAdminOf(users[k], org)
  }

  /** A confirmed booking that has not started: what leave and removeMember cancel. */
  predicate Upcoming(b: Booking, now: int) {
    b.status == Confirmed && b.start > now
  }

  /** The cascade of leaveOrganization and removeMember: the member's upcoming
      bookings are cancelled and the member is detached as a plain member. */
  function Depart(st: Store, memberId: Id, now: int): (st': Store)
    requires memberId in st.users
    ensures st'.users == st.users[memberId := st.users[memberId].(organizationId := None, role := Member)]
    ensures st'.orgs == st.orgs && st'.rooms == st.rooms && st'.invites == st.invites
    ensures st'.bookings.Keys == st.bookings.Keys
    ensures forall k :: k in st.bookings ==>
      (st'.bookings[k].status == Cancelled <==>
         st.bookings[k].status == Cancelled || (st.bookings[k].userId == memberId && Upcoming(st.bookings[k], now)))
    ensures forall k :: k in st.bookings ==> st'.bookings[k] == st.bookings[k].(status := st'.bookings[k].status)
    ensures OnlyWithdraws(st.bookings, st'.bookings)
  {
    var bookings := map k | k in st.bookings ::
      if st.bookings[k].userId == memberId && Upcoming(st.bookings[k], now)
      then st.bookings[k].(status := Cancelled) else st.bookings[k];
    st.(bookings := bookings,
        users := st.users[memberId := st.users[memberId].(organizationId := None, role := Member)])
  }

  function LeaveOrganization(st: Store, callerId: Id, now: int): (r: Result<Store, Fault>)
    requires Authenticated(st, callerId)
    ensures !Truthy(st.users[callerId].organizationId) ==> r == Err(Validation(NoOrganization))
    ensures r.Ok? <==>
      && Truthy(st.users[callerId].organizationId)
      && (st.users[callerId].role == Admin ==> |ActiveAdmins(st.users, st.users[callerId].organizationId.value)| >= 2)
    ensures r.Err? && Truthy(st.users[callerId].organizationId) ==> r.error == Validation(SoleAdmin)
    ensures r.Ok? ==> r.value == Depart(st, callerId, now)
  {
    var caller := st.users[callerId];
    if !Truthy(caller.organizationId) then Err(Validation(NoOrganization))
    else if caller.role == Admin && |ActiveAdmins(st.users, caller.organizationId.value)| <= 1 then
      Err(Validation(SoleAdmin))
    else Ok(Depart(st, callerId, now))
  }

  /** A set of at least two ids holds one besides `x`. */
  lemma OtherMember(s: set<Id>, x: Id) returns (y: Id)
    requires |s| >= 2
    ensures y in s && y != x
  {
    var a :| a in s;
    if a != x {
      y := a;
    } else {
      assert |s - {x}| >= 1;
      y :| y in s - {x};
    }
  }

  /** Leaving never takes an organization's last active admin. */
  lemma {:induction false} LeaveKeepsAdmin(st: Store, callerId: Id, now: int)
    requires Authenticated(st, callerId)
    requires EveryOrgHasAdmin(st)
    requires LeaveOrganization(st, callerId, now).Ok?
    ensures EveryOrgHasAdmin(LeaveOrganization(st, callerId, now).value)
  {
    var st' := LeaveOrganization(st, callerId, now).value;
    var caller := st.users[callerId];
    forall o | o in st'.orgs ensures HasActiveAdmin(st'.users, o) {
      var a :| a in st.users && IsActiveAdminOf(st.users[a], o);
      if a == callerId {
        var b := OtherMember(ActiveAdmins(st.users, o), callerId);
        assert IsActiveAdminOf(st'.users[b], o);
      } else {
        assert IsActiveAdminOf(st'.users[a], o);
      }
    }
  }

  function RemoveMember(st: Store, callerId: Id, memberId: Id, now: int): (r: Result<Store, Fault>)
    requires IsAdminCaller(st, callerId)
    ensures !Truthy(st.users[callerId].organizationId) ==> r == Err(Validation(NoOrganization))
    ensures Truthy(st.users[callerId].organizationId) && memberId == callerId ==> r == Err(Validation(UseLeave))
    ensures r.Ok? <==>
      && Truthy(st.users[callerId].organizationId)
      && memberId != callerId
      && memberId in st.users && st.users[memberId].organizationId == st.users[callerId].organizationId
    ensures r.Err? && Truthy(st.users[callerId].organizationId) && memberId != callerId
      ==> r.error == NotFound(MemberNotFound)
    ensures r.Ok? ==> r.value == Depart(st, memberId, now)
  {
    var org := st.users[callerId].organizationId;
    if !Truthy(org) then Err(Validation(NoOrganization))
    else if memberId == callerId then Err(Validation(UseLeave))
    else if memberId !in st.users || st.users[memberId].organizationId != org then Err(NotFound(MemberNotFound))
    else Ok(Depart(st, memberId, now))
  }

  /** The acting admin cannot remove themself, so the organization keeps them. */
  lemma {:induction false} RemoveKeepsAdmin(st: Store, callerId: Id, memberId: Id, now: int)
    requires IsAdminCaller(st, callerId)
    requires EveryOrgHasAdmin(st)
    requires RemoveMember(st, callerId, memberId, now).Ok?
    ensures EveryOrgHasAdmin(RemoveMember(st, callerId, memberId, now).value)
  {
    var st' := RemoveMember(st, callerId, memberId, now).value;
    var org := st.users[callerId].organizationId.value;
    forall o | o in st'.orgs ensures HasActiveAdmin(st'.users, o) {
      if o == org {
        assert IsActiveAdminOf(st'.users[callerId], o);
      } else {
        var a :| a in st.users && IsActiveAdminOf(st.users[a], o);
        assert a != memberId;
        assert IsActiveAdminOf(st'.users[a], o);
      }
    }
  }

  function ChangeMemberRole(st: Store, callerId: Id, memberId: Id, role: string): (r: Result<Store, Fault>)
    requires IsAdminCaller(st, callerId)
    ensures !Truthy(st.users[callerId].organizationId) ==> r == Err(Validation(NoOrganization))
    ensures Truthy(st.users[callerId].organizationId) && ParseRole(role).None? ==> r == Err(Validation(InvalidRole))
    ensures Truthy(st.users[callerId].organizationId) && ParseRole(role).Some? && memberId == callerId
      ==> r == Err(Validation(OwnRoleChange))
    ensures r.Ok? <==>
      && Truthy(st.users[callerId].organizationId)
      && ParseRole(role).Some?
      && memberId != callerId
      && memberId in st.users && st.users[memberId].organizationId == st.users[callerId].organizationId
    ensures r.Err? && Truthy(st.users[callerId].organizationId) && ParseRole(role).Some? && memberId != callerId
      ==> r.error == NotFound(MemberNotFound)
    ensures r.Ok? ==> r.value == st.(users := st.users[memberId := st.users[memberId].(role := ParseRole(role).value)])
  {
    var org := st.users[callerId].organizationId;
    if !Truthy(org) then Err(Validation(NoOrganization))
    else if ParseRole(role).None? then Err(Validation(InvalidRole))
    else if memberId == callerId then Err(Validation(OwnRoleChange))
    else if memberId !in st.users || st.users[memberId].organizationId != org then Err(NotFound(MemberNotFound))
    else Ok(st.(users := st.users[memberId := st.users[memberId].(role := ParseRole(role).value)]))
  }

  /** A role change never demotes the acting admin, so no organization loses its last admin. */
  lemma {:induction false} ChangeRoleKeepsAdmin(st: Store, callerId: Id, memberId: Id, role: string)
    requires IsAdminCaller(st, callerId)
    requires EveryOrgHasAdmin(st)
    requires ChangeMemberRole(st, callerId, memberId, role).Ok?
    ensures EveryOrgHasAdmin(ChangeMemberRole(st, callerId, memberId, role).value)
  {
    var st' := ChangeMemberRole(st, callerId, memberId, role).value;
    var org := st.users[callerId].organizationId.value;
    forall o | o in st'.orgs ensures HasActiveAdmin(st'.users, o) {
      if o == org {
        assert IsActiveAdminOf(st'.users[callerId], o);
      } else {
        var a :| a in st.users && IsActiveAdminOf(st.users[a], o);
        assert a != memberId;
        assert IsActiveAdminOf(st'.users[a], o);
      }
    }
  }

  /** Joining only adds a member, so no organization loses an admin. */
  lemma {:induction false} JoinKeepsAdmin(st: Store, callerId: Id, code: Option<string>, now: int)
    requires Authenticated(st, callerId)
    requires CodesUnique(st.invites)
    requires "" !in st.orgs  // organization ids are generated uuids
    requires EveryOrgHasAdmin(st)
    requires JoinOrganization(st, callerId, code, now).Ok?
    ensures EveryOrgHasAdmin(JoinOrganization(st, callerId, code, now).value.0)
  {
    var st' := JoinOrganization(st, callerId, code, now).value.0;
    forall o | o in st'.orgs ensures HasActiveAdmin(st'.users, o) {
      var a :| a in st.users && IsActiveAdminOf(st.users[a], o);
      assert a != callerId;
      assert IsActiveAdminOf(st'.users[a], o);
    }
  }
}

=== FILE: overlap.dfy ===
/** The interval tests the server runs against the booking table. Instants are
    integer milliseconds. */
module Overlap {

  /** The conflict query of createBooking/updateBooking for an existing booking
      [s0, e0) and a candidate [s, e): its start lies in [s, e), or its end lies
      in (s, e], or it covers the candidate. */
  predicate ThreeClause(s0: int, e0: int, s: int, e: int) {
    || (s <= s0 && s0 < e)
    || (s < e0 && e0 <= e)
    || (s0 <= s && e0 >= e)
  }

  /** Half-open intervals [s0, e0) and [s, e) share an instant. */
  predicate Intersects(s0: int, e0: int, s: int, e: int) {
    s0 < e && s < e0
  }

  /** For proper intervals the three-clause query is exactly half-open intersection. */
  lemma ThreeClauseIsIntersection(s0: int, e0: int, s: int, e: int)
    requires s0 < e0 && s < e
    ensures ThreeClause(s0, e0, s, e) <==> Intersects(s0, e0, s, e)
  {
  }

  /** Every intersection is caught whenever the candidate is proper, even if the
      existing row is not: the query never lets an overlap through. */
  lemma IntersectionIsCaught(s0: int, e0: int, s: int, e: int)
    requires s < e
    ensures Intersects(s0, e0, s, e) ==> ThreeClause(s0, e0, s, e)
  {
  }

  /** Back-to-back bookings never conflict, in either order. */
  lemma BackToBack(s0: int, m: int, e: int)
    requires s0 < m < e
    ensures !ThreeClause(s0, m, m, e) && !ThreeClause(m, e, s0, m)
  {
  }

  /** The closed-window query of getOrganizationBookings and getRoomAvailability:
      start in [lo, hi], or end in [lo, hi], or the row covers the window. */
  predicate MeetsWindow(s0: int, e0: int, lo: int, hi: int) {
    || (lo <= s0 && s0 <= hi)
    || (lo <= e0 && e0 <= hi)
    || (s0 <= lo && e0 >= hi)
  }

  /** For a proper row and window it is closed-interval intersection. */
  lemma MeetsWindowIsClosedIntersection(s0: int, e0: int, lo: int, hi: int)
    requires s0 <= e0 && lo <= hi
    ensures MeetsWindow(s0, e0, lo, hi) <==> (s0 <= hi && e0 >= lo)
  {
  }
}

=== FILE: room_query.dfy ===
/** services/rooms.ts (client): the query string getRooms builds from the room
    filters, what the server's getRooms makes of it, and how a reply becomes a
    value or a raised error. */
module RoomRequest {
  import opened Wrappers
  import opened Strings
  import Store
  import Rooms
  import Errors

  /** RoomFilters: every field optional. Capacities and floor are integers. */
  datatype Filters = Filters(
    minCapacity: Option<int>,
    maxCapacity: Option<int>,
    floor: Option<int>,
    amenities: Option<seq<string>>,
    isActive: Option<bool>)

  /** One `URLSearchParams` entry. */
  datatype Param = Param(name: string, value: string)

  /** A number is truthy unless it is zero. */
  predicate NumTruthy(n: Option<int>) {
    n.Some? && n.value != 0
  }

  predicate ListTruthy(xs: Option<seq<string>>) {
    xs.Some? && |xs.value| > 0
  }

  /** The parameters getRooms appends: minCapacity when truthy, the amenities
      comma-joined when the list is non-empty, nothing else. */
  function Params(filters: Option<Filters>): (ps: seq<Param>)
    ensures |ps| <= 2
    ensures forall i :: 0 <= i < |ps| ==> ps[i].name in {"minCapacity", "amenities"}
    ensures Param("minCapacity", "") !in ps
  {
    match filters
    case None => []
    case Some(f) =>
      (if NumTruthy(f.minCapacity) then [Param("minCapacity", IntToString(f.minCapacity.value))] else [])
      + (if ListTruthy(f.amenities) then [Param("amenities", Join(f.amenities.value, ','))] else [])
  }

  /** The first value under a name, as Express reads a single-valued key. */
  function Lookup(ps: seq<Param>, name: string): (r: Option<string>)
    ensures r.Some? <==> exists i :: 0 <= i < |ps| && ps[i].name == name
    ensures r.Some? ==> Param(name, r.value) in ps
  {
    if ps == [] then None
    else if ps[0].name == name then Some(ps[0].value)
    else Lookup(ps[1..], name)
  }

  /** The value of a decimal digit string. */
  function NatValue(s: string): nat {
    if s == [] then 0
    else
      var d := s[|s| - 1] as int - '0' as int;
      NatValue(s[..|s| - 1]) * 10 + (if 0 <= d < 10 then d else 0)
  }

  /** `Number(raw)` on an optionally signed decimal string. */
  function DecimalValue(s: string): int {
    if s != [] && s[0] == '-' then -(NatValue(s[1..]) as int) else NatValue(s)
  }

  /** Reading a number back from its decimal rendering gives the number. */
  lemma {:induction false} NatValueOfString(n: nat)
    ensures NatValue(NatToString(n)) == n
  {
    var s := NatToString(n);
    if n >= 10 {
      NatValueOfString(n / 10);
      assert s[..|s| - 1] == NatToString(n / 10);
    }
  }

  lemma DecimalValueOfString(n: int)
    ensures DecimalValue(IntToString(n)) == n
  {
    if n < 0 {
      NatValueOfString(-n);
      assert IntToString(n)[1..] == NatToString(-n);
    } else {
      NatValueOfString(n);
      assert IsDigit(NatToString(n)[0]);
    }
  }

  function NumOf(raw: Option<string>): (r: Option<Rooms.NumParam>)
    ensures r.Some? <==> raw.Some?
    ensures r.Some? ==> r.value.raw == raw.value
  {
    match raw
    case None => None
    case Some(s) => Some(Rooms.NumParam(s, DecimalValue(s)))
  }

  /** `req.query` of the server's getRooms for the given parameters. */
  function Received(ps: seq<Param>): (q: Rooms.RoomQuery)
    ensures q.amenities == Lookup(ps, "amenities")
    ensures q.minCapacity.Some? <==> Lookup(ps, "minCapacity").Some?
  {
    Rooms.RoomQuery(
      NumOf(Lookup(ps, "minCapacity")),
      NumOf(Lookup(ps, "maxCapacity")),
      NumOf(Lookup(ps, "floor")),
      Lookup(ps, "amenities"),
      Lookup(ps, "isActive"))
  }

  /** No code of the list contains the separator. */
  predicate CommaFree(codes: seq<string>) {
    forall k :: 0 <= k < |codes| ==> ',' !in codes[k]
  }

  /** What the server receives: only minCapacity and amenities ever arrive;
      a truthy minCapacity arrives as its own value, and a non-empty comma-free
      list splits back into itself. */
  lemma ServerReceivesFilters(f: Filters)
    ensures var q := Received(Params(Some(f)));
      && q.maxCapacity.None? && q.floor.None? && q.isActive.None?
      && (Rooms.Given(q.minCapacity) <==> NumTruthy(f.minCapacity))
      && (NumTruthy(f.minCapacity) ==> q.minCapacity.value.value == f.minCapacity.value)
      && (q.amenities.Some? <==> ListTruthy(f.amenities))
      && (ListTruthy(f.amenities) && CommaFree(f.amenities.value) ==>
            Split(q.amenities.value, ',') == f.amenities.value)
  {
    var ps := Params(Some(f));
    if NumTruthy(f.minCapacity) {
      DecimalValueOfString(f.minCapacity.value);
      assert ps[0] == Param("minCapacity", IntToString(f.minCapacity.value));
    }
    if ListTruthy(f.amenities) {
      assert ps[|ps| - 1] == Param("amenities", Join(f.amenities.value, ','));
      if CommaFree(f.amenities.value) {
        SplitJoin(f.amenities.value, ',');
      }
    }
  }

  /** The rooms the server returns for the client's filters: the caller's
      organization's rooms with at least the minimum capacity and every listed
      amenity. maxCapacity, floor and isActive never take part, so a filter on
      active rooms is dropped. */
  lemma ClientFilterMeaning(f: Filters, room: Store.Room, org: Store.Id)
    requires f.amenities.Some? ==> CommaFree(f.amenities.value)
    ensures Rooms.Matches(room, org, Received(Params(Some(f)))) <==>
      && room.organizationId == org
      && (NumTruthy(f.minCapacity) ==> room.capacity >= f.minCapacity.value)
      && (ListTruthy(f.amenities) && Join(f.amenities.value, ',') != "" ==>
            Rooms.HasEvery(room.amenities, f.amenities.value))
  {
    ServerReceivesFilters(f);
    var q := Received(Params(Some(f)));
    assert ListTruthy(f.amenities) ==> q.amenities == Some(Join(f.amenities.value, ','));
  }

  /** The reply body `{ success, data }` or `{ success: false, error }`, with
      its status. */
  datatype Reply<T> = Reply(status: int, success: bool, data: T, error: string)

  /** What the call ends in: the data, an Error with the server's message, or
      the HTTP client's own rejection for a 5xx status (validateStatus). */
  datatype Outcome<T> = Data(value: T) | Raised(message: string) | Rejected(status: int)

  function Receive<T>(reply: Reply<T>): (r: Outcome<T>)
    ensures r.Data? <==> reply.status < 500 && reply.success
    ensures r.Raised? ==> r.message == reply.error && !reply.success
    ensures r.Rejected? <==> reply.status >= 500
  {
    if reply.status >= 500 then Rejected(reply.status)
    else if !reply.success then Raised(reply.error)
    else Data(reply.data)
  }

  /** The body the error handler sends, as a reply. */
  function FromHandler<T>(resp: Errors.Response, placeholder: T): Reply<T> {
    Reply(resp.status, resp.success, placeholder, resp.error)
  }

  /** A controller refusal reaches the caller of getRooms as an Error carrying
      the refusal's own message; a 500 from the handler is rejected before the
      body is read. */
  lemma RefusalRaisesItsMessage<T>(fault: Store.Fault, message: string, production: bool, placeholder: T)
    requires !Contains(message, Errors.BookingConflictMarker)
    ensures Receive(FromHandler(Errors.HandleError(Errors.Throw(fault, message), production), placeholder)) == Raised(message)
    ensures Receive(FromHandler(Errors.HandleError(Errors.Plain(message), production), placeholder)).Rejected?
  {
    Errors.RefusalKeepsStatus(fault, message, production);
  }
}

=== FILE: rooms.dfy ===
/** rooms.controller.ts: the room list filter, the room card with its next
    bookings, room creation and patching with their capacity checks, the delete
    guard, and the day availability query. Every route runs behind
    `authenticate` and `requireOrganization`; the writes also behind
    `requireAdmin`. */
module Rooms {
  import opened Wrappers
  import opened Store
  import opened Strings
  import Overlap
  import Listing

  /** A numeric query parameter: the raw string decides whether the filter is
      applied (a non-empty string is truthy, "0" included), `value` is
      `Number(raw)`. */
  datatype NumParam = NumParam(raw: string, value: int)

  predicate Given(p: Option<NumParam>) {
    p.Some? && p.value.raw != ""
  }

  datatype RoomQuery = RoomQuery(
    minCapacity: Option<NumParam>,
    maxCapacity: Option<NumParam>,
    floor: Option<NumParam>,
    amenities: Option<string>,
    isActive: Option<string>)

  /** The capacity bound of the query. Both bounds sit under the same `capacity`
      key of one object literal, so a later spread replaces an earlier one:
      with maxCapacity given, minCapacity is dropped. */
  datatype Bound = NoBound | AtLeast(min: int) | AtMost(max: int)

  function CapacityBound(q: RoomQuery): (b: Bound)
    ensures Given(q.maxCapacity) ==> b == AtMost(q.maxCapacity.value.value)
    ensures !Given(q.maxCapacity) && Given(q.minCapacity) ==> b == AtLeast(q.minCapacity.value.value)
    ensures !Given(q.maxCapacity) && !Given(q.minCapacity) ==> b == NoBound
  {
    var b := if Given(q.minCapacity) then AtLeast(q.minCapacity.value.value) else NoBound;
    if Given(q.maxCapacity) then AtMost(q.maxCapacity.value.value) else b
  }

  predicate WithinBound(capacity: int, b: Bound) {
    match b
    case NoBound => true
    case AtLeast(min) => capacity >= min
    case AtMost(max) => capacity <= max
  }

  /** `hasEvery`: the room lists every requested code. */
  predicate HasEvery(amenities: seq<string>, wanted: seq<string>) {
    forall i :: 0 <= i < |wanted| ==> wanted[i] in amenities
  }

  /** The `where` of getRooms for a room of organization `org`. */
  predicate Matches(room: Room, org: Id, q: RoomQuery) {
    && room.organizationId == org
    && WithinBound(room.capacity, CapacityBound(q))
    && (Given(q.floor) ==> room.floor == Some(q.floor.value.value))
    && (q.amenities.Some? && q.amenities.value != "" ==> HasEvery(room.amenities, Split(q.amenities.value, ',')))
    && (q.isActive.Some? ==> room.isActive == (q.isActive.value == "true"))
  }

  /** getRooms over the room table `rows`. */
  function GetRooms(st: Store, callerId: Id, rows: seq<Room>, q: RoomQuery): (r: seq<Room>)
    requires InOrganization(st, callerId)
    requires RowsOf(rows, st.rooms)
    ensures forall room :: room in r <==>
      && room in rows
      && room.organizationId == st.users[callerId].organizationId.value
      && (Given(q.maxCapacity) ==> room.capacity <= q.maxCapacity.value.value)
      && (!Given(q.maxCapacity) && Given(q.minCapacity) ==> room.capacity >= q.minCapacity.value.value)
      && (Given(q.floor) ==> room.floor == Some(q.floor.value.value))
      && (q.amenities.Some? && q.amenities.value != "" ==>
            forall code :: code in Split(q.amenities.value, ',') ==> code in room.amenities)
      && (q.isActive.Some? ==> (room.isActive <==> q.isActive.value == "true"))
    ensures forall room: Room ::
      multiset(r)[room] == (if Matches(room, st.users[callerId].organizationId.value, q) then multiset(rows)[room] else 0)
    // no room is listed twice
    ensures forall i, j :: 0 <= i < j < |r| ==> r[i] != r[j]
  {
    var org := st.users[callerId].organizationId.value;
    var r := Listing.Filter(rows, (room: Room) => Matches(room, org, q));
    Listing.NoRepeats(r);
    r
  }

  /** When both capacity bounds are sent, the result does not depend on the
      lower one. */
  lemma MaxCapacityOverridesMin(st: Store, callerId: Id, rows: seq<Room>, q: RoomQuery, min: Option<NumParam>)
    requires InOrganization(st, callerId)
    requires RowsOf(rows, st.rooms)
    requires Given(q.maxCapacity)
    ensures GetRooms(st, callerId, rows, q) == GetRooms(st, callerId, rows, q.(minCapacity := min))
  {
    var org := st.users[callerId].organizationId.value;
    var q' := q.(minCapacity := min);
    assert forall room :: Matches(room, org, q) == Matches(room, org, q');
    FilterSame(rows, (room: Room) => Matches(room, org, q), (room: Room) => Matches(room, org, q'));
  }

  lemma {:induction false} FilterSame<T(!new)>(s: seq<T>, p: T -> bool, p': T -> bool)
    requires forall x :: p(x) == p'(x)
    ensures Listing.Filter(s, p) == Listing.Filter(s, p')
  {
    if s != [] {
      FilterSame(s[1..], p, p');
    }
  }

  /** Room `id` exists and belongs to organization `org`: the room lookup scoped to the caller's organization. */
  predicate RoomOf(st: Store, id: Id, org: Id) {
    id in st.rooms && st.rooms[id].organizationId == org
  }

  function CallerOrg(st: Store, callerId: Id): Id
    requires InOrganization(st, callerId)
  {
    st.users[callerId].organizationId.value
  }

  function StartOf(b: Booking): int { b.start }

  /** A booking that still holds the room: confirmed and not yet over. */
  predicate Upcoming(b: Booking, roomId: Id, now: int) {
    b.roomId == roomId && b.status == Confirmed && b.end >= now
  }

  /** The room's upcoming bookings in scan order: the `where` of the included
      relation. */
  function UpcomingOf(rows: seq<Booking>, id: Id, now: int): (r: seq<Booking>)
    ensures forall b :: b in r <==> b in rows && Upcoming(b, id, now)
  {
    Listing.Filter(rows, (b: Booking) => Upcoming(b, id, now))
  }

  /** getRoomById: the room with its first ten upcoming confirmed bookings. */
  function GetRoomById(st: Store, callerId: Id, rows: seq<Booking>, id: Id, now: int)
    : (r: Result<(Room, seq<Booking>), Fault>)
    requires InOrganization(st, callerId)
    requires RowsOf(rows, st.bookings)
    ensures r.Err? <==> !RoomOf(st, id, CallerOrg(st, callerId))
    ensures r.Err? ==> r.error == NotFound(RoomNotFound)
    ensures r.Ok? ==>
      var (room, next) := r.value;
      && room == st.rooms[id]
      && |next| <= 10
      && Listing.SortedBy(next, StartOf)
      && (forall b :: b in next ==> b in rows && Upcoming(b, id, now))
      // nothing is dropped unless ten are shown
      && (|next| < 10 ==> forall b :: b in rows && Upcoming(b, id, now) ==> b in next)
      // ten, or all there are; and they are the earliest ten
      && |next| == (if |UpcomingOf(rows, id, now)| < 10 then |UpcomingOf(rows, id, now)| else 10)
      && (forall b :: b in rows && Upcoming(b, id, now) && b !in next ==>
            |next| == 10 && StartOf(next[9]) <= StartOf(b))
  {
    if !RoomOf(st, id, CallerOrg(st, callerId)) then Err(NotFound(RoomNotFound))
    else Ok((st.rooms[id], NextBookings(rows, id, now)))
  }

  /** The room's upcoming bookings by start time, at most ten. */
  function NextBookings(rows: seq<Booking>, id: Id, now: int): (next: seq<Booking>)
    ensures |next| <= 10
    ensures Listing.SortedBy(next, StartOf)
    ensures forall b :: b in next ==> b in rows && Upcoming(b, id, now)
    ensures |next| < 10 ==> forall b :: b in rows && Upcoming(b, id, now) ==> b in next
    ensures |next| == (if |UpcomingOf(rows, id, now)| < 10 then |UpcomingOf(rows, id, now)| else 10)
    ensures forall b :: b in rows && Upcoming(b, id, now) && b !in next ==>
      |next| == 10 && StartOf(next[9]) <= StartOf(b)
  {
    var kept := UpcomingOf(rows, id, now);
    var all := Listing.SortBy(kept, StartOf);
    Listing.SameMembers(all, kept);
    Listing.TakeSorted(all, 10, StartOf);
    Listing.Take(all, 10)
  }

  /** The body of createRoom (CreateRoomDto). */
  datatype RoomInput = RoomInput(
    name: Option<string>,
    description: Option<string>,
    capacity: Option<int>,
    floor: Option<int>,
    amenities: Option<seq<string>>,
    imageUrl: Option<string>)

  /** JavaScript truthiness of an optional number. */
  predicate NumTruthy(n: Option<int>) {
    n.Some? && n.value != 0
  }

  /** The rooms of the store all have a positive capacity. */
  ghost predicate CapacitiesPositive(st: Store) {
    forall k :: k in st.rooms ==> st.rooms[k].capacity > 0
  }

  /** createRoom; `newId` stands for the id the database assigns. A new room is
      active (the column default). */
  function CreateRoom(st: Store, callerId: Id, input: RoomInput, newId: Id): (r: Result<(Store, Room), Fault>)
    requires InOrganization(st, callerId) && st.users[callerId].role == Admin
    requires newId !in st.rooms
    ensures !Truthy(input.name) || !NumTruthy(input.capacity) ==> r == Err(Validation(RoomFieldsRequired))
    ensures Truthy(input.name) && NumTruthy(input.capacity) && input.capacity.value < 0
      ==> r == Err(Validation(CapacityNotPositive))
    ensures r.Ok? <==> Truthy(input.name) && input.capacity.Some? && input.capacity.value > 0
    ensures r.Ok? ==>
      var (st', room) := r.value;
      && room == Room(newId, CallerOrg(st, callerId), input.name.value, input.description, input.capacity.value,
                      input.floor, if input.amenities.Some? then input.amenities.value else [], input.imageUrl, true)
      && st' == st.(rooms := st.rooms[newId := room])
  {
    if !Truthy(input.name) || !NumTruthy(input.capacity) then Err(Validation(RoomFieldsRequired))
    else if input.capacity.value <= 0 then Err(Validation(CapacityNotPositive))
    else
      var room := Room(newId, CallerOrg(st, callerId), input.name.value, input.description, input.capacity.value,
                       input.floor, if input.amenities.Some? then input.amenities.value else [], input.imageUrl, true);
      Ok((st.(rooms := st.rooms[newId := room]), room))
  }

  /** The body of updateRoom: each present field overwrites. The body is
      handed to the database as it arrives, so besides the UpdateRoomDto fields
      it can carry `organizationId`. */
  datatype RoomPatch = RoomPatch(
    name: Option<string>,
    description: Option<string>,
    capacity: Option<int>,
    floor: Option<int>,
    amenities: Option<seq<string>>,
    imageUrl: Option<string>,
    isActive: Option<bool>,
    organizationId: Option<Id>)

  function Patch(room: Room, p: RoomPatch): (r: Room)
    ensures r.id == room.id
    ensures r.organizationId == (if p.organizationId.Some? then p.organizationId.value else room.organizationId)
    ensures r.capacity == (if p.capacity.Some? then p.capacity.value else room.capacity)
    ensures p == RoomPatch(None, None, None, None, None, None, None, None) ==> r == room
  {
    room.(
      organizationId := if p.organizationId.Some? then p.organizationId.value else room.organizationId,
      name := if p.name.Some? then p.name.value else room.name,
      description := if p.description.Some? then p.description else room.description,
      capacity := if p.capacity.Some? then p.capacity.value else room.capacity,
      floor := if p.floor.Some? then p.floor else room.floor,
      amenities := if p.amenities.Some? then p.amenities.value else room.amenities,
      imageUrl := if p.imageUrl.Some? then p.imageUrl else room.imageUrl,
      isActive := if p.isActive.Some? then p.isActive.value else room.isActive)
  }

  /** updateRoom. A new `organizationId` must name a stored organization, or
      the database refuses the foreign key. */
  function UpdateRoom(st: Store, callerId: Id, id: Id, p: RoomPatch): (r: Result<(Store, Room), Fault>)
    requires InOrganization(st, callerId) && st.users[callerId].role == Admin
    ensures !RoomOf(st, id, CallerOrg(st, callerId)) ==> r == Err(NotFound(RoomNotFound))
    ensures RoomOf(st, id, CallerOrg(st, callerId)) && p.capacity.Some? && p.capacity.value <= 0
      ==> r == Err(Validation(CapacityNotPositive))
    ensures RoomOf(st, id, CallerOrg(st, callerId)) && (p.capacity.Some? ==> p.capacity.value > 0)
      && p.organizationId.Some? && p.organizationId.value !in st.orgs
      ==> r == Err(Validation(LinkedRecordMissing))
    ensures r.Ok? <==>
      && RoomOf(st, id, CallerOrg(st, callerId))
      && (p.capacity.Some? ==> p.capacity.value > 0)
      && (p.organizationId.Some? ==> p.organizationId.value in st.orgs)
    ensures r.Ok? ==>
      var (st', room) := r.value;
      && room == Patch(st.rooms[id], p)
      && st' == st.(rooms := st.rooms[id := room])
  {
    if !RoomOf(st, id, CallerOrg(st, callerId)) then Err(NotFound(RoomNotFound))
    else if p.capacity.Some? && p.capacity.value <= 0 then Err(Validation(CapacityNotPositive))
    else if p.organizationId.Some? && p.organizationId.value !in st.orgs then Err(Validation(LinkedRecordMissing))
    else
      var room := Patch(st.rooms[id], p);
      Ok((st.(rooms := st.rooms[id := room]), room))
  }

  /** The body goes to the database unfiltered: an admin can hand one of
      their rooms to another stored organization, after which it is no
      longer theirs. */
  lemma UpdateCanMoveRoom(st: Store, callerId: Id, id: Id, p: RoomPatch)
    requires InOrganization(st, callerId) && st.users[callerId].role == Admin
    requires RoomOf(st, id, CallerOrg(st, callerId))
    requires p.capacity.None? && p.organizationId.Some? && p.organizationId.value in st.orgs
    requires p.organizationId.value != CallerOrg(st, callerId)
    ensures UpdateRoom(st, callerId, id, p).Ok?
    ensures !RoomOf(UpdateRoom(st, callerId, id, p).value.0, id, CallerOrg(st, callerId))
  {
  }

  /** Creation and patching never store a room without seats. */
  lemma RoomWritesKeepCapacitiesPositive(st: Store, callerId: Id, input: RoomInput, newId: Id, id: Id, p: RoomPatch)
    requires InOrganization(st, callerId) && st.users[callerId].role == Admin
    requires newId !in st.rooms
    requires CapacitiesPositive(st)
    ensures CreateRoom(st, callerId, input, newId).Ok? ==> CapacitiesPositive(CreateRoom(st, callerId, input, newId).value.0)
    ensures UpdateRoom(st, callerId, id, p).Ok? ==> CapacitiesPositive(UpdateRoom(st, callerId, id, p).value.0)
  {
  }

  /** The count deleteRoom checks: some booking still holds the room. */
  predicate HasUpcoming(bookings: map<Id, Booking>, roomId: Id, now: int) {
    exists k :: k in bookings && Upcoming(bookings[k], roomId, now)
  }

  /** deleteRoom. The room's bookings are not touched here. */
  function DeleteRoom(st: Store, callerId: Id, id: Id, now: int): (r: Result<Store, Fault>)
    requires InOrganization(st, callerId) && st.users[callerId].role == Admin
    ensures !RoomOf(st, id, CallerOrg(st, callerId)) ==> r == Err(NotFound(RoomNotFound))
    ensures r.Ok? <==>
      && RoomOf(st, id, CallerOrg(st, callerId))
      && (forall k :: k in st.bookings && st.bookings[k].roomId == id ==>
            st.bookings[k].status != Confirmed || st.bookings[k].end < now)
    ensures r.Err? && RoomOf(st, id, CallerOrg(st, callerId)) ==> r.error == Validation(RoomHasActiveBookings)
    ensures r.Ok? ==> r.value == st.(rooms := st.rooms - {id})
  {
    if !RoomOf(st, id, CallerOrg(st, callerId)) then Err(NotFound(RoomNotFound))
    else if HasUpcoming(st.bookings, id, now) then Err(Validation(RoomHasActiveBookings))
    else Ok(st.(rooms := st.rooms - {id}))
  }

  /** Every booking names a stored room. */
  ghost predicate RoomsReferenced(st: Store) {
    forall k :: k in st.bookings ==> st.bookings[k].roomId in st.rooms
  }

  /** Deleting is the inverse of creating: a room just created holds no
      booking, so deleting it restores the store. */
  lemma DeleteUndoesCreate(st: Store, callerId: Id, input: RoomInput, newId: Id, now: int)
    requires InOrganization(st, callerId) && st.users[callerId].role == Admin
    requires newId !in st.rooms
    requires RoomsReferenced(st)
    requires CreateRoom(st, callerId, input, newId).Ok?
    ensures DeleteRoom(CreateRoom(st, callerId, input, newId).value.0, callerId, newId, now) == Ok(st)
  {
    var st' := CreateRoom(st, callerId, input, newId).value.0;
    assert st'.rooms - {newId} == st.rooms;
  }

  /** The `date` query parameter of getRoomAvailability: the raw string, and the
      first and last millisecond of that day in the server's time zone. */
  datatype Day = Day(raw: string, startOfDay: int, endOfDay: int)

  predicate DayShows(b: Booking, roomId: Id, d: Day) {
    b.roomId == roomId && b.status != Cancelled && Overlap.MeetsWindow(b.start, b.end, d.startOfDay, d.endOfDay)
  }

  /** getRoomAvailability: the date is checked before the room. */
  function Availability(st: Store, callerId: Id, rows: seq<Booking>, id: Id, date: Option<Day>)
    : (r: Result<seq<Booking>, Fault>)
    requires InOrganization(st, callerId)
    requires RowsOf(rows, st.bookings)
    ensures date.None? || date.value.raw == "" ==> r == Err(Validation(DateRequired))
    ensures r.Ok? <==> date.Some? && date.value.raw != "" && RoomOf(st, id, CallerOrg(st, callerId))
    ensures r.Err? && date.Some? && date.value.raw != "" ==> r.error == NotFound(RoomNotFound)
    ensures r.Ok? ==> Listing.SortedBy(r.value, StartOf)
    ensures r.Ok? ==> forall b :: b in r.value <==>
      && b in rows && b.roomId == id && b.status != Cancelled
      && Overlap.MeetsWindow(b.start, b.end, date.value.startOfDay, date.value.endOfDay)
    ensures r.Ok? ==> forall b: Booking ::
      multiset(r.value)[b] == (if DayShows(b, id, date.value) then multiset(rows)[b] else 0)
    // no booking is listed twice
    ensures r.Ok? ==> forall i, j :: 0 <= i < j < |r.value| ==> r.value[i] != r.value[j]
  {
    if date.None? || date.value.raw == "" then Err(Validation(DateRequired))
    else if !RoomOf(st, id, CallerOrg(st, callerId)) then Err(NotFound(RoomNotFound))
    else
      var d := date.value;
      var r := Listing.Select(rows, (b: Booking) => DayShows(b, id, d), StartOf);
      Listing.NoRepeats(r);
      Ok(r)
  }

  /** Whoever plans a booking inside the day sees every booking it would collide
      with: an active booking of the room intersecting a slot of that day is
      listed. */
  lemma AvailabilityShowsConflicts(st: Store, callerId: Id, rows: seq<Booking>, id: Id, d: Day,
                                   k: Id, s: int, e: int)
    requires InOrganization(st, callerId)
    requires RowsOf(rows, st.bookings)
    requires d.raw != "" && RoomOf(st, id, CallerOrg(st, callerId))
    requires d.startOfDay <= s < e <= d.endOfDay
    requires k in st.bookings && st.bookings[k].roomId == id && Active(st.bookings[k])
    requires Overlap.Intersects(st.bookings[k].start, st.bookings[k].end, s, e)
    ensures st.bookings[k] in Availability(st, callerId, rows, id, Some(d)).value
  {
    assert st.bookings[k] in st.bookings.Values;
  }
}

=== FILE: slug.dfy ===
/** generateSlug and the slug probe of createOrganization. */
module Slug {
  import opened Strings
  import Listing

  const MaxLength: nat := 50

  /** The characters a finished slug is made of: `[a-zа-яё0-9-]`. */
  predicate IsSlugChar(c: char) {
    || ('a' <= c <= 'z') || ('\U{0430}' <= c <= '\U{044F}') || c == '\U{0451}'
    || IsDigit(c) || c == '-'
  }

  /** The class `[a-zа-яё0-9\s-]` the first replace keeps (after lower-casing). */
  predicate IsKept(c: char) {
    IsSlugChar(c) || IsSpace(c)
  }

  predicate IsDash(c: char) {
    c == '-'
  }

  /** No two adjacent dashes. */
  predicate NoDoubleDash(s: string) {
    forall i :: 0 <= i < |s| - 1 ==> !(s[i] == '-' && s[i + 1] == '-')
  }

  /** The longest prefix of `s` outside `p`'s class is dropped. */
  function DropRun(s: string, p: char -> bool): (r: string)
    ensures |r| <= |s| && r == s[|s| - |r|..]
    ensures r == [] || !p(r[0])
  {
    if s == [] || !p(s[0]) then s else DropRun(s[1..], p)
  }

  /** `replace(/X+/g, '-')`: every maximal run of `p`-characters becomes one '-'. */
  function Collapse(s: string, p: char -> bool): (r: string)
    ensures |r| <= |s|
    ensures s == [] <==> r == []
    ensures s != [] ==> r[0] == (if p(s[0]) then '-' else s[0])
    ensures forall i :: 0 <= i < |r| ==> r[i] == '-' || (!p(r[i]) && r[i] in s)
    ensures p('-') ==> NoDoubleDash(r)
    decreases |s|
  {
    if s == [] then []
    else if p(s[0]) then
      var t := DropRun(s[1..], p);
      assert forall c :: c in t ==> c in s;
      "-" + Collapse(t, p)
    else
      [s[0]] + Collapse(s[1..], p)
  }

  /** A string whose `p`-characters are lone dashes is left alone. */
  lemma {:induction false} CollapseFixed(s: string, p: char -> bool)
    requires forall i :: 0 <= i < |s| && p(s[i]) ==> s[i] == '-'
    requires forall i :: 0 <= i < |s| - 1 && p(s[i]) ==> !p(s[i + 1])
    ensures Collapse(s, p) == s
  {
    if s != [] {
      CollapseFixed(s[1..], p);
      if p(s[0]) {
        assert DropRun(s[1..], p) == s[1..];
      }
    }
  }

  /** generateSlug: lower-case, drop foreign characters, whitespace runs to '-',
      dash runs to '-', first 50 characters. */
  function MakeSlug(name: string): (r: string)
    ensures |r| <= MaxLength
    ensures HasNoSpace(r)
    ensures NoDoubleDash(r)
    ensures forall i :: 0 <= i < |r| ==> IsSlugChar(r[i])
  {
    var kept := Listing.Filter(Lower(name), IsKept);
    var dashed := Collapse(Collapse(kept, IsSpace), IsDash);
    var r := Listing.Take(dashed, MaxLength);
    assert forall i :: 0 <= i < |r| ==> IsSlugChar(r[i]) && !IsSpace(r[i]) by {
      forall i | 0 <= i < |r| ensures IsSlugChar(r[i]) && !IsSpace(r[i]) {
        assert r[i] == dashed[i];
      }
    }
    r
  }

  /** generateSlug is idempotent: a slug is its own slug. */
  lemma SlugIdempotent(name: string)
    ensures MakeSlug(MakeSlug(name)) == MakeSlug(name)
  {
    var s := MakeSlug(name);
    assert Lower(s) == s;
    Listing.FilterKeepsAll(s, IsKept);
    CollapseFixed(s, IsSpace);
    CollapseFixed(s, IsDash);
  }

  /** The slug tried on probe `k`: the base itself, then `base-k`. */
  function Candidate(base: string, k: nat): string {
    if k == 0 then base else base + "-" + NatToString(k)
  }

  lemma CandidateInjective(base: string, j: nat, k: nat)
    requires Candidate(base, j) == Candidate(base, k)
    ensures j == k
  {
    if j != 0 && k != 0 {
      var a, b := Candidate(base, j), Candidate(base, k);
      assert NatToString(j) == a[|base| + 1..];
      assert NatToString(k) == b[|base| + 1..];
      NatToStringInjective(j, k);
    }
  }

  /** The first `k` candidates. */
  function Tried(base: string, k: nat): (r: set<string>)
    ensures |r| == k
    ensures forall j :: 0 <= j < k ==> Candidate(base, j) in r
    ensures forall x :: x in r ==> exists j :: 0 <= j < k && x == Candidate(base, j)
  {
    if k == 0 then {}
    else
      var prev := Tried(base, k - 1);
      assert Candidate(base, k - 1) !in prev by {
        if Candidate(base, k - 1) in prev {
          var j :| 0 <= j < k - 1 && Candidate(base, k - 1) == Candidate(base, j);
          CandidateInjective(base, j, k - 1);
        }
      }
      prev + {Candidate(base, k - 1)}
  }

  /** The probe loop: the first candidate not in `taken`, and its suffix. */
  method FreeSlug(base: string, taken: set<string>) returns (slug: string, k: nat)
    ensures slug !in taken
    ensures slug == Candidate(base, k)
    ensures forall j :: 0 <= j < k ==> Candidate(base, j) in taken
    ensures k <= |taken|
  {
    k := 0;
    while Candidate(base, k) in taken
      invariant Tried(base, k) <= taken
      invariant k <= |taken|
      decreases |taken| - k
    {
      assert Tried(base, k + 1) <= taken;
      Card(Tried(base, k + 1), taken);
      k := k + 1;
    }
    slug := Candidate(base, k);
  }

  lemma Card(a: set<string>, b: set<string>)
    requires a <= b
    ensures |a| <= |b|
  {
    assert b == a + (b - a);
  }
}

=== FILE: store.dfy ===
/** The in-memory store that replaces the database: one immutable map per table,
    keyed by id, plus the error kinds every controller raises. */
module Store {
  import opened Wrappers
  import Overlap

  type Id = string

  datatype Role = Admin | Member
  datatype Status = Pending | Confirmed | Cancelled

  datatype User = User(
    id: Id,
    email: string,
    password: Option<string>,         // a bcrypt hash; None for Google-only accounts
    name: string,
    avatarUrl: Option<string>,
    role: Role,
    isActive: bool,
    organizationId: Option<Id>,
    googleId: Option<string>,
    googleAccessToken: Option<string>,
    googleRefreshToken: Option<string>)

  datatype Organization = Organization(id: Id, name: string, slug: string, description: Option<string>)

  datatype Room = Room(
    id: Id,
    organizationId: Id,
    name: string,
    description: Option<string>,
    capacity: int,
    floor: Option<int>,
    amenities: seq<string>,
    imageUrl: Option<string>,
    isActive: bool)

  /** A booking of a room for the half-open interval [start, end); the participant
      links are kept on the booking itself. */
  datatype Booking = Booking(
    id: Id,
    roomId: Id,
    userId: Id,
    title: string,
    description: Option<string>,
    start: int,
    end: int,
    status: Status,
    participants: seq<Id>,
    googleEventId: Option<string>,
    synced: bool)

  datatype Invite = Invite(
    id: Id,
    organizationId: Id,
    code: string,
    createdById: Id,
    email: Option<string>,
    role: Role,
    expiresAt: int,
    usedById: Option<Id>,
    usedAt: Option<int>)

  datatype Store = Store(
    users: map<Id, User>,
    orgs: map<Id, Organization>,
    rooms: map<Id, Room>,
    bookings: map<Id, Booking>,
    invites: map<Id, Invite>)

  /** Why an operation was refused; stands for the message text of the error. */
  datatype Why =
    // bookings
    | FieldsRequired | EndNotAfterStart | StartInPast | TooLong | RoomNotFound | RoomInactive
    | SlotTaken | BookingNotFound | NoEditRights | BookingInPast | NoCancelRights
    | AlreadyCancelled | NoOrganization | DatesRequired
    // organizations and invites
    | NameTooShort | AlreadyInOrganization | InvalidRole | AdminInviteNeedsAdmin | AlreadyMember
    | InviteNotFound | InviteUsed | CodeRequired | InviteExpired | EmailMismatch | SoleAdmin
    | UseLeave | MemberNotFound | OwnRoleChange | CodeTaken
    // calendar
    | CalendarNotConnected | SyncBookingNotFound | SyncCancelled
    // rooms
    | RoomFieldsRequired | CapacityNotPositive | RoomHasActiveBookings | DateRequired
    // accounts
    | AccountFieldsRequired | PasswordTooShort | BadEmail | EmailTaken | OrganizationNotFound
    | LoginFieldsRequired | BadCredentials | AccountDisabled | GoogleOnlyAccount
    | NewPasswordTooShort | CurrentPasswordRequired | CurrentPasswordWrong | PasswordNeeded
    // a foreign key the database refuses
    | LinkedRecordMissing

  /** The three error classes the controllers throw (ValidationError 400,
      NotFoundError 404, ConflictError 409). */
  datatype Fault = Validation(why: Why) | NotFound(what: Why) | Conflict(why: Why)

  /** JavaScript truthiness of an optional string: present and non-empty. */
  predicate Truthy(s: Option<string>) {
    s.Some? && s.value != ""
  }

  /** The table invariants the database enforces: rows are stored under their
      own id, and email and invite code are unique columns. */
  ghost predicate WellFormed(st: Store) {
    && (forall k :: k in st.users ==> st.users[k].id == k)
    && (forall k :: k in st.orgs ==> st.orgs[k].id == k)
    && (forall k :: k in st.rooms ==> st.rooms[k].id == k)
    && (forall k :: k in st.bookings ==> st.bookings[k].id == k)
    && (forall k :: k in st.invites ==> st.invites[k].id == k)
    && EmailsUnique(st.users)
    && CodesUnique(st.invites)
  }

  ghost predicate EmailsUnique(users: map<Id, User>) {
    forall a, b :: a in users && b in users && users[a].email == users[b].email ==> a == b
  }

  ghost predicate CodesUnique(invites: map<Id, Invite>) {
    forall a, b :: a in invites && b in invites && invites[a].code == invites[b].code ==> a == b
  }

  /** The user with this email, looked up through the unique email column. */
  function UserByEmail(users: map<Id, User>, email: string): (r: Option<Id>)
    requires EmailsUnique(users)
    ensures r.Some? ==> r.value in users && users[r.value].email == email
    ensures r.None? <==> forall k :: k in users ==> users[k].email != email
  {
    if exists k :: k in users && users[k].email == email then
      Some(var k :| k in users && users[k].email == email; k)
    else
      None
  }

  /** The invite with this code, looked up through the unique code column. */
  function InviteByCode(invites: map<Id, Invite>, code: string): (r: Option<Id>)
    requires CodesUnique(invites)
    ensures r.Some? ==> r.value in invites && invites[r.value].code == code
    ensures r.None? <==> forall k :: k in invites ==> invites[k].code != code
  {
    if exists k :: k in invites && invites[k].code == code then
      Some(var k :| k in invites && invites[k].code == code; k)
    else
      None
  }

  /** Bookings that take part in the conflict test: every status but cancelled. */
  predicate Active(b: Booking) {
    b.status != Cancelled
  }

  /** The core invariant: no two active bookings of one room share an instant. */
  ghost predicate NoDoubleBooking(bookings: map<Id, Booking>) {
    forall a, b :: a in bookings && b in bookings && a != b
      && bookings[a].roomId == bookings[b].roomId
      && Active(bookings[a]) && Active(bookings[b])
      ==> !Overlap.Intersects(bookings[a].start, bookings[a].end, bookings[b].start, bookings[b].end)
  }

  /** `after` only drops rows, cancels rows or edits fields other than room and
      times: a change of this shape cannot create a double booking. */
  ghost predicate OnlyWithdraws(before: map<Id, Booking>, after: map<Id, Booking>) {
    forall k :: k in after ==>
      && k in before
      && after[k].roomId == before[k].roomId
      && after[k].start == before[k].start
      && after[k].end == before[k].end
      && (Active(after[k]) ==> Active(before[k]))
  }

  lemma WithdrawKeepsNoDoubleBooking(before: map<Id, Booking>, after: map<Id, Booking>)
    requires NoDoubleBooking(before)
    requires OnlyWithdraws(before, after)
    ensures NoDoubleBooking(after)
  {
  }

  /** Every organization has at least one active admin among its members. */
  ghost predicate EveryOrgHasAdmin(st: Store) {
    forall o :: o in st.orgs ==> HasActiveAdmin(st.users, o)
  }

  ghost predicate HasActiveAdmin(users: map<Id, User>, org: Id) {
    exists k :: k in users && IsActiveAdminOf(users[k], org)
  }

  predicate IsActiveAdminOf(u: User, org: Id) {
    u.organizationId == Some(org) && u.role == Admin && u.isActive
  }

  /** `rows` is a scan of the whole table `table`, each row once: what a
      `findMany` reads before its `where` applies. */
  ghost predicate RowsOf<T(!new)>(rows: seq<T>, table: map<Id, T>) {
    && (forall x :: x in rows <==> x in table.Values)
    && (forall x :: multiset(rows)[x] <= 1)
  }

  /** The caller of a route behind `authenticate`: a stored, active user. */
  ghost predicate Authenticated(st: Store, callerId: Id) {
    callerId in st.users && st.users[callerId].id == callerId && st.users[callerId].isActive
  }

  /** Behind `authenticate` and `requireOrganization`. */
  ghost predicate InOrganization(st: Store, callerId: Id) {
    Authenticated(st, callerId) && Truthy(st.users[callerId].organizationId)
  }

  /** Behind `authenticate` and `requireAdmin`. */
  ghost predicate IsAdminCaller(st: Store, callerId: Id) {
    Authenticated(st, callerId) && st.users[callerId].role == Admin
  }
}

=== FILE: strings.dfy ===
/** String helpers shared by the model: the JavaScript character classes the
    source's regular expressions use, case mapping, trim, split/join and decimal
    rendering. Strings are sequences of Unicode scalar values. */
module Strings {

  /** JavaScript's `\s`: WhiteSpace plus LineTerminator (also what `trim` strips). */
  predicate IsSpace(c: char) {
    || c == ' ' || c == '\t' || c == '\n' || c == '\U{000B}' || c == '\U{000C}' || c == '\r'
    || c == '\U{00A0}' || c == '\U{1680}' || ('\U{2000}' <= c <= '\U{200A}')
    || c == '\U{2028}' || c == '\U{2029}' || c == '\U{202F}' || c == '\U{205F}'
    || c == '\U{3000}' || c == '\U{FEFF}'
  }

  /** The characters `.` refuses to match in a JavaScript regular expression. */
  predicate IsLineTerminator(c: char) {
    c == '\n' || c == '\r' || c == '\U{2028}' || c == '\U{2029}'
  }

  /** JavaScript's `\w`: `[A-Za-z0-9_]`. */
  predicate IsWordChar(c: char) {
    ('a' <= c <= 'z') || ('A' <= c <= 'Z') || ('0' <= c <= '9') || c == '_'
  }

  predicate IsDigit(c: char) {
    '0' <= c <= '9'
  }

  predicate HasNoSpace(s: string) {
    forall i :: 0 <= i < |s| ==> !IsSpace(s[i])
  }

  /** `toLowerCase` on Latin A-Z and the basic Cyrillic block U+0400-U+042F;
      every other character is left as it is. */
  function LowerChar(c: char): (r: char)
    ensures !('A' <= r <= 'Z') && !('\U{0400}' <= r <= '\U{042F}')
    ensures ('a' <= c <= 'z') || ('\U{0430}' <= c <= '\U{045F}') ==> r == c
  {
    if 'A' <= c <= 'Z' then (c as int + 32) as char
    else if '\U{0410}' <= c <= '\U{042F}' then (c as int + 0x20) as char
    else if '\U{0400}' <= c <= '\U{040F}' then (c as int + 0x50) as char
    else c
  }

  /** `toUpperCase` on the same two alphabets. */
  function UpperChar(c: char): (r: char)
    ensures !('a' <= r <= 'z') && !('\U{0430}' <= r <= '\U{045F}')
    ensures ('A' <= c <= 'Z') || ('0' <= c <= '9') ==> r == c
  {
    if 'a' <= c <= 'z' then (c as int - 32) as char
    else if '\U{0430}' <= c <= '\U{044F}' then (c as int - 0x20) as char
    else if '\U{0450}' <= c <= '\U{045F}' then (c as int - 0x50) as char
    else c
  }

  function Lower(s: string): (r: string)
    ensures |r| == |s|
    ensures forall i :: 0 <= i < |s| ==> r[i] == LowerChar(s[i])
  {
    seq(|s|, i requires 0 <= i < |s| => LowerChar(s[i]))
  }

  function Upper(s: string): (r: string)
    ensures |r| == |s|
    ensures forall i :: 0 <= i < |s| ==> r[i] == UpperChar(s[i])
  {
    seq(|s|, i requires 0 <= i < |s| => UpperChar(s[i]))
  }

  /** `String.prototype.trim`. */
  function TrimStart(s: string): (r: string)
    ensures |r| <= |s| && r == s[|s| - |r|..]
    ensures r == [] || !IsSpace(r[0])
    ensures forall i :: 0 <= i < |s| - |r| ==> IsSpace(s[i])
  {
    if s == [] || !IsSpace(s[0]) then s else TrimStart(s[1..])
  }

  function TrimEnd(s: string): (r: string)
    ensures |r| <= |s| && r == s[..|r|]
    ensures r == [] || !IsSpace(r[|r| - 1])
    ensures forall i :: |r| <= i < |s| ==> IsSpace(s[i])
  {
    if s == [] || !IsSpace(s[|s| - 1]) then s else TrimEnd(s[..|s| - 1])
  }

  function Trim(s: string): (r: string)
    ensures |r| <= |s|
    ensures r == [] || (!IsSpace(r[0]) && !IsSpace(r[|r| - 1]))
  {
    TrimEnd(TrimStart(s))
  }

  predicate StartsWith(s: string, prefix: string) {
    |prefix| <= |s| && s[..|prefix|] == prefix
  }

  predicate EndsWith(s: string, suffix: string) {
    |suffix| <= |s| && s[|s| - |suffix|..] == suffix
  }

  /** `String.prototype.includes`. */
  predicate Contains(s: string, part: string) {
    StartsWith(s, part) || (s != [] && Contains(s[1..], part))
  }

  /** `String.prototype.split` with a one-character separator. */
  function Split(s: string, sep: char): (r: seq<string>)
    ensures |r| >= 1
    ensures forall k :: 0 <= k < |r| ==> sep !in r[k]
    // the first field runs up to the first separator, or to the end
    ensures StartsWith(s, r[0]) && (|r[0]| == |s| || s[|r[0]|] == sep)
  {
    if s == [] then [[]]
    else if s[0] == sep then [[]] + Split(s[1..], sep)
    else
      var rest := Split(s[1..], sep);
      [[s[0]] + rest[0]] + rest[1..]
  }

  /** `Array.prototype.join` with a one-character separator. */
  function Join(xs: seq<string>, sep: char): string {
    if |xs| == 0 then []
    else if |xs| == 1 then xs[0]
    else xs[0] + [sep] + Join(xs[1..], sep)
  }

  lemma {:induction false} SplitNoSep(a: string, sep: char)
    requires sep !in a
    ensures Split(a, sep) == [a]
  {
    if a != [] {
      SplitNoSep(a[1..], sep);
      assert [a[0]] + a[1..] == a;
    }
  }

  lemma {:induction false} SplitAfterSep(a: string, sep: char, rest: string)
    requires sep !in a
    ensures Split(a + [sep] + rest, sep) == [a] + Split(rest, sep)
  {
    if a == [] {
      assert a + [sep] + rest == [sep] + rest;
      assert ([sep] + rest)[1..] == rest;
    } else {
      var s := a + [sep] + rest;
      assert s[1..] == a[1..] + [sep] + rest;
      SplitAfterSep(a[1..], sep, rest);
      assert [a[0]] + a[1..] == a;
    }
  }

  /** Splitting a join gives the list back when no element contains the separator. */
  lemma {:induction false} SplitJoin(xs: seq<string>, sep: char)
    requires |xs| >= 1
    requires forall k :: 0 <= k < |xs| ==> sep !in xs[k]
    ensures Split(Join(xs, sep), sep) == xs
  {
    if |xs| == 1 {
      SplitNoSep(xs[0], sep);
    } else {
      SplitJoin(xs[1..], sep);
      SplitAfterSep(xs[0], sep, Join(xs[1..], sep));
      assert [xs[0]] + xs[1..] == xs;
    }
  }

  function DigitChar(d: int): (c: char)
    requires 0 <= d < 10
    ensures IsDigit(c)
  {
    ('0' as int + d) as char
  }

  /** Decimal rendering of a natural number, as template literals do. */
  function NatToString(n: nat): (r: string)
    ensures |r| >= 1
    ensures forall i :: 0 <= i < |r| ==> IsDigit(r[i])
    ensures n < 10 <==> |r| == 1
  {
    if n < 10 then [DigitChar(n)] else NatToString(n / 10) + [DigitChar(n % 10)]
  }

  function IntToString(n: int): (r: string)
    ensures |r| >= 1
  {
    if n < 0 then "-" + NatToString(-n) else NatToString(n)
  }

  /** Different numbers render differently. */
  lemma {:induction false} NatToStringInjective(m: nat, n: nat)
    requires NatToString(m) == NatToString(n)
    ensures m == n
  {
    if m >= 10 && n >= 10 {
      var a, b := NatToString(m), NatToString(n);
      assert a[..|a| - 1] == NatToString(m / 10);
      assert b[..|b| - 1] == NatToString(n / 10);
      NatToStringInjective(m / 10, n / 10);
      assert a[|a| - 1] == DigitChar(m % 10);
    }
  }

  /** JavaScript's `<` on strings: lexicographic order of the characters. */
  predicate LessThan(a: string, b: string) {
    if a == [] then b != []
    else if b == [] then false
    else if a[0] != b[0] then a[0] < b[0]
    else LessThan(a[1..], b[1..])
  }
}

=== FILE: upload.dfy ===
/** services/upload.service.ts: the public URL of a stored room image, the
    inverse that pulls the file name back out of such a URL, the MIME filter and
    size limit for uploads, and the name a stored file gets. The disk itself is
    not modelled. */
module Upload {
  import opened Wrappers
  import opened Strings

  const UploadsPrefix := "/uploads/"
  const RoomsType := "rooms"

  /** getFileUrl(filename, 'rooms'). */
  function FileUrl(filename: string): string {
    UploadsPrefix + RoomsType + "/" + filename
  }

  /** The length of the longest prefix of `s` made of `\w` characters. */
  function WordRun(s: string): (n: nat)
    ensures n <= |s|
    ensures forall k :: 0 <= k < n ==> IsWordChar(s[k])
    ensures n < |s| ==> !IsWordChar(s[n])
  {
    if s == [] || !IsWordChar(s[0]) then 0 else 1 + WordRun(s[1..])
  }

  predicate NoLineTerminator(s: string) {
    forall k :: 0 <= k < |s| ==> !IsLineTerminator(s[k])
  }

  predicate AllWord(s: string) {
    forall k :: 0 <= k < |s| ==> IsWordChar(s[k])
  }

  /** An attempt of `/\/uploads\/\w+\/(.+)$/` at position `i`, with its group.
      `\w+` can only stop where a '/' follows, so it takes the whole run of word
      characters; `(.+)$` then needs at least one character and no line
      terminator up to the end of the string. */
  function MatchAt(url: string, i: nat): (r: Option<string>)
    requires i <= |url|
  {
    var s := url[i..];
    if !StartsWith(s, UploadsPrefix) then None
    else
      var t := s[|UploadsPrefix|..];
      var n := WordRun(t);
      if n == 0 || n == |t| || t[n] != '/' then None
      else
        var rest := t[n + 1..];
        if rest != [] && NoLineTerminator(rest) then Some(rest) else None
  }

  /** The regular expression, read declaratively: at `i` the URL continues with
      "/uploads/", one or more word characters, a '/', and the group, which is
      non-empty, free of line terminators and runs to the end. */
  ghost predicate RegexAt(url: string, i: nat, group: string) {
    && i <= |url|
    && StartsWith(url[i..], UploadsPrefix)
    && exists j :: i + |UploadsPrefix| < j < |url| && url[j] == '/'
        && AllWord(url[i + |UploadsPrefix|..j])
        && group == url[j + 1..] && group != [] && NoLineTerminator(group)
  }

  /** A run of word characters that stops at a non-word character is the run. */
  lemma WordRunStopsAt(t: string, m: nat)
    requires m < |t| && !IsWordChar(t[m])
    requires forall k :: 0 <= k < m ==> IsWordChar(t[k])
    ensures WordRun(t) == m
  {
  }

  /** A successful attempt is a match of the regular expression. */
  lemma MatchAtIsSound(url: string, i: nat, g: string)
    requires i <= |url| && MatchAt(url, i) == Some(g)
    ensures RegexAt(url, i, g)
  {
    var p := |UploadsPrefix|;
    var t := url[i..][p..];
    assert t == url[i + p..];
    var n := WordRun(t);
    var j := i + p + n;
    assert url[j] == t[n];
    assert url[i + p..j] == t[..n];
    assert url[j + 1..] == t[n + 1..];
    RegexAtSlash(url, i, j, g);
  }

  /** The regular expression matches at `i` with the '/' at `j`. */
  lemma RegexAtSlash(url: string, i: nat, j: nat, g: string)
    requires i <= |url| && StartsWith(url[i..], UploadsPrefix)
    requires i + |UploadsPrefix| < j < |url| && url[j] == '/'
    requires AllWord(url[i + |UploadsPrefix|..j])
    requires g == url[j + 1..] && g != [] && NoLineTerminator(g)
    ensures RegexAt(url, i, g)
  {
  }

  /** The attempt once the prefix is known and the word run after it ends at
      the '/' at `j`. */
  lemma MatchAtOf(url: string, i: nat, j: nat)
    requires i <= |url| && StartsWith(url[i..], UploadsPrefix)
    requires i + |UploadsPrefix| < j < |url| && url[j] == '/'
    requires WordRun(url[i + |UploadsPrefix|..]) == j - (i + |UploadsPrefix|)
    ensures var rest := url[j + 1..];
      MatchAt(url, i) == if rest != [] && NoLineTerminator(rest) then Some(rest) else None
  {
    var p := |UploadsPrefix|;
    var t := url[i..][p..];
    var m := j - (i + p);
    assert t == url[i + p..];
    assert t[m] == url[j];
    assert t[m + 1..] == url[j + 1..];
  }

  /** The word run after the prefix ends at the '/' the regular expression chose. */
  lemma RunEndsAtSlash(url: string, a: nat, j: nat)
    requires a < j < |url| && url[j] == '/'
    requires AllWord(url[a..j])
    ensures WordRun(url[a..]) == j - a
  {
    var t := url[a..];
    var m := j - a;
    assert t[m] == url[j];
    forall k | 0 <= k < m ensures IsWordChar(t[k]) {
      assert t[k] == url[a..j][k];
    }
    WordRunStopsAt(t, m);
  }

  /** A match of the regular expression is found by the attempt. */
  lemma MatchAtIsComplete(url: string, i: nat, g: string)
    requires RegexAt(url, i, g)
    ensures MatchAt(url, i) == Some(g)
  {
    var p := |UploadsPrefix|;
    var j :| i + p < j < |url| && url[j] == '/'
      && AllWord(url[i + p..j])
      && g == url[j + 1..] && g != [] && NoLineTerminator(g);
    MatchWithSlashAt(url, i, j);
  }

  /** The attempt finds the match whose word run ends at the '/' at `j`. */
  lemma MatchWithSlashAt(url: string, i: nat, j: nat)
    requires i <= |url| && StartsWith(url[i..], UploadsPrefix)
    requires i + |UploadsPrefix| < j < |url| && url[j] == '/'
    requires AllWord(url[i + |UploadsPrefix|..j])
    requires url[j + 1..] != [] && NoLineTerminator(url[j + 1..])
    ensures MatchAt(url, i) == Some(url[j + 1..])
  {
    RunEndsAtSlash(url, i + |UploadsPrefix|, j);
    MatchAtOf(url, i, j);
  }

  /** The attempt at one position succeeds with a group exactly when the regular
      expression matches there with that group. */
  lemma MatchAtIsRegex(url: string, i: nat, g: string)
    requires i <= |url|
    ensures MatchAt(url, i) == Some(g) <==> RegexAt(url, i, g)
  {
    if MatchAt(url, i) == Some(g) {
      MatchAtIsSound(url, i, g);
    }
    if RegexAt(url, i, g) {
      MatchAtIsComplete(url, i, g);
    }
  }

  /** The first position from `i` on where the attempt succeeds. */
  function Leftmost(url: string, i: nat): (r: Option<nat>)
    requires i <= |url|
    ensures r.Some? ==> i <= r.value <= |url| && MatchAt(url, r.value).Some?
    ensures r.Some? ==> forall k :: i <= k < r.value ==> MatchAt(url, k).None?
    ensures r.None? ==> forall k :: i <= k <= |url| ==> MatchAt(url, k).None?
    decreases |url| - i
  {
    if MatchAt(url, i).Some? then Some(i)
    else if i == |url| then None
    else Leftmost(url, i + 1)
  }

  /** extractFilename: the group of the leftmost match, or null. */
  function ExtractFilename(url: string): (r: Option<string>)
    ensures r.Some? ==> r.value != [] && NoLineTerminator(r.value)
  {
    match Leftmost(url, 0)
    case None => None
    case Some(i) => MatchAt(url, i)
  }

  /** extractFilename is null exactly when the regular expression matches at no
      position of the URL; the match need not start at the beginning. */
  lemma ExtractNullIffNoMatch(url: string)
    ensures ExtractFilename(url).None? <==> forall i: nat, g :: !RegexAt(url, i, g)
  {
    if ExtractFilename(url).Some? {
      var i := Leftmost(url, 0).value;
      MatchAtIsRegex(url, i, MatchAt(url, i).value);
    } else {
      forall i: nat, g | RegexAt(url, i, g)
        ensures false
      {
        MatchAtIsRegex(url, i, g);
      }
    }
  }

  /** A found name is the group of a match at some position, and the regular
      expression matches at no earlier position. */
  lemma ExtractTakesLeftmostMatch(url: string)
    requires ExtractFilename(url).Some?
    ensures exists i: nat ::
      && RegexAt(url, i, ExtractFilename(url).value)
      && forall k: nat, g :: k < i ==> !RegexAt(url, k, g)
  {
    var i := Leftmost(url, 0).value;
    MatchAtIsRegex(url, i, ExtractFilename(url).value);
    forall k: nat, g | k < i
      ensures !RegexAt(url, k, g)
    {
      MatchAtIsRegex(url, k, g);
    }
  }

  /** extractFilename undoes getFileUrl for every non-empty name without line
      terminators (a generated uuid name is one). */
  lemma ExtractInvertsFileUrl(f: string)
    requires f != [] && NoLineTerminator(f)
    ensures ExtractFilename(FileUrl(f)) == Some(f)
  {
    var url := FileUrl(f);
    var t := url[0..][|UploadsPrefix|..];
    assert url[0..] == url;
    assert StartsWith(url, UploadsPrefix) by {
      assert url[..|UploadsPrefix|] == UploadsPrefix;
    }
    assert t == RoomsType + "/" + f;
    WordRunStopsAt(t, |RoomsType|);
    assert t[|RoomsType| + 1..] == f;
    assert MatchAt(url, 0) == Some(f);
  }

  const AllowedMimeTypes := ["image/jpeg", "image/jpg", "image/png", "image/webp", "image/gif"]
  const BadTypeMessage := "Недопустимый тип файла. Разрешены: JPEG, PNG, WebP, GIF"
  const MaxFileSize := 5 * 1024 * 1024

  /** fileFilter: accept a listed MIME type, refuse anything else with an error. */
  function FileFilter(mime: string): (r: Result<bool, string>)
    ensures r.Ok? ==> r.value && StartsWith(mime, "image/")
    ensures r.Err? ==> r.error == BadTypeMessage
  {
    if mime in AllowedMimeTypes then
      assert forall m :: m in AllowedMimeTypes ==> m[..6] == "image/";
      Ok(true)
    else Err(BadTypeMessage)
  }

  /** Exactly the five image types pass the filter. */
  lemma FilterAcceptsExactlyFive(mime: string)
    ensures FileFilter(mime).Ok? <==>
      mime == "image/jpeg" || mime == "image/jpg" || mime == "image/png"
      || mime == "image/webp" || mime == "image/gif"
  {
  }

  /** Why multer refuses an upload: the filter's error, or the size limit. */
  datatype Refusal = BadType(message: string) | TooLarge

  /** The upload middleware: the filter decides first, from the declared type;
      the size limit applies to the bytes that follow. */
  function Accept(mime: string, size: nat): (r: Result<(), Refusal>)
    ensures r.Ok? <==> FileFilter(mime).Ok? && size <= 5242880
    ensures FileFilter(mime).Err? ==> r == Err(BadType(BadTypeMessage))
  {
    match FileFilter(mime)
    case Err(e) => Err(BadType(e))
    case Ok(_) => if size > MaxFileSize then Err(TooLarge) else Ok(())
  }

  /** The path without its trailing slashes. */
  function StripTrailingSlashes(p: string): (r: string)
    ensures |r| <= |p| && r == p[..|r|]
    ensures r == [] || r[|r| - 1] != '/'
    ensures forall k :: |r| <= k < |p| ==> p[k] == '/'
  {
    if p == [] || p[|p| - 1] != '/' then p else StripTrailingSlashes(p[..|p| - 1])
  }

  /** `lastIndexOf` for one character. */
  function LastIndex(s: string, c: char): (r: Option<nat>)
    ensures r.Some? ==> r.value < |s| && s[r.value] == c
    ensures r.Some? ==> forall k :: r.value < k < |s| ==> s[k] != c
    ensures r.None? <==> c !in s
  {
    if s == [] then None
    else if s[|s| - 1] == c then Some(|s| - 1)
    else
      assert s == s[..|s| - 1] + [s[|s| - 1]];
      LastIndex(s[..|s| - 1], c)
  }

  /** The last path segment, trailing slashes ignored. */
  function Basename(p: string): (r: string)
    ensures '/' !in r
  {
    var q := StripTrailingSlashes(p);
    match LastIndex(q, '/')
    case None => q
    case Some(k) =>
      q[k + 1..]
  }

  /** path.extname: from the last '.' of the last segment, except that a segment
      whose only '.' is its first character, or the segment "..", has none. */
  function Extname(p: string): (r: string)
    ensures ExtensionShape(r)
    // a suffix of the last segment, so with its shape: from the last '.' on
    ensures r != [] ==> EndsWith(Basename(p), r)
    // none exactly when no '.' follows the segment's first character, or the segment is ".."
    ensures r == [] <==> Basename(p) == ".." || forall k :: 0 < k < |Basename(p)| ==> Basename(p)[k] != '.'
  {
    var b := Basename(p);
    match LastIndex(b, '.')
    case None => []
    case Some(d) =>
      if d == 0 || b == ".." then []
      else
        assert b[d..][1..] == b[d + 1..];
        b[d..]
  }

  /** The stored name: a fresh uuid and the lower-cased extension of the
      uploaded file's own name. */
  function StoredFilename(uuid: string, originalName: string): string {
    uuid + Lower(Extname(originalName))
  }

  /** The shape of an extension: empty, or a '.' followed by neither '.' nor '/'. */
  predicate ExtensionShape(e: string) {
    e == [] || (e[0] == '.' && '.' !in e[1..] && '/' !in e)
  }

  /** Lower-casing keeps that shape. */
  lemma LowerKeepsShape(e: string)
    requires ExtensionShape(e)
    ensures ExtensionShape(Lower(e))
  {
    var le := Lower(e);
    if e != [] {
      forall k | 0 <= k < |le| ensures le[k] != '/' && (k > 0 ==> le[k] != '.') {
        assert e[k] in e;
        if k > 0 {
          assert e[1..][k - 1] == e[k];
        }
      }
    }
  }

  /** A stem with no '.' and no '/' followed by an extension has that extension. */
  lemma ExtnameAfterStem(stem: string, e: string)
    requires stem != [] && '.' !in stem && '/' !in stem
    requires ExtensionShape(e)
    ensures Extname(stem + e) == e
  {
    var s := stem + e;
    assert '/' !in s;
    assert s[|s| - 1] in s;
    assert StripTrailingSlashes(s) == s;
    assert Basename(s) == s;
    if e == [] {
      assert s == stem;
    } else {
      assert s[|stem|] == '.';
      forall k | |stem| < k < |s| ensures s[k] != '.' {
        assert s[k] == e[1..][k - |stem| - 1];
      }
      assert LastIndex(s, '.') == Some(|stem|);
      assert s != ".." by { assert s[0] in stem; }
      assert s[|stem|..] == e;
    }
  }

  /** The stored name carries the original extension, lower-cased: any uuid (no
      '.' and no '/' in it) is the stem and the extension survives intact. */
  lemma StoredKeepsExtension(uuid: string, originalName: string)
    requires uuid != [] && '.' !in uuid && '/' !in uuid
    ensures Extname(StoredFilename(uuid, originalName)) == Lower(Extname(originalName))
  {
    LowerKeepsShape(Extname(originalName));
    ExtnameAfterStem(uuid, Lower(Extname(originalName)));
  }
}

=== FILE: wrappers.dfy ===
/** Option and Result datatypes shared by every module of the model. */
module Wrappers {

  /** A value that may be absent: JavaScript's `undefined`/`null`. */
  datatype Option<+T> = None | Some(value: T) {

    /** The value, or `default` when absent. */
    function GetOr(default: T): T {
      match this
      case Some(v) => v
      case None => default
    }
  }

  /** The outcome of an operation that can throw: `Ok` or the error it raised. */
  datatype Result<+T, +E> = Ok(value: T) | Err(error: E) {

    predicate IsFailure() {
      Err?
    }

    function PropagateFailure<U>(): Result<U, E>
      requires Err?
    {
      Err(error)
    }

    function Extract(): T
      requires Ok?
    {
      value
    }
  }
}
